=== FILE: README.md ===
# A verified model of the xunijiaoyiweb trading front end

xunijiaoyiweb is a React/TypeScript front end for a simulated futures and
funds trading platform, backed by mock services. This project models the
logic in that code that has state or rules: token-refresh coordination, the
real-time socket client, authentication state and route guards, form
validators and result mappers, and the small list, string and arithmetic
operations inside the trading and administration pages. Every operation is
stated in Dafny with a contract, and the properties those pages and services
promise are proved about the model.

Conventions across the model:

- The language's values are the `Js.Value` datatype, with the language's
  truthiness, property reads that throw on `null`/`undefined`, and object
  spread (`js.dfy`).
- Asynchronous behaviour becomes explicit events. Examples: "a 401 arrives",
  "the refresh resolves with token t", "the refresh fails with e",
  "an acknowledgment arrives". A promise is an explicit outcome, one of
  pending, resolved or rejected.
- Clock readings (`Date.now()`, `moment()`), storage contents and the
  socket are parameters or state of the model, never read from outside.
- Sizes are exact reals and times are whole milliseconds.
- The query string of the log page follows the
  `application/x-www-form-urlencoded` serializer of the WHATWG URL Standard
  (section 5.2). That serializer keeps `*-._` and alphanumerics, writes a
  space as `+`, and percent-encodes everything else as UTF-8.

One Dafny module per source file (module ← file):

| module | source file |
|---|---|
| `Js` | shared language semantics |
| `Singleton` | the lazy `getInstance` pattern shared by two services |
| `RefreshQueue` | src/services/requestQueue.ts |
| `RequestQueue` | src/utils/requestQueue.ts |
| `ApiClient` | src/utils/apiClient.ts |
| `Realtime` | src/services/realtimeService.ts |
| `AuthStore` | src/store/authStore.ts |
| `AuthService` | src/services/auth.ts |
| `Router` | src/router/index.tsx |
| `RouteGuard` | src/components/ProtectedRoute.tsx |
| `UserHook` | src/hooks/useUser.js |
| `ErrorHandler` | src/utils/errorHandler.ts |
| `TradingService` | src/services/tradingService.ts |
| `LoginPage` | src/pages/Login.tsx |
| `Countdown` | src/hooks/useCountdown.ts |
| `ConfirmAction` | src/hooks/useConfirmAction.ts |
| `OrderHook` | src/hooks/useOrder.js |
| `MarketList` | src/components/TradingPanel.tsx |
| `RecentTrades` | src/pages/admin/RealtimeDashboard.tsx |
| `TradeAdmin` | src/pages/admin/TradeManagement.tsx |
| `LogQuery` | src/pages/admin/settings/LogSettings.tsx |
| `BackupSize` | src/pages/admin/settings/BackupSettings.tsx |
| `Metrics` | src/components/PerformanceReport.tsx |

## Model

| member | source | states |
|---|---|---|
| RequestQueue.SetRefreshing | src/utils/requestQueue.ts:26-32 | the setter changes the flag the getter reads and leaves the queue alone |
| RequestQueue.Enqueue | src/utils/requestQueue.ts:22-24 | the request joins the back of the queue; earlier entries and the flag are unchanged |
| RequestQueue.SettleAll | src/utils/requestQueue.ts:11-20 | one settlement per queued caller, in queue order: all rejected with a truthy error, otherwise each resolved with its own config |
| RequestQueue.ProcessQueue | src/utils/requestQueue.ts:11-20 | every queued caller is settled once in queue order, by the truthiness of the error, and the queue is emptied with the flag untouched |
| RequestQueue.EnqueueAllAppends | src/utils/requestQueue.ts:22-24 | enqueuing a batch appends it in order and leaves the flag alone |
| RequestQueue.FirstComeFirstServed | src/utils/requestQueue.ts:11-35 | callers queued while refreshing are all answered by the next processQueue, in arrival order, leaving an empty queue |
| RefreshQueue.WithBearer | src/services/requestQueue.ts:69-71 | with a headers object the Authorization header becomes `Bearer <token>`; without one the config is unchanged |
| RefreshQueue.ProcessQueue | src/services/requestQueue.ts:64-76 | a truthy error rejects every waiting request in order; otherwise a non-empty token replays each with the new token; otherwise nobody is settled |
| RefreshQueue.Unauthorized | src/services/requestQueue.ts:25-46 | no config rejects at once with the same error; during a refresh the request only joins the queue; otherwise the flag goes up and exactly one refresh call is made; the single-flight invariant is kept |
| RefreshQueue.RefreshSucceeded | src/services/requestQueue.ts:46-54 | queued requests are replayed first, then the original (rejected with a TypeError when it has no headers object); queue emptied, flag down, token kept; invariant kept |
| RefreshQueue.RefreshFailed | src/services/requestQueue.ts:55-61 | the queue is settled with the refresh error, then the original request is rejected with it; queue emptied, flag down; invariant kept |
| RefreshQueue.RunKeepsSingleFlight | src/services/requestQueue.ts:31-42 | under any interleaving of 401s and refresh outcomes at most one refresh is in flight, so calls never run ahead of settled refreshes by more than one |
| RefreshQueue.RunOnlyAppends | src/services/requestQueue.ts:64-76 | a settled promise is never unsettled or changed: settlements are only appended |
| RefreshQueue.TwoOverlapping401sSucceed | src/services/requestQueue.ts:25-62 | two overlapping 401s cause one refresh call; on success the queued request and then the original are replayed with the new token |
| RefreshQueue.TwoOverlapping401sFail | src/services/requestQueue.ts:55-61 | two overlapping 401s with a failing refresh both reject with the refresh error, queued one first |
| RefreshQueue.NextRefreshIsNeverSkipped | src/services/requestQueue.ts:59-61 | the `finally` lowers the flag, so the next 401 starts a new refresh call |
| RefreshQueue.EmptyTokenDropsQueue | src/services/requestQueue.ts:66-75 | an empty refreshed token neither resolves nor rejects the waiting requests: they are dropped |
| ApiClient.AttachToken | src/utils/apiClient.ts:31-36 | `Authorization: Bearer <token>` is set exactly when the store's user has a non-empty token; otherwise the config goes out unchanged |
| ApiClient.OnFulfilled | src/utils/apiClient.ts:45 | a successful response reaches the caller as its `data` |
| ApiClient.OnRejected | src/utils/apiClient.ts:47-55 | a non-401 or an already-retried request rejects with the original error; a first 401 is marked `_retry` first; a refresh starts exactly when the user holds a refresh token, otherwise the original error is the rejection |
| ApiClient.RefreshToken | src/utils/apiClient.ts:59 | the token is read from `data.token` of the already unwrapped reply; the read fails exactly when the reply is not an object or its `data` is `null` or missing; a `data` that is not an object (text, a number, an array) yields an undefined token |
| ApiClient.TypeError | src/utils/apiClient.ts:59-65 | the error a failed destructuring throws is an `Error`, reported by the handler as `错误` with its message |
| ApiClient.TokenReply | src/utils/apiClient.ts:56-59 | a reply nesting the token as `data.token` yields exactly that token |
| ApiClient.OnRefreshSettled | src/utils/apiClient.ts:56-67 | a refreshed token goes into the store via updateUser and the marked request is reissued with it; a `data` without a token stores an undefined token and reissues with `Bearer undefined`; a reply without `data` throws a TypeError that is reported once and is the rejection; a failed refresh is reported once and its error, not the 401, is the rejection |
| ApiClient.MissingTokenStillReissues | src/utils/apiClient.ts:59-62 | a reply `{ data: {} }` reissues the request with `Bearer undefined` and leaves the store without a usable token, so the request interceptor adds nothing more |
| ApiClient.TopLevelTokenIsMissed | src/utils/apiClient.ts:45-59 | a reply carrying the token at its top level (`{ token }`) fails the refresh with a reported TypeError and leaves the store unchanged |
| ApiClient.RefreshCallIsInterceptedToo | src/utils/apiClient.ts:47-58 | a 401 on the refresh call itself, which goes through the same client, starts another refresh |
| ApiClient.ReissueCarriesNewToken | src/utils/apiClient.ts:59-62 | the reissued request still carries the new token after the request interceptor runs again |
| ApiClient.RetryAtMostOnce | src/utils/apiClient.ts:50-51 | a reissued request that fails again is rejected with its own error, so no request is refreshed twice |
| ApiClient.GetInstance | src/utils/apiClient.ts:21-26 | an existing client is returned unchanged; afterwards the slot always holds the returned client |
| Singleton.GetInstance | src/utils/apiClient.ts:21-26 | constructs only when the slot is empty; otherwise returns the stored instance and changes nothing |
| Singleton.FilledSlotIsStable | src/services/realtimeService.ts:14-19 | once an instance exists, every further call returns it and constructs nothing |
| Singleton.AlwaysTheSameInstance | src/services/realtimeService.ts:14-19 | from an unloaded module, any number of calls construct exactly one instance and all return it |
| Realtime.Construct | src/services/realtimeService.ts:8-34 | a new client is disconnected, has emitted nothing, and has exactly the connect, disconnect and error handlers registered, in that order |
| Realtime.GetInstance | src/services/realtimeService.ts:14-19 | an existing client is returned unchanged; afterwards the slot always holds the returned client |
| Realtime.Authenticate | src/services/realtimeService.ts:36-41 | emits `authenticate` with the store's current token exactly when that token is non-empty; otherwise nothing changes |
| Realtime.TransportConnected | src/services/realtimeService.ts:22-25 | every connect marks the client connected and emits one `authenticate` frame exactly when the store then holds a token; listeners and trade promises are untouched |
| Realtime.TransportDisconnected | src/services/realtimeService.ts:27-29 | a disconnect only clears the connected flag |
| Realtime.TransportError | src/services/realtimeService.ts:31-33 | a socket error is only logged and never thrown |
| Realtime.EventNamesDistinct | src/services/realtimeService.ts:44-59 | the three streams listen under `market_update`, `trade_update` and `fund_update`, and different streams under different names |
| Realtime.Subscribe | src/services/realtimeService.ts:44-59 | registers the callback under its stream's name, at the end, and returns exactly that pair for the unsubscribe |
| Realtime.RemoveFirst | src/services/realtimeService.ts:46 | `off` removes one registration of exactly that pair (the earliest), leaving every other registration in place |
| Realtime.Unsubscribe | src/services/realtimeService.ts:46 | the returned function removes its own pair from the listeners and nothing else |
| Realtime.Dispatch | src/services/realtimeService.ts:44-59 | an inbound event reaches exactly the handlers registered under its name, each once per registration |
| Realtime.DispatchCons | src/services/realtimeService.ts:44-59 | the first registration is reached first, before all later ones |
| Realtime.DispatchAppend | src/services/realtimeService.ts:44-59 | a handler registered last is reached last, after every handler registered before it |
| Realtime.SubscribeThenUnsubscribe | src/services/realtimeService.ts:44-47 | subscribing and then calling the returned unsubscribe restores the listeners exactly |
| Realtime.RemoveAppended | src/services/realtimeService.ts:45-46 | removing a pair just appended, and not registered before, gives back the earlier listeners |
| Realtime.UnsubscribeStopsDelivery | src/services/realtimeService.ts:44-59 | after unsubscribing a once-registered callback it receives nothing more, other registrations are untouched, and a second unsubscribe changes nothing |
| Realtime.SendTrade | src/services/realtimeService.ts:62-64 | emits `place_trade` with the trade data unchanged and a fresh acknowledgment id whose promise is pending |
| Realtime.Settle | src/services/realtimeService.ts:64-69 | a truthy `success` resolves with `response.data`; otherwise the promise rejects with `response.error` as sent, unwrapped; a null or undefined acknowledgment throws in the callback and settles nothing; any other non-object rejects with undefined |
| Realtime.Acknowledge | src/services/realtimeService.ts:64-70 | only a pending promise is touched, by its own acknowledgment, and it stops being pending even when the callback throws; every other promise keeps its outcome |
| Realtime.SettlesAtMostOnce | src/services/realtimeService.ts:62-72 | a second acknowledgment for the same promise changes nothing, and the first decides the outcome |
| Realtime.NullAckStrands | src/services/realtimeService.ts:64-65 | a null acknowledgment leaves its promise neither pending nor settled, for good |
| Realtime.AcknowledgeCommutes | src/services/realtimeService.ts:62-72 | acknowledgments for two different promises can arrive in either order with the same result |
| Realtime.NoCrossTalk | src/services/realtimeService.ts:62-72 | two trades in flight get distinct ids, and each takes its outcome, or stays unsettled, by its own acknowledgment in either arrival order |
| Realtime.StepsKeepInv | src/services/realtimeService.ts:62-72 | sending and acknowledging keep pending and settled promises disjoint |
| Realtime.Disconnect | src/services/realtimeService.ts:74-82 | `isConnected` is false afterwards; the result is what the local `disconnect` handler leaves, and nothing but the flag changes |
| Realtime.ConnectedTracksTransport | src/services/realtimeService.ts:21-29 | `isConnected` is true after every `connect` and false after a transport disconnect or a `disconnect()` call |
| Realtime.ReconnectRereadsToken | src/services/realtimeService.ts:21-41 | a connect after a disconnect authenticates with the token the store holds at that moment, not the one from the first connection, or emits nothing without a token; earlier frames are kept |
| AuthStore.TokenPatch | src/utils/apiClient.ts:60 | `updateUser({ token })` carries the token and no other property |
| AuthStore.Bearer | src/utils/apiClient.ts:34 | the header value is `Bearer ` followed by exactly the token |
| AuthStore.Login | src/store/authStore.ts:53-56 | the store holds the given user and is authenticated |
| AuthStore.Logout | src/store/authStore.ts:58-61 | the store returns to its initial state (no user, not authenticated), whatever it was before |
| AuthStore.SessionLifecycle | src/store/authStore.ts:50-61 | login leaves nothing of the previous session, logout after login is the initial state, and the token and admin checks read the new user |
| AuthStore.UpdateUser | src/store/authStore.ts:63-65 | a present user takes exactly the patch's properties and keeps the rest; an absent user stays absent; the authentication flag never changes |
| AuthStore.UpdateWithEmptyPatch | src/store/authStore.ts:63-65 | an empty patch changes nothing |
| AuthStore.UpdateTwice | src/store/authStore.ts:63-65 | two updates are one update with the merged patch, and repeating a patch changes nothing more |
| AuthStore.TokenRefreshKeepsSession | src/store/authStore.ts:63-65 | a token update keeps the user signed in with only the token replaced |
| AuthStore.GetItem | src/store/authStore.ts:34-37 | `null` exactly when nothing, or the empty string, is stored under the name; otherwise the stored text |
| AuthStore.GetAfterSet | src/store/authStore.ts:34-41 | reading back a written non-empty text gives that text |
| AuthStore.GetAfterRemove | src/store/authStore.ts:34-44 | reading back a removed name gives `null` |
| AuthService.AdminResponse | src/services/auth.ts:31-40 | the administrator's response carries profile id `1`, role `admin`, email `admin@example.com` |
| AuthService.Login | src/services/auth.ts:24-57 | fails with `用户名或密码错误` exactly when username or password is empty; `admin` gets the administrator profile and `mock_admin_` tokens; anyone else gets id `2`, role `user`, their own name, `<name>@example.com` and `mock_user_` tokens, each token suffixed with its clock reading |
| AuthService.AdminLogin | src/services/auth.ts:60-78 | succeeds exactly for `admin` with a non-empty password, with the administrator response; otherwise fails with `管理员用户名或密码错误` |
| AuthService.VerifyCodeIgnored | src/services/auth.ts:24-78 | the verification code changes neither decision |
| AuthService.AdminLoginAgreesWithLogin | src/services/auth.ts:30-40 | whoever passes adminLogin gets the same response from login, and login yields the admin role exactly for such requests |
| AuthService.TokensDependOnTime | src/services/auth.ts:32 | logins at different clock readings receive different tokens |
| AuthService.Logout | src/services/auth.ts:105-110 | the store is reset to the signed-out state |
| Router.ProtectedRoute | src/router/index.tsx:22-34 | a signed-out visitor is sent to `/login` whatever the role; a non-admin is sent to `/` from an admin route; the page shows exactly when signed in with the required role |
| Router.GuestRoute | src/router/index.tsx:37-44 | the page shows exactly when signed out; a signed-in administrator on the admin sign-in goes to `/admin`, everyone else signed in to `/` |
| Router.ProtectedAndGuestExclusive | src/router/index.tsx:25-39 | for any store, exactly one of a default protected page and a guest page shows |
| Router.Visit | src/router/index.tsx:46-84 | the main pages sit behind the default guard, the admin pages behind the admin guard, the sign-in pages behind the guest guard, and unknown paths redirect to `/` |
| Router.AdminAreaNeedsAdmin | src/router/index.tsx:57-67 | an admin page shows exactly to a signed-in administrator |
| Router.NoRedirectLoop | src/router/index.tsx:22-84 | from any path at most two redirects reach a page: a sign-in page when signed out, an application page when signed in |
| RouteGuard.Guard | src/components/ProtectedRoute.tsx:13-43 | children show exactly when signed in and (admin not required or the user is admin), and otherwise nothing renders; signed out: toast `请先登录` and navigate to `/admin/login` or `/login` with the current path as `from`; wrong role: toast `无权访问` and navigate to `/` |
| RouteGuard.AuthenticationFirst | src/components/ProtectedRoute.tsx:20-26 | a signed-out visitor is always sent to a sign-in page, never routed by the role check |
| RouteGuard.AgreesWithRouter | src/components/ProtectedRoute.tsx:35-43 | the guard shows its children in exactly the cases the router's protected route does |
| UserHook.Mount | src/hooks/useUser.js:8-12 | the hook starts with no user, no roles, no permissions, loading and no error |
| UserHook.MockPermissionsDistinct | src/hooks/useUser.js:48-59 | the fixed permission list has ten distinct entries |
| UserHook.LoadRolesAndPermissions | src/hooks/useUser.js:43-62 | roles become `['admin']` and permissions the fixed list, whatever the user id |
| UserHook.Login | src/hooks/useUser.js:86-101 | succeeds exactly when storage accepts the write and the user data is neither null nor undefined, then persists the user under `user`, sets it and loads the mock roles and permissions; a failing step records its message as the error and returns it, leaving the earlier steps done |
| UserHook.FetchUser | src/hooks/useUser.js:17-37 | with nothing stored only loading ends; a stored user is restored with the mock roles and permissions; a stored null or undefined sets an error; loading is false afterwards in every case |
| UserHook.Logout | src/hooks/useUser.js:106-114 | removes `user` from storage, keeps every other key, and clears user, roles and permissions |
| UserHook.LoginGrantsMockAccess | src/hooks/useUser.js:121-132 | after a successful login hasRole holds exactly for `admin` and hasPermission exactly for the ten fixed permissions |
| UserHook.LogoutRevokesEverything | src/hooks/useUser.js:111-132 | after logout hasPermission and hasRole are false for every argument |
| UserHook.LoginSurvivesReload | src/hooks/useUser.js:17-37 | a hook mounted after a successful login restores the same user with the same roles and permissions |
| UserHook.LogoutSurvivesReload | src/hooks/useUser.js:17-37 | after logout a new mount restores nothing |
| ErrorHandler.NetworkError | src/utils/errorHandler.ts:69-75 | `ECONNABORTED` shows the timeout notice and every other code the network-error notice |
| ErrorHandler.StatusNotice | src/utils/errorHandler.ts:33-58 | 400, 404 and 422 show the server's message or their fixed fallback; 401, 403 and 500 always show their fixed text; every other status shows `错误` with the message or `发生未知错误` |
| ErrorHandler.ServerMessageShownFor | src/utils/errorHandler.ts:36-58 | a non-empty server message is shown for every status except 401, 403 and 500, which never show it |
| ErrorHandler.FixedTextStatuses | src/utils/errorHandler.ts:40-55 | for 401, 403 and 500 the server's message has no influence on the notice |
| ErrorHandler.Handle | src/utils/errorHandler.ts:11-31 | one error notice: axios errors without a response go to the network branch, with one to the status switch; other Error instances show their message; anything else shows the unknown-error notice; null and undefined are excluded because the axios check dereferences them |
| ErrorHandler.FormValidationErrors | src/utils/errorHandler.ts:120-124 | exactly one `表单错误` notice per entry, in entry order, carrying its message |
| ErrorHandler.Failures | src/utils/errorHandler.ts:128 | keeps exactly the failed results and is empty exactly when every result succeeded |
| ErrorHandler.FailuresKeepOrder | src/utils/errorHandler.ts:128 | the filter keeps the results' order: failures of a concatenation are the concatenated failures |
| ErrorHandler.BatchOperationResults | src/utils/errorHandler.ts:127-133 | nothing when every operation succeeded; otherwise one warning with the failure count, then one error per failure in order |
| TradingService.Generated | src/services/tradingService.ts:48-49 | the service generates exactly an order id and the status `submitted` |
| TradingService.PlaceTrade | src/services/tradingService.ts:35-58 | resolves exactly when the trade is an object whose symbol, quantity and type are all truthy, with code 200, `订单提交成功` and the trade spread over the generated fields; otherwise rejects with `请填写完整的交易信息`, or with a TypeError for a null or undefined trade |
| TradingService.PlacedOrderEchoesTrade | src/services/tradingService.ts:47-51 | every field the caller sent comes back unchanged (overriding the generated ones), nothing but the order id and status is added, and the status is `submitted` when none was sent |
| TradingService.ZeroQuantityRefused | src/services/tradingService.ts:38 | the check is by truthiness, so quantity 0 or an empty symbol is refused as incomplete |
| TradingService.CancelOrder | src/services/tradingService.ts:61-68 | always code 200 and `订单取消成功`, echoing the order id with status `cancelled` |
| TradingService.MarketDataIgnoresSymbol | src/services/tradingService.ts:5-12 | the reply is the same fixture whatever symbol is requested |
| OrderHook.Begin | src/hooks/useOrder.js:9-10 | each call first raises `isSubmitting` and clears the status |
| OrderHook.Caught | src/hooks/useOrder.js:22-25 | a thrown error fails with its message or `未知错误`, shown after the prefix `订单提交失败: ` |
| OrderHook.SubmitOrder | src/hooks/useOrder.js:12-28 | succeeds exactly for a response with truthy `success`, status `下单成功`; any other response that is not null or undefined fails with its message or `下单失败` as both error and status; a null or undefined response throws on `response.success` and, like a thrown error, goes to the catch branch; `isSubmitting` ends false on every path |
| OrderHook.FailureAlwaysExplained | src/hooks/useOrder.js:12-28 | for every post, a failed order carries a truthy reason that the status line shows, bare or after `订单提交失败: `; a successful one shows `下单成功` |
| OrderHook.MockClientAlwaysFails | src/hooks/useOrder.js:15-20 | a reply without `success`, as the application's mock client sends, is always reported as failed with `Success` as error and status |
| Countdown.Mount | src/hooks/useCountdown.ts:11-13 | the hook starts at 0 and inactive, storage untouched |
| Countdown.CeilSeconds | src/hooks/useCountdown.ts:20 | `Math.ceil(ms / 1000)`: the least whole number of seconds covering the milliseconds, negative ones included |
| Countdown.CeilSecondsUnique | src/hooks/useCountdown.ts:20 | no other number of seconds has that property |
| Countdown.Restore | src/hooks/useCountdown.ts:16-28 | a saved countdown with time left resumes at the rounded-up seconds and becomes active; an expired one is removed from storage; with nothing saved nothing changes |
| Countdown.Start | src/hooks/useCountdown.ts:53-61 | shows the full length, becomes active, and saves the phone with an end time exactly that many seconds after now |
| Countdown.Tick | src/hooks/useCountdown.ts:31-50 | the timer only acts while active with time left; each tick takes exactly one second off, and reaching zero deactivates and clears storage |
| Countdown.StepsKeepInv | src/hooks/useCountdown.ts:33-41 | restore, tick and start keep the countdown non-negative and active exactly while there is time left |
| Countdown.CountsDownToZero | src/hooks/useCountdown.ts:33-41 | after k ticks a started countdown shows k seconds less, and once it reaches zero it stays stopped with storage cleared |
| Countdown.StaysStopped | src/hooks/useCountdown.ts:31-34 | a countdown whose timer is not running (inactive, or no time left) never changes, however many ticks pass |
| Countdown.RestoreResumesStart | src/hooks/useCountdown.ts:20-23 | a reload at the moment of the start resumes the full length, and a later reload never shows more |
| ConfirmAction.DialogFor | src/hooks/useConfirmAction.ts:18-23 | every text given is used as given, and each one left out gets its own default: `确认操作`, `是否确认执行此操作？`, `确定` or `取消` |
| ConfirmAction.ConfirmAction | src/hooks/useConfirmAction.ts:25-49 | on confirm the action is called with exactly the given arguments, the promise settles as the action did, and loading goes true then false; on cancel the action is never called and the promise rejects with `Error('用户取消操作')` |
| ConfirmAction.LoadingEndsFalse | src/hooks/useConfirmAction.ts:36-47 | loading is false after every call, and a rejection with the cancel error means the user cancelled, unless the action itself threw that same error |
| LoginPage.Initial | src/pages/Login.tsx:9-23 | the page starts with an empty form, no errors and nothing loading |
| LoginPage.HandleChange | src/pages/Login.tsx:26-40 | only the named field takes the new value and only its error is cleared |
| LoginPage.ValidateForm | src/pages/Login.tsx:43-67 | all three errors are recomputed from scratch (trimmed username, untrimmed password with the six-character minimum, untrimmed code) and the form is valid exactly when none is set |
| LoginPage.ValidIff | src/pages/Login.tsx:47-63 | the form is valid exactly when the username has a non-blank character, the password at least six characters and the code any character |
| LoginPage.SendVerifyCode | src/pages/Login.tsx:70-90 | a blank username only sets its error and neither sends nor starts the countdown; otherwise the countdown starts for that username with the default length and the success message shows |
| LoginPage.ResendBlockedDuringCountdown | src/pages/Login.tsx:239 | after a code is sent the button stays disabled for the whole minute and is enabled again when the countdown runs out |
| LoginPage.SessionUser | src/pages/Login.tsx:101-105 | the store receives the response's profile plus its token and refresh token |
| LoginPage.Request | src/pages/Login.tsx:100 | the form is sent exactly as typed |
| LoginPage.HandleSubmit | src/pages/Login.tsx:93-112 | an invalid form only shows its errors and never reaches the service; a valid one is sent, and success signs the user in while failure shows `登录失败，请检查用户名和密码`; loading ends false |
| LoginPage.ValidSubmitSignsIn | src/pages/Login.tsx:96-105 | a form that passes validation always signs in, as the typed user, and as administrator exactly when the username is `admin` |
| MarketList.FindIndex | src/components/TradingPanel.tsx:56 | the first position holding the symbol, or -1 exactly when no entry has it |
| MarketList.FindIndexLoop | src/components/TradingPanel.tsx:56 | the left-to-right search finds the same position as the reference definition |
| MarketList.Upsert | src/components/TradingPanel.tsx:55-64 | a known symbol's first entry is replaced in place with every other position and the length kept; an unknown symbol is appended; the update is in the result |
| MarketList.UpsertKeepsSymbolsDistinct | src/components/TradingPanel.tsx:56-63 | distinct symbols stay distinct, and the update's symbol then names only the update |
| MarketList.UpsertIdempotent | src/components/TradingPanel.tsx:56-63 | pushing the same quote twice gives the same list as pushing it once |
| RecentTrades.Prepend | src/pages/admin/RealtimeDashboard.tsx:56 | the new trade comes first, the length is the old length plus one capped at ten, and the rest is the previous list's prefix in order |
| RecentTrades.Fixture | src/pages/admin/RealtimeDashboard.tsx:45-49 | the delayed load installs the three fixture trades `order_1` to `order_3` |
| RecentTrades.NeverMoreThanTen | src/pages/admin/RealtimeDashboard.tsx:45-56 | from any list of at most ten, under any mix of updates and fixture loads, the list never holds more than ten |
| RecentTrades.ShowsNewestTen | src/pages/admin/RealtimeDashboard.tsx:56 | after a run of updates the list is the newest ten trades seen, newest first, the oldest dropped first |
| RecentTrades.TakeAbsorbs | src/pages/admin/RealtimeDashboard.tsx:56 | cutting to ten before more trades go in front changes nothing about the first ten |
| TradeAdmin.KnownTag | src/pages/admin/TradeManagement.tsx:153-158 | a tag is known exactly for `completed`, `pending` and `cancelled` |
| TradeAdmin.StatusTagAsWritten | src/pages/admin/TradeManagement.tsx:153-162 | the three statuses get their own tags and any other status not named like an inherited object member gets the grey `未知` tag |
| TradeAdmin.BlankTagForInheritedName | src/pages/admin/TradeManagement.tsx:160 | every status named like an inherited object member (`constructor`, `toString`, ...) gets no colour and no text |
| TradeAdmin.StatusTag | src/pages/admin/TradeManagement.tsx:153-162 | completed is green `已完成`, pending orange `处理中`, cancelled red `已取消`, every other status grey `未知` |
| TradeAdmin.StatusTagCorrected | src/pages/admin/TradeManagement.tsx:153-162 | the corrected tag agrees with the page wherever the page shows one, always has colour and text, and is `未知` exactly for unknown statuses |
| TradeAdmin.Actions | src/pages/admin/TradeManagement.tsx:213-224 | only a pending trade is offered changes, to `completed` and `cancelled` |
| TradeAdmin.ActionsAreFinal | src/pages/admin/TradeManagement.tsx:213-224 | every offered change leaves `pending` for a final status from which nothing more is offered |
| TradeAdmin.HandleTableChange | src/pages/admin/TradeManagement.tsx:145-151 | the page becomes the one asked for, the size the one given or the previous one when missing or zero, and the total is untouched |
| TradeAdmin.TableChangeRoundTrip | src/pages/admin/TradeManagement.tsx:145-151 | turning to a page and back restores the pagination |
| TradeAdmin.SearchQuery | src/pages/admin/TradeManagement.tsx:102-106 | the search asks for page 1 with the current size, under the form's values, which win on a clash |
| TradeAdmin.Receive | src/pages/admin/TradeManagement.tsx:73-92 | a bare array replaces the trades only; an object with trades replaces them and, with pagination, sets the total (or 0) and on search returns to page 1; a null or undefined answer shows the failure; any other value (text, a number, an error) changes nothing |
| TradeAdmin.FetchTrades | src/pages/admin/TradeManagement.tsx:65-96 | the page and size are kept, and a failure shows `获取交易列表失败` |
| TradeAdmin.HandleSearch | src/pages/admin/TradeManagement.tsx:98-132 | the size is kept, and a failure shows `搜索交易失败` |
| TradeAdmin.SearchPaginationRule | src/pages/admin/TradeManagement.tsx:74-122 | a bare-array answer never moves the pagination, even on search; an object answer with pagination moves a search back to page 1; a fetch never changes the page |
| LogQuery.Padded | src/pages/admin/settings/LogSettings.tsx:24-25 | the number's decimal digits, left-padded with zeros to the width and never cut |
| LogQuery.FormatDay | src/pages/admin/settings/LogSettings.tsx:24-25 | a `YYYY-MM-DD` date consists only of digits and dashes |
| LogQuery.PaddedReadsBack | src/pages/admin/settings/LogSettings.tsx:24-25 | zero-padded digits read back as the number |
| LogQuery.DayReadsBack | src/pages/admin/settings/LogSettings.tsx:24-25 | a date whose year has at most four digits and month and day at most two is rendered as ten characters, dashes at 4 and 7, whose three digit groups read back as year, month and day |
| LogQuery.DateParams | src/pages/admin/settings/LogSettings.tsx:23-26 | a date range adds two parameters and no range adds none |
| LogQuery.Filter | src/pages/admin/settings/LogSettings.tsx:27-32 | a filter is added exactly when its value is not `all` |
| LogQuery.Params | src/pages/admin/settings/LogSettings.tsx:20-32 | the parameters come in the order startDate, endDate, level, category, each present exactly when its condition holds |
| LogQuery.Encode | src/pages/admin/settings/LogSettings.tsx:34-35 | the serializer's output uses only unreserved characters, `+` and `%`, and leaves text made of unreserved characters unchanged |
| LogQuery.EncodedHasNoSeparator | src/pages/admin/settings/LogSettings.tsx:34-35 | no encoded name or value contains `&`, `=` or `?` |
| LogQuery.Pairs | src/pages/admin/settings/LogSettings.tsx:34-35 | one `name=value` item per parameter, in order, both sides encoded |
| LogQuery.SplitJoin | src/pages/admin/settings/LogSettings.tsx:35 | splitting undoes joining when no piece contains the separator |
| LogQuery.LogsUrl | src/pages/admin/settings/LogSettings.tsx:20-36 | the bare path exactly when no date range is set and both filters are `all`; otherwise the path, `?` and the serialized parameters |
| LogQuery.UrlRoundTrip | src/pages/admin/settings/LogSettings.tsx:20-36 | reading the URL back gives the path and every parameter appended, in order, with its encoded value |
| LogQuery.QueryRoundTrip | src/pages/admin/settings/LogSettings.tsx:34-35 | the query reads back as the encoded pairs |
| LogQuery.PlainValuesComeBack | src/pages/admin/settings/LogSettings.tsx:23-36 | with filter values made of unreserved characters the URL reads back as exactly the parameters appended |
| LogQuery.SelectedFiltersComeBack | src/pages/admin/settings/LogSettings.tsx:134-147 | for every value the two selects offer and any date range, the URL reads back as exactly the path and the parameters appended |
| BackupSize.ConvertSize | src/pages/admin/settings/BackupSettings.tsx:130-139 | the unit is one of B, KB, MB, GB; the value times 1024 to the unit's power is the size; the value is below 1024 unless the unit is GB, and at least 1 unless it is B; a size below 1024 is shown unchanged in B; the loop settles where the reference scaling does |
| BackupSize.TypeTag | src/pages/admin/settings/BackupSettings.tsx:120-124 | `auto` is green `自动`, every other type blue `手动` |
| BackupSize.StatusTag | src/pages/admin/settings/BackupSettings.tsx:151-155 | `completed` is green `成功`, every other status red `失败` |
| BackupSize.TagsReadBack | src/pages/admin/settings/BackupSettings.tsx:120-155 | each column's tag reads back exactly whether the backup was automatic, and whether it completed |
| BackupSize.SameTagSameSide | src/pages/admin/settings/BackupSettings.tsx:120-155 | two backups show the same tag exactly when they fall on the same side of the column's one distinction |
| Metrics.LookupLabel | src/components/PerformanceReport.tsx:112-125 | a label is found exactly for a key the table lists, and it is that key's label |
| Metrics.MetricNameAsWritten | src/components/PerformanceReport.tsx:111-126 | the ten known keys get their labels and any other key not named like an inherited object member gets itself; the name is text or the inherited member |
| Metrics.NoLabelForInheritedKey | src/components/PerformanceReport.tsx:125 | every key named like an inherited object member (`constructor`, `valueOf`, ...) gets that member, not text |
| Metrics.MetricName | src/components/PerformanceReport.tsx:111-126 | the label of a known key, the key itself for every other key |
| Metrics.MetricNameCorrected | src/components/PerformanceReport.tsx:111-126 | the corrected name agrees with the page wherever the page gives text, and the page gives text for every key not named like an inherited member |
| Metrics.MetricUnit | src/components/PerformanceReport.tsx:128-136 | `ms` exactly for the ten time metrics, the empty string otherwise |
| Metrics.NamedIffTimed | src/components/PerformanceReport.tsx:112-133 | a key has a label exactly when it is measured in milliseconds, and exactly then its name differs from the key |
| Metrics.MetricRows | src/components/PerformanceReport.tsx:141-146 | one row per entry, in entry order, with the value unchanged, the page's name as written and the unit |
| Metrics.MetricRowsShowText | src/components/PerformanceReport.tsx:141-146 | while no key is named like an inherited member, every row's name is the corrected name as text |
| Metrics.FormatMetricData | src/components/PerformanceReport.tsx:138-147 | no rows without a report or without average metrics; otherwise one row per entry with its key and value |
| Metrics.MetricRowsRoundTrip | src/components/PerformanceReport.tsx:141-146 | the rows' keys and values read back as the entries |
| Metrics.TrendRow | src/components/PerformanceReport.tsx:152-156 | the row has key, name and every field of the trend; the trend's own fields, `name` included, override the page's name as written |
| Metrics.TrendRows | src/components/PerformanceReport.tsx:152-156 | one row per trend, in order |
| Metrics.FormatTrendData | src/components/PerformanceReport.tsx:149-157 | no rows without a report or without trends; otherwise one row per trend, in order |
| Metrics.TrendNameOverridesLabel | src/components/PerformanceReport.tsx:154-155 | a trend carrying its own `name` shows that name; one without shows the page's name for the key, the corrected name as text unless the key is named like an inherited member, which shows that member; every field of the trend is shown |
| Js.ReadProperty | src/pages/admin/TradeManagement.tsx:78-85 | reading a property fails with a TypeError exactly on `null` and `undefined`; an object gives its own field or `undefined`, an error its `message`, anything else `undefined` |
| Js.Spread | src/pages/admin/TradeManagement.tsx:102-106 | the spread object has the keys of both, and the later object's value wins on a shared key |
| Js.NatToString | src/services/auth.ts:32-33 | the decimal text is non-empty, all digits, and has no leading zero |
| Js.ParseNatToString | src/services/auth.ts:32-33 | the decimal text reads back as the number |
| Js.NatToStringInjective | src/services/auth.ts:32-33 | distinct numbers render as distinct texts |
| Js.TrimEmptyIffBlank | src/pages/Login.tsx:47 | trimming leaves nothing exactly when every character is whitespace |

## Left out

- Rendering: JSX, antd components, styling and layouts are not modelled. Only the decisions they display are modelled: tags, redirects, notices and rows.
- Network, storage and socket transport are not modelled as I/O. A reply, a stored value or an inbound frame is an input to the step that receives it. The socket.io transport, the axios interceptor machinery and zustand `persist` are taken as given.
- JSON: `JSON.stringify`/`JSON.parse` in the persisted storage is treated as an identity on stored values. A stored `undefined`, which the library would fail to parse back, is not modelled.
- Integer width: numbers shown as text (clock readings in tokens, failure counts) are natural numbers rendered in decimal. `Number` precision beyond safe integers and moment years of 10000 and above are not modelled.
- Floating point: `toFixed(2)` in the size column and every price or percentage rendering are left out. Sizes are exact reals, and NaN is not modelled.
- Built-in properties of primitives and arrays (`length` and the like) are not modelled. A property read on such a value gives `undefined`.
- String lengths count characters, not UTF-16 code units.
- Timers and randomness: the `setInterval`/`Math.random` subscriptions of src/services/tradingService.ts:70-100 are left out, and so are `getTradeHistory` and `getPositions`, which only return fixtures. So is the `setTimeout` that delays the recent-trades fixture: its arrival is an event.
- src/utils/apiClient.ts:76-176: the endpoint wrappers and the generic `request` are left out. They only forward to the mock client.
- src/services/auth.ts:80-102: `sendVerifyCode`, `forgotPassword`, `changePassword` and `validateToken` are left out. They are fixed mock replies with no decision in them.
- src/pages/admin/TradeManagement.tsx:134-143: `handleUpdateStatus` is left out. It calls an endpoint, shows a toast and refetches, so its only rule is the pending-only actions modelled by `TradeAdmin.Actions`.
- Console logging everywhere, and the `Modal.confirm` rendering in src/hooks/useConfirmAction.ts, are left out. The dialog's texts and its confirm/cancel outcome are modelled.
- Path normalisation by react-router (trailing slashes, case) is not modelled. Paths are compared as written in the route table.
- `ErrorHandler.StatusNotice`: a response whose body is `null` would make `data.message` throw. The model takes the body's message as an optional string.
- `RefreshQueue.ProcessQueue`: a refresh reply without a `token` field is not modelled. The refreshed token is a string.
- `ApiClient.OnRefreshSettled`, `ErrorHandler.Handle`: both require a thrown value that is not `null`/`undefined`, because the source dereferences it before any check.
- `ApiClient.OnRefreshSettled`: a `data.token` that is neither a string nor undefined (`null`, a number, an object) is excluded by its requires. An undefined token is stored as the empty string; every modelled reader of the token only tests its truthiness, so the two behave alike. The refresh call going through the same client is shown one step at a time by `ApiClient.RefreshCallIsInterceptedToo`. The unbounded chain of nested refreshes it allows is not composed into one run.
- `Metrics.MetricRows`, `Metrics.TrendRows`, `ErrorHandler.FormValidationErrors`: `Object.entries`/`Object.values` order is given as the order of the entries. The reordering of integer-like keys is not modelled.
- `OrderHook.Caught`: a thrown value is taken to carry a string `message`. A thrown `null`/`undefined`, on which reading `error.message` throws again, and a non-string message are not modelled.
- `TradeAdmin.Receive`: spreads the pagination current when the answer arrives. The source spreads the pagination captured when the request was sent. They differ only if the table changed page while a request was in flight.
- `Realtime.Settle`: reading `success`, `data` and `error` of an array or a primitive gives `undefined`, as for any built-in property here.
- `Metrics.TrendRow`: spreading an array or a string copies its indices in the language. Here only an object's fields are copied.
- `RecentTrades.Fixture`: the three fixture trades share one clock reading, where the source reads the clock once per trade.
- `LogQuery.LogsUrl`: tests whether any parameter was added, where the source tests whether the serialized text is non-empty. The two agree, because every parameter name is non-empty.
- `LogQuery.FormatDay`: a moment date's fields are given as numbers; calendar validity and time zones are the date picker's business.
- `TradingService.GetMarketData`: its contract only says what the fixture is. `TradingService.MarketDataIgnoresSymbol` states the property.
- `Realtime.IsConnected`, `UserHook.HasPermission`, `UserHook.HasRole`, `LoginPage.CanSendCode`, `TradeAdmin.FetchQuery` are predicates or query builders without their own ensures. Their properties are stated by the lemmas that use them.

## Findings

| source | as written | input that shows it | evidently intended | confidence | as-written member | corrected member |
|---|---|---|---|---|---|---|
| src/pages/admin/TradeManagement.tsx:160 | `statusMap[status] \|\| fallback` looks the status up in an object literal, so names the object inherits find a member | status `constructor` or `toString`: the lookup yields a function, so the tag has neither colour nor text | every status outside the three known ones gets the grey `未知` tag | medium, not executed | `TradeAdmin.StatusTagAsWritten`, `TradeAdmin.BlankTagForInheritedName` | `TradeAdmin.StatusTag`, `TradeAdmin.StatusTagCorrected` |
| src/components/PerformanceReport.tsx:125 | `metricNames[key] \|\| key` looks the key up in an object literal | metric key `constructor` or `valueOf`: the name column shows a function instead of the key; the rows keep the name as written, and `Metrics.MetricRowsShowText` shows they carry the corrected name whenever no such key occurs | every key without a label is shown as itself | medium, not executed | `Metrics.MetricNameAsWritten`, `Metrics.NoLabelForInheritedKey` | `Metrics.MetricName`, `Metrics.MetricNameCorrected` |

=== FILE: api_client.dfy ===
/** The axios wrapper of src/utils/apiClient.ts: the request interceptor that
    attaches the stored access token, and the response interceptor that
    unwraps successful responses and retries a 401 at most once after
    refreshing the token.

    The error interceptor awaits the refresh call, so it is split in two: the
    decision made when the failure arrives (`OnRejected`), and what happens
    when the refresh call settles (`OnRefreshSettled`). */
module ApiClient {
  import opened Js
  import AuthStore
  import ErrorHandler
  import Singleton

  /** A request config: its URL, its headers and the `_retry` marker. */
  datatype Config = Config(url: string, headers: map<string, string>, retried: bool)

  /** The request interceptor: `Authorization: Bearer <token>` exactly when the
      store holds a user with a truthy token; otherwise the config is untouched. */
  function AttachToken(auth: AuthStore.State, c: Config): (r: Config)
    ensures r.url == c.url && r.retried == c.retried
    ensures AuthStore.HasToken(auth) ==>
      r.headers == c.headers["Authorization" := AuthStore.Bearer(auth.user.value.token)]
    ensures !AuthStore.HasToken(auth) ==> r == c
  {
    if AuthStore.HasToken(auth) then
      c.(headers := c.headers["Authorization" := AuthStore.Bearer(auth.user.value.token)])
    else c
  }

  /** A full HTTP response; callers only ever see its `data`. */
  datatype Response = Response(status: int, data: Value)

  /** How a call made through the client settles for its caller. */
  datatype Reply =
    | Data(value: Value)                // `response.data`
    | Reissued(config: Config)          // resolved with `client(config)`
    | Failed(reason: ErrorHandler.Thrown, notices: seq<ErrorHandler.Notice>)

  /** The fulfilled branch of the response interceptor. */
  function OnFulfilled(resp: Response): (r: Reply)
    ensures r.Data? && r.value == resp.data
  {
    Data(resp.data)
  }

  /** A failed request: the config it was sent with and the error axios raised. */
  datatype Failure = Failure(config: Config, error: ErrorHandler.Thrown)

  predicate Is401(f: Failure) {
    f.error.Thrown? && f.error.response.Some? && f.error.response.value.status == 401
  }

  /** What the error branch does before its first `await`. */
  datatype ErrorStep =
    | Reject(reason: ErrorHandler.Thrown)               // `Promise.reject(error)`
    | StartRefresh(config: Config, refreshToken: string) // POST /auth/refresh issued

  /** The error branch on arrival of `f`. The first component is the failed
      request's config afterwards (`_retry` is set on it whenever a refresh is
      considered, even when no refresh token is there to use). */
  function OnRejected(auth: AuthStore.State, f: Failure): (r: (Config, ErrorStep))
    // Not a 401, or a 401 on a request already retried: the original error, unchanged.
    ensures !Is401(f) || f.config.retried ==> r == (f.config, Reject(f.error))
    // A first 401 is marked before anything else.
    ensures Is401(f) && !f.config.retried ==> r.0 == f.config.(retried := true)
    // Without a refresh token the 401 falls through to the original error.
    ensures Is401(f) && !f.config.retried && (auth.user.None? || auth.user.value.refreshToken.None? || auth.user.value.refreshToken.value == "") ==>
      r.1 == Reject(f.error)
    // A refresh is started only for a first 401 of a user holding a refresh token.
    ensures r.1.StartRefresh? <==>
      Is401(f) && !f.config.retried && auth.user.Some? && auth.user.value.refreshToken.Some? && auth.user.value.refreshToken.value != ""
    ensures r.1.StartRefresh? ==> r.1.config == r.0 && r.1.refreshToken == auth.user.value.refreshToken.value
  {
    if Is401(f) && !f.config.retried then
      var marked := f.config.(retried := true);
      match auth.user
      case Some(u) =>
        if u.refreshToken.Some? && u.refreshToken.value != "" then (marked, StartRefresh(marked, u.refreshToken.value))
        else (marked, Reject(f.error))
      case None => (marked, Reject(f.error))
    else (f.config, Reject(f.error))
  }

  /** How the POST to /auth/refresh settled. It is sent through the same
      client, so a reply has already passed the fulfilled branch above and
      `body` is the server's body, not the axios response. */
  datatype RefreshResult = RefreshReplied(body: Value) | RefreshThrew(error: ErrorHandler.Thrown)

  /** `const { token } = response.data` on that already unwrapped reply: the
      token is read from the body's own `data` property, and destructuring a
      missing (`null`/`undefined`) `data` throws a TypeError. */
  function RefreshToken(body: Value): (r: Result<Value, string>)
    ensures r.Ok? <==> body.Obj? && !Get(body.fields, "data").Null? && !Get(body.fields, "data").Undefined?
    ensures body.Obj? && Get(body.fields, "data").Obj? ==> r == Ok(Get(Get(body.fields, "data").fields, "token"))
    ensures r.Ok? && !Get(body.fields, "data").Obj? ==> r == Ok(Undefined)
  {
    match ReadProperty(body, "data")
    case Err(m) => Err(m)
    case Ok(d) => ReadProperty(d, "token")
  }

  /** The TypeError raised inside the `try`, as the `catch` receives it. */
  function TypeError(message: string): (e: ErrorHandler.Thrown)
    ensures ErrorHandler.Handleable(e)
    ensures ErrorHandler.Handle(e) == ErrorHandler.Err("错误", message)
  {
    ErrorHandler.Thrown(false, true, message, "", None)
  }

  /** The reply the refresh endpoint is expected to send: `{ data: { token } }`. */
  function TokenReply(t: string): (body: Value)
    ensures RefreshToken(body) == Ok(Str(t))
  {
    Obj(map["data" := Obj(map["token" := Str(t)])])
  }

  /** The error branch after its `await`: on a reply carrying a token the
      store gets the new token and the marked request is sent again with it;
      a reply whose `data` has no `token` stores an undefined token (held here
      as the empty string, which every reader treats alike) and sends the
      request again with the header `Bearer undefined`; a reply without
      `data`, or a refresh that threw, is reported once and its error, not
      the 401, becomes the rejection reason. */
  function OnRefreshSettled(auth: AuthStore.State, c: Config, rr: RefreshResult): (r: (AuthStore.State, Reply))
    requires rr.RefreshThrew? ==> ErrorHandler.Handleable(rr.error)
    requires rr.RefreshReplied? && RefreshToken(rr.body).Ok? ==>
      RefreshToken(rr.body).value.Str? || RefreshToken(rr.body).value.Undefined?
    ensures rr.RefreshReplied? && RefreshToken(rr.body).Ok? && RefreshToken(rr.body).value.Str? ==>
      var t := RefreshToken(rr.body).value.s;
      && r.0 == AuthStore.UpdateUser(auth, AuthStore.TokenPatch(t))
      && r.1 == Reissued(c.(headers := c.headers["Authorization" := AuthStore.Bearer(t)]))
    ensures rr.RefreshReplied? && RefreshToken(rr.body) == Ok(Undefined) ==>
      && r.0 == AuthStore.UpdateUser(auth, AuthStore.TokenPatch(""))
      && r.1 == Reissued(c.(headers := c.headers["Authorization" := AuthStore.Bearer("undefined")]))
    ensures rr.RefreshReplied? && RefreshToken(rr.body).Err? ==>
      && r.0 == auth
      && r.1 == Failed(TypeError(RefreshToken(rr.body).error), [ErrorHandler.Err("错误", RefreshToken(rr.body).error)])
    ensures rr.RefreshThrew? ==>
      r.0 == auth && r.1 == Failed(rr.error, [ErrorHandler.Handle(rr.error)])
  {
    match rr
    case RefreshReplied(body) =>
      (match RefreshToken(body)
       case Ok(v) =>
         var (stored, shown) := if v.Str? then (v.s, v.s) else ("", "undefined");
         (AuthStore.UpdateUser(auth, AuthStore.TokenPatch(stored)),
          Reissued(c.(headers := c.headers["Authorization" := AuthStore.Bearer(shown)])))
       case Err(m) => (auth, Failed(TypeError(m), [ErrorHandler.Handle(TypeError(m))])))
    case RefreshThrew(e) => (auth, Failed(e, [ErrorHandler.Handle(e)]))
  }

  /** Because the reply is unwrapped twice, a server answering with the token
      at the top level of its body (`{ token }`) fails the refresh: the
      request is rejected with a TypeError and the store keeps its token. */
  lemma TopLevelTokenIsMissed(auth: AuthStore.State, c: Config, t: string)
    ensures
      var (auth', reply) := OnRefreshSettled(auth, c, RefreshReplied(Obj(map["token" := Str(t)])));
      auth' == auth && reply.Failed? && reply.reason.Thrown? && reply.reason.isError
  {
  }

  /** A reply whose `data` carries no token still reissues the request, with
      `Bearer undefined`, and leaves the store without a usable token, so the
      request interceptor adds nothing on the way out. */
  lemma MissingTokenStillReissues(auth: AuthStore.State, c: Config)
    ensures
      var (auth', reply) := OnRefreshSettled(auth, c, RefreshReplied(Obj(map["data" := Obj(map[])])));
      && !AuthStore.HasToken(auth')
      && reply == Reissued(c.(headers := c.headers["Authorization" := "Bearer undefined"]))
      && AttachToken(auth', reply.config) == reply.config
  {
    assert AuthStore.Bearer("undefined") == "Bearer undefined";
  }

  /** The refresh POST goes through the same error branch: when it is itself
      answered with a 401, its fresh config carries no `_retry`, so while the
      user still holds a refresh token another refresh is started, and the
      chain has no bound while the endpoint keeps answering 401. */
  lemma RefreshCallIsInterceptedToo(auth: AuthStore.State, refreshCall: Config, e: ErrorHandler.Thrown)
    requires refreshCall.url == "/auth/refresh" && !refreshCall.retried
    requires Is401(Failure(refreshCall, e))
    requires auth.user.Some? && auth.user.value.refreshToken.Some? && auth.user.value.refreshToken.value != ""
    ensures OnRejected(auth, Failure(refreshCall, e)).1 == StartRefresh(refreshCall.(retried := true), auth.user.value.refreshToken.value)
  {
  }

  /** The reissued request goes through the request interceptor again and
      still carries the new token, whether or not the user is still there. */
  lemma ReissueCarriesNewToken(auth: AuthStore.State, c: Config, t: string)
    ensures
      var (auth', reply) := OnRefreshSettled(auth, c, RefreshReplied(TokenReply(t)));
      && reply.Reissued?
      && AttachToken(auth', reply.config).headers["Authorization"] == AuthStore.Bearer(t)
  {
  }

  /** Each request is refreshed and retried at most once: a reissued request
      that fails again, with a 401 or otherwise, is rejected with its own error. */
  lemma RetryAtMostOnce(auth: AuthStore.State, auth2: AuthStore.State, f: Failure, t: string, again: ErrorHandler.Thrown)
    requires Is401(f) && !f.config.retried
    requires OnRejected(auth, f).1.StartRefresh?
    ensures
      var c := OnRejected(auth, f).1.config;
      var reply := OnRefreshSettled(auth, c, RefreshReplied(TokenReply(t))).1;
      OnRejected(auth2, Failure(AttachToken(auth2, reply.config), again)).1 == Reject(again)
  {
  }

  /** `ApiClient.getInstance()`: the one shared client. */
  function GetInstance(slot: Singleton.Slot): (r: (Singleton.Slot, nat))
    ensures slot.instance.Some? ==> r.1 == slot.instance.value && r.0 == slot
    ensures r.0.instance == Some(r.1)
  {
    Singleton.GetInstance(slot)
  }
}

=== FILE: auth_service.dfy ===
/** The mock authentication service of src/services/auth.ts. Nothing is sent
    anywhere: `login` and `adminLogin` decide from the request alone, and the
    tokens they issue end with the current time. The two reads of the clock
    (one per token) are parameters. */
module AuthService {
  import opened Js
  import AuthStore

  datatype LoginRequest = LoginRequest(username: string, password: string, verifyCode: Option<string>)

  datatype Profile = Profile(id: string, username: string, role: string, email: string)

  datatype LoginResponse = LoginResponse(token: string, refreshToken: string, user: Profile)

  const LoginError := "用户名或密码错误"
  const AdminLoginError := "管理员用户名或密码错误"

  const AdminProfile := Profile("1", "admin", "admin", "admin@example.com")

  /** The response issued to the administrator. */
  function AdminResponse(t1: nat, t2: nat): (r: LoginResponse)
    ensures r.user == AdminProfile
  {
    LoginResponse("mock_admin_token_" + NatToString(t1), "mock_admin_refresh_token_" + NatToString(t2), AdminProfile)
  }

  /** `login(data)`: both fields must be non-empty; `admin` is the
      administrator, anyone else an ordinary user named as they typed. */
  function Login(req: LoginRequest, t1: nat, t2: nat): (r: Result<LoginResponse, string>)
    ensures r.Err? <==> req.username == "" || req.password == ""
    ensures r.Err? ==> r.error == LoginError
    ensures r.Ok? && req.username == "admin" ==>
      && r.value.user == AdminProfile
      && r.value.token == "mock_admin_token_" + NatToString(t1)
      && r.value.refreshToken == "mock_admin_refresh_token_" + NatToString(t2)
    ensures r.Ok? && req.username != "admin" ==>
      && r.value.user == Profile("2", req.username, "user", req.username + "@example.com")
      && r.value.token == "mock_user_token_" + NatToString(t1)
      && r.value.refreshToken == "mock_user_refresh_token_" + NatToString(t2)
  {
    if req.username != "" && req.password != "" then
      if req.username == "admin" then Ok(AdminResponse(t1, t2))
      else Ok(LoginResponse("mock_user_token_" + NatToString(t1), "mock_user_refresh_token_" + NatToString(t2),
                            Profile("2", req.username, "user", req.username + "@example.com")))
    else Err(LoginError)
  }

  /** `adminLogin(data)`: only `admin` with a non-empty password. */
  function AdminLogin(req: LoginRequest, t1: nat, t2: nat): (r: Result<LoginResponse, string>)
    ensures r.Ok? <==> req.username == "admin" && req.password != ""
    ensures r.Err? ==> r.error == AdminLoginError
    ensures r.Ok? ==> r.value == AdminResponse(t1, t2)
  {
    if req.username == "admin" && req.password != "" then Ok(AdminResponse(t1, t2))
    else Err(AdminLoginError)
  }

  /** The verification code plays no part in either decision. */
  lemma VerifyCodeIgnored(req: LoginRequest, code: Option<string>, t1: nat, t2: nat)
    ensures Login(req.(verifyCode := code), t1, t2) == Login(req, t1, t2)
    ensures AdminLogin(req.(verifyCode := code), t1, t2) == AdminLogin(req, t1, t2)
  {
  }

  /** Whoever passes `adminLogin` gets exactly what `login` gives them, and
      `login` never grants the administrator role to anyone but `admin`. */
  lemma AdminLoginAgreesWithLogin(req: LoginRequest, t1: nat, t2: nat)
    ensures AdminLogin(req, t1, t2).Ok? ==> Login(req, t1, t2) == AdminLogin(req, t1, t2)
    ensures Login(req, t1, t2).Ok? && Login(req, t1, t2).value.user.role == "admin" <==>
      AdminLogin(req, t1, t2).Ok?
  {
  }

  /** Tokens issued at different times differ, so a later login never reuses
      an earlier token of the same kind. */
  lemma TokensDependOnTime(req: LoginRequest, t1: nat, t2: nat, u1: nat, u2: nat)
    requires Login(req, t1, t2).Ok? && t1 != u1
    ensures Login(req, t1, t2).value.token != Login(req, u1, u2).value.token
  {
    var p := if req.username == "admin" then "mock_admin_token_" else "mock_user_token_";
    assert Login(req, t1, t2).value.token == p + NatToString(t1);
    assert Login(req, u1, u2).value.token == p + NatToString(u1);
    if p + NatToString(t1) == p + NatToString(u1) {
      assert NatToString(t1) == (p + NatToString(t1))[|p|..];
      assert NatToString(u1) == (p + NatToString(u1))[|p|..];
      NatToStringInjective(t1, u1);
    }
  }

  /** `logout()`: the store is reset to the signed-out state. */
  function Logout(s: AuthStore.State): (r: AuthStore.State)
    ensures r == AuthStore.Initial && !r.isAuthenticated && r.user.None?
  {
    AuthStore.Logout(s)
  }
}

=== FILE: auth_store.dfy ===
/** The persisted authentication store of src/store/authStore.ts: the signed-in
    user and the `isAuthenticated` flag, with `login`, `logout` and
    `updateUser`, plus the storage adapter's `getItem`. */
module AuthStore {
  import opened Js

  datatype User = User(
    id: string,
    username: string,
    role: string,
    token: string,
    refreshToken: Option<string>,
    avatar: Option<string>,
    email: Option<string>,
    createdAt: Option<string>,
    balance: Option<real>,
    totalAssets: Option<real>)

  /** `Partial<User>`: `Some` marks a property present in the patch. */
  datatype UserPatch = UserPatch(
    id: Option<string>,
    username: Option<string>,
    role: Option<string>,
    token: Option<string>,
    refreshToken: Option<string>,
    avatar: Option<string>,
    email: Option<string>,
    createdAt: Option<string>,
    balance: Option<real>,
    totalAssets: Option<real>)

  const EmptyPatch := UserPatch(None, None, None, None, None, None, None, None, None, None)

  /** A patch carrying only a new access token (`updateUser({ token })`). */
  function TokenPatch(t: string): (p: UserPatch)
    ensures p.token == Some(t)
    ensures p.(token := None) == EmptyPatch
  {
    EmptyPatch.(token := Some(t))
  }

  datatype State = State(user: Option<User>, isAuthenticated: bool)

  /** The store before anything is restored or anyone signs in. */
  const Initial := State(None, false)

  /** `user?.token` is truthy: a user is present and the token is non-empty. */
  predicate HasToken(s: State) {
    s.user.Some? && s.user.value.token != ""
  }

  /** The `Authorization` header value carrying an access token. */
  function Bearer(token: string): (h: string)
    ensures |h| == 7 + |token| && h[..7] == "Bearer " && h[7..] == token
  {
    "Bearer " + token
  }

  /** `user?.role === 'admin'`. */
  predicate IsAdmin(s: State) {
    s.user.Some? && s.user.value.role == "admin"
  }

  function Login(s: State, u: User): (r: State)
    ensures r.user == Some(u) && r.isAuthenticated
  {
    State(Some(u), true)
  }

  function Logout(s: State): (r: State)
    ensures r == Initial
    ensures !HasToken(r) && !IsAdmin(r)
  {
    State(None, false)
  }

  /** Signing in replaces whatever session there was, signing out forgets
      it entirely, and the access checks read what the new user carries. */
  lemma SessionLifecycle(s: State, u: User)
    ensures Login(s, u) == Login(Initial, u)
    ensures Logout(Login(s, u)) == Initial && Logout(Logout(s)) == Logout(s)
    ensures HasToken(Login(s, u)) <==> u.token != ""
    ensures IsAdmin(Login(s, u)) <==> u.role == "admin"
  {
  }

  /** `{ ...user, ...patch }` */
  function Merge(u: User, p: UserPatch): User {
    User(
      p.id.GetOr(u.id),
      p.username.GetOr(u.username),
      p.role.GetOr(u.role),
      p.token.GetOr(u.token),
      if p.refreshToken.Some? then p.refreshToken else u.refreshToken,
      if p.avatar.Some? then p.avatar else u.avatar,
      if p.email.Some? then p.email else u.email,
      if p.createdAt.Some? then p.createdAt else u.createdAt,
      if p.balance.Some? then p.balance else u.balance,
      if p.totalAssets.Some? then p.totalAssets else u.totalAssets)
  }

  /** Merge two patches, the later one winning where both carry a property. */
  function Then(p: UserPatch, q: UserPatch): UserPatch {
    UserPatch(
      if q.id.Some? then q.id else p.id,
      if q.username.Some? then q.username else p.username,
      if q.role.Some? then q.role else p.role,
      if q.token.Some? then q.token else p.token,
      if q.refreshToken.Some? then q.refreshToken else p.refreshToken,
      if q.avatar.Some? then q.avatar else p.avatar,
      if q.email.Some? then q.email else p.email,
      if q.createdAt.Some? then q.createdAt else p.createdAt,
      if q.balance.Some? then q.balance else p.balance,
      if q.totalAssets.Some? then q.totalAssets else p.totalAssets)
  }

  /** `updateUser(patch)`: properties present in the patch replace the user's,
      every other property is kept; with no user there is nothing to update,
      and the authentication flag is never touched. */
  function UpdateUser(s: State, p: UserPatch): (r: State)
    ensures r.isAuthenticated == s.isAuthenticated
    ensures s.user.None? <==> r.user.None?
    ensures s.user.Some? ==>
      && r.user.value.id == (if p.id.Some? then p.id.value else s.user.value.id)
      && r.user.value.username == (if p.username.Some? then p.username.value else s.user.value.username)
      && r.user.value.role == (if p.role.Some? then p.role.value else s.user.value.role)
      && r.user.value.token == (if p.token.Some? then p.token.value else s.user.value.token)
      && (p.refreshToken.None? ==> r.user.value.refreshToken == s.user.value.refreshToken)
      && (p.refreshToken.Some? ==> r.user.value.refreshToken == p.refreshToken)
      && (p.email.None? ==> r.user.value.email == s.user.value.email)
      && (p.email.Some? ==> r.user.value.email == p.email)
      && (p.avatar.None? ==> r.user.value.avatar == s.user.value.avatar)
      && (p.avatar.Some? ==> r.user.value.avatar == p.avatar)
      && (p.createdAt.None? ==> r.user.value.createdAt == s.user.value.createdAt)
      && (p.createdAt.Some? ==> r.user.value.createdAt == p.createdAt)
      && (p.balance.None? ==> r.user.value.balance == s.user.value.balance)
      && (p.balance.Some? ==> r.user.value.balance == p.balance)
      && (p.totalAssets.None? ==> r.user.value.totalAssets == s.user.value.totalAssets)
      && (p.totalAssets.Some? ==> r.user.value.totalAssets == p.totalAssets)
  {
    match s.user
    case None => State(None, s.isAuthenticated)
    case Some(u) => State(Some(Merge(u, p)), s.isAuthenticated)
  }

  /** An empty patch changes nothing. */
  lemma UpdateWithEmptyPatch(s: State)
    ensures UpdateUser(s, EmptyPatch) == s
  {
  }

  /** Two updates in a row are one update with the merged patch; in particular
      re-applying the same patch changes nothing more. */
  lemma UpdateTwice(s: State, p: UserPatch, q: UserPatch)
    ensures UpdateUser(UpdateUser(s, p), q) == UpdateUser(s, Then(p, q))
    ensures UpdateUser(UpdateUser(s, p), p) == UpdateUser(s, p)
  {
  }

  /** A token refresh keeps the user signed in, with the new token attached. */
  lemma TokenRefreshKeepsSession(s: State, t: string)
    requires s.isAuthenticated && s.user.Some?
    ensures UpdateUser(s, TokenPatch(t)).isAuthenticated
    ensures UpdateUser(s, TokenPatch(t)).user == Some(s.user.value.(token := t))
  {
  }

  // ---------------------------------------------------------------------
  // The storage adapter handed to `persist`
  // ---------------------------------------------------------------------

  /** `storage.getItem(name)`: the text handed to `JSON.parse`, or `null` when
      nothing (or the empty string) is stored under the name. Parsing is
      the platform's; the model returns the stored text. */
  function GetItem(storage: map<string, string>, name: string): (r: Option<string>)
    ensures r.None? <==> name !in storage || storage[name] == ""
    ensures r.Some? ==> r.value == storage[name]
  {
    if name in storage && storage[name] != "" then Some(storage[name]) else None
  }

  /** `setItem` followed by `getItem` returns what was written, unless it was empty. */
  lemma GetAfterSet(storage: map<string, string>, name: string, text: string)
    ensures GetItem(storage[name := text], name) == (if text == "" then None else Some(text))
  {
  }

  /** `removeItem` followed by `getItem` returns `null`. */
  lemma GetAfterRemove(storage: map<string, string>, name: string)
    ensures GetItem(storage - {name}, name) == None
  {
  }
}

=== FILE: backup_size.dfy ===
/** The backup table of src/pages/admin/settings/BackupSettings.tsx: the
    size column's unit conversion and the type and status tags. Sizes are
    exact reals; the two-decimal rendering (`toFixed(2)`) is not modelled. */
module BackupSize {
  import opened Js

  const Units: seq<string> := ["B", "KB", "MB", "GB"]

  function Pow1024(i: nat): (p: real)
    ensures p >= 1.0
  {
    if i == 0 then 1.0 else 1024.0 * Pow1024(i - 1)
  }

  /** The unit index the column settles on: divide while the value is at
      least 1024 and a larger unit is left. */
  function Scale(value: real, i: nat): (r: (real, nat))
    requires i < |Units|
    ensures r.1 < |Units|
    decreases |Units| - i
  {
    if value >= 1024.0 && i < |Units| - 1 then Scale(value / 1024.0, i + 1) else (value, i)
  }

  /** `value` in unit `i` is `size`, at least one unless shown in bytes, and
      below 1024 unless shown in the largest unit. */
  predicate ShownAs(size: real, value: real, unit: string, i: nat) {
    && i < |Units| && unit == Units[i]
    && value * Pow1024(i) == size
    && (i < |Units| - 1 ==> value < 1024.0)
    && (i > 0 ==> value >= 1.0)
  }

  /** The size column's loop: the shown value and the unit it is shown in. */
  method ConvertSize(size: real) returns (value: real, unit: string)
    ensures unit in Units
    ensures exists i :: ShownAs(size, value, unit, i)
    ensures size < 1024.0 ==> value == size && unit == "B"
    ensures (value, unit) == (Scale(size, 0).0, Units[Scale(size, 0).1])
  {
    var i: nat := 0;
    value := size;
    while value >= 1024.0 && i < |Units| - 1
      invariant i < |Units|
      invariant value * Pow1024(i) == size
      invariant i > 0 ==> value >= 1.0
      invariant Scale(value, i) == Scale(size, 0)
      decreases |Units| - i
    {
      value := value / 1024.0;
      i := i + 1;
    }
    unit := Units[i];
    assert ShownAs(size, value, unit, i);
  }

  datatype Tag = Tag(color: string, text: string)

  /** The type column: automatic backups green, every other type blue. */
  function TypeTag(kind: string): (t: Tag)
    ensures t.color == "green" <==> kind == "auto"
    ensures t.text == (if kind == "auto" then "自动" else "手动")
  {
    if kind == "auto" then Tag("green", "自动") else Tag("blue", "手动")
  }

  /** The status column: completed backups green, every other status red. */
  function StatusTag(status: string): (t: Tag)
    ensures t.color == "green" <==> status == "completed"
    ensures t.text == (if status == "completed" then "成功" else "失败")
  {
    if status == "completed" then Tag("green", "成功") else Tag("red", "失败")
  }

  /** Reading a type tag back: whether it marks an automatic backup, or
      `None` for a tag the type column never shows. */
  function TypeOfTag(t: Tag): (auto: Option<bool>) {
    if t == Tag("green", "自动") then Some(true)
    else if t == Tag("blue", "手动") then Some(false)
    else None
  }

  /** Reading a status tag back: whether it marks a completed backup, or
      `None` for a tag the status column never shows. */
  function StatusOfTag(t: Tag): (completed: Option<bool>) {
    if t == Tag("green", "成功") then Some(true)
    else if t == Tag("red", "失败") then Some(false)
    else None
  }

  /** Each column's tag can be read back: it tells exactly whether the backup
      was automatic, and whether it completed. */
  lemma TagsReadBack(kind: string, status: string)
    ensures TypeOfTag(TypeTag(kind)) == Some(kind == "auto")
    ensures StatusOfTag(StatusTag(status)) == Some(status == "completed")
  {
  }

  /** Two backups show the same tag exactly when they fall on the same side of
      the column's one distinction. */
  lemma SameTagSameSide(a: string, b: string)
    ensures TypeTag(a) == TypeTag(b) <==> (a == "auto" <==> b == "auto")
    ensures StatusTag(a) == StatusTag(b) <==> (a == "completed" <==> b == "completed")
  {
  }
}

=== FILE: confirm_action.dfy ===
/** The `useConfirmAction` hook of src/hooks/useConfirmAction.ts: a
    confirmation dialog in front of an asynchronous action. The dialog's
    answer and the way the action settles are parameters. */
module ConfirmAction {
  import opened Js

  /** The options object; `None` is a property left `undefined`. */
  datatype Options = Options(title: Option<string>, content: Option<string>, okText: Option<string>, cancelText: Option<string>)

  datatype Dialog = Dialog(title: string, content: string, okText: string, cancelText: string)

  /** The dialog's texts: each option given, or its default. */
  function DialogFor(o: Options): (d: Dialog)
    ensures o.title.Some? ==> d.title == o.title.value
    ensures o.content.Some? ==> d.content == o.content.value
    ensures o.okText.Some? ==> d.okText == o.okText.value
    ensures o.cancelText.Some? ==> d.cancelText == o.cancelText.value
    ensures o.title.None? ==> d.title == "确认操作"
    ensures o.content.None? ==> d.content == "是否确认执行此操作？"
    ensures o.okText.None? ==> d.okText == "确定"
    ensures o.cancelText.None? ==> d.cancelText == "取消"
  {
    Dialog(o.title.GetOr("确认操作"), o.content.GetOr("是否确认执行此操作？"),
           o.okText.GetOr("确定"), o.cancelText.GetOr("取消"))
  }

  datatype Answer = Confirmed | Cancelled

  /** The rejection reason on cancel; callers compare its message. */
  const CancelError := ErrorObj("用户取消操作")

  /** One call `confirmAction(...args)`: the arguments the action was called
      with (if it was), the values `loading` was set to in order, and how the
      returned promise settled. */
  datatype Run = Run(invokedWith: Option<seq<Value>>, loadingTrace: seq<bool>, settled: Result<Value, Value>)

  /** `settlesAs` is how the action's promise settles when it is called. */
  function ConfirmAction(args: seq<Value>, answer: Answer, settlesAs: Result<Value, Value>): (r: Run)
    // Confirming calls the action with exactly the given arguments, and the
    // promise settles as the action did, loading on around it.
    ensures answer == Confirmed ==>
      && r.invokedWith == Some(args)
      && r.settled == settlesAs
      && r.loadingTrace == [true, false]
    // Cancelling never calls the action and rejects with the cancel error.
    ensures answer == Cancelled ==>
      r.invokedWith.None? && r.loadingTrace == [] && r.settled == Err(CancelError)
  {
    match answer
    case Confirmed => Run(Some(args), [true, false], settlesAs)
    case Cancelled => Run(None, [], Err(CancelError))
  }

  /** `loading` is back to false after every call, and a rejection carrying the
      cancel message happens only on cancel, unless the action itself throws
      an error with that very message. */
  lemma LoadingEndsFalse(args: seq<Value>, answer: Answer, settlesAs: Result<Value, Value>)
    ensures
      var r := ConfirmAction(args, answer, settlesAs);
      && (r.loadingTrace == [] || r.loadingTrace[|r.loadingTrace| - 1] == false)
      && (r.settled == Err(CancelError) <==> answer == Cancelled || settlesAs == Err(CancelError))
  {
  }
}

=== FILE: countdown.dfy ===
/** The verification-code countdown of src/hooks/useCountdown.ts: seconds left,
    whether the one-second timer runs, and the entry saved in local storage
    so that a reload resumes the countdown. Times are integer milliseconds
    from the clock, which is a parameter; each firing of the timer is one
    `Tick`. */
module Countdown {
  import opened Js

  /** The saved `{ endTime, phone }`. */
  datatype Saved = Saved(endTime: int, phone: string)

  datatype State = State(countdown: int, active: bool, saved: Option<Saved>)

  /** `initialSeconds` when the caller gives none. */
  const DefaultSeconds := 60

  /** Before the restore effect runs, whatever is in storage. */
  function Mount(saved: Option<Saved>): (s: State)
    ensures s.countdown == 0 && !s.active && s.saved == saved
  {
    State(0, false, saved)
  }

  /** `Math.ceil(ms / 1000)` for a whole number of milliseconds. */
  function CeilSeconds(ms: int): (q: int)
    ensures q * 1000 >= ms
    ensures (q - 1) * 1000 < ms
  {
    -((-ms) / 1000)
  }

  /** The ceiling is the unique such number. */
  lemma CeilSecondsUnique(ms: int, q: int)
    requires q * 1000 >= ms && (q - 1) * 1000 < ms
    ensures q == CeilSeconds(ms)
  {
  }

  /** The restore effect at time `now`: a saved countdown that still has time
      left resumes with the seconds left, rounded up; an expired one is
      removed from storage. */
  function Restore(s: State, now: int): (r: State)
    ensures s.saved.None? ==> r == s
    ensures s.saved.Some? && CeilSeconds(s.saved.value.endTime - now) > 0 ==>
      r == s.(countdown := CeilSeconds(s.saved.value.endTime - now), active := true)
    ensures s.saved.Some? && CeilSeconds(s.saved.value.endTime - now) <= 0 ==> r == s.(saved := None)
    ensures r.active <==> s.active || (s.saved.Some? && now < s.saved.value.endTime)
  {
    match s.saved
    case None => s
    case Some(sv) =>
      var remaining := CeilSeconds(sv.endTime - now);
      if remaining > 0 then s.(countdown := remaining, active := true)
      else s.(saved := None)
  }

  /** `startCountdown(phone)` at time `now`. */
  function Start(s: State, initialSeconds: int, phone: string, now: int): (r: State)
    ensures r.countdown == initialSeconds && r.active
    ensures r.saved.Some? && r.saved.value.phone == phone
    ensures r.saved.value.endTime - now == initialSeconds * 1000
  {
    State(initialSeconds, true, Some(Saved(now + initialSeconds * 1000, phone)))
  }

  /** One firing of the timer. The timer only runs while active with time
      left; otherwise nothing happens. */
  function Tick(s: State): (r: State)
    ensures !(s.active && s.countdown > 0) ==> r == s
    ensures s.active && s.countdown > 0 ==> r.countdown == s.countdown - 1
    ensures s.active && s.countdown > 0 && s.countdown - 1 <= 0 ==> !r.active && r.saved.None?
    ensures s.active && s.countdown > 1 ==> r.active && r.saved == s.saved
  {
    if s.active && s.countdown > 0 then
      var next := s.countdown - 1;
      if next <= 0 then State(next, false, None) else s.(countdown := next)
    else s
  }

  /** The countdown is never negative and the timer runs exactly while there
      is time left. */
  predicate Inv(s: State) {
    s.countdown >= 0 && (s.active <==> s.countdown > 0)
  }

  /** Every step keeps the invariant (a start needs a positive length). */
  lemma StepsKeepInv(s: State, now: int, secs: int, phone: string)
    requires Inv(s)
    ensures Inv(Restore(s, now))
    ensures Inv(Tick(s))
    ensures secs > 0 ==> Inv(Start(s, secs, phone, now))
  {
  }

  function Ticks(s: State, n: nat): State
    decreases n
  {
    if n == 0 then s else Ticks(Tick(s), n - 1)
  }

  /** After `k` of the `n` seconds of a started countdown it shows `n - k` and
      still runs; after all `n` it shows 0, has stopped and has removed its
      saved entry. Further ticks change nothing. */
  lemma {:induction false} CountsDownToZero(s: State, k: nat, extra: nat)
    requires Inv(s) && s.active
    ensures k < s.countdown ==> Ticks(s, k) == s.(countdown := s.countdown - k)
    ensures k == s.countdown ==> Ticks(s, k + extra) == State(0, false, None)
    decreases k
  {
    if k > 0 {
      if s.countdown == 1 {
        assert Tick(s) == State(0, false, None);
        StaysStopped(State(0, false, None), extra);
        if k == 1 {
          assert Ticks(s, k + extra) == Ticks(Tick(s), extra);
        }
      } else {
        var t := Tick(s);
        assert t == s.(countdown := s.countdown - 1);
        CountsDownToZero(t, k - 1, extra);
        assert Ticks(s, k) == Ticks(t, k - 1);
        assert Ticks(s, k + extra) == Ticks(t, k - 1 + extra);
      }
    }
  }

  /** A countdown whose timer is not running never changes, however often
      the timer would fire. */
  lemma {:induction false} StaysStopped(s: State, n: nat)
    requires !s.active || s.countdown <= 0
    ensures Ticks(s, n) == s
    decreases n
  {
    if n > 0 {
      assert Tick(s) == s;
      StaysStopped(s, n - 1);
    }
  }

  /** Restoring at the moment of the start resumes the full countdown, and the
      seconds restored later never exceed those started with. */
  lemma RestoreResumesStart(s: State, secs: int, phone: string, start: int, later: int)
    requires secs > 0 && start <= later
    ensures Restore(Mount(Start(s, secs, phone, start).saved), start).countdown == secs
    ensures Restore(Mount(Start(s, secs, phone, start).saved), later).countdown <= secs
  {
    CeilSecondsUnique(secs * 1000, secs);
  }
}

=== FILE: error_handler.dfy ===
/** The notification mapping of src/utils/errorHandler.ts: which title and
    description the user sees for a failed request, a thrown `Error`, or
    anything else, and the two batch helpers for form and bulk results. */
module ErrorHandler {
  import opened Js

  datatype Level = ErrorLevel | WarningLevel

  /** One notification shown to the user. */
  datatype Notice = Notice(level: Level, title: string, description: string)

  /** An HTTP response that came back with a failure status. `message` is
      `data.message`, empty when the body has none. */
  datatype HttpResponse = HttpResponse(status: int, message: string)

  /** What a `catch` receives.
      - `Thrown`: an object; `isAxiosError` is the truthiness of its
        `isAxiosError` property and `isError` whether it is an `Error` instance;
      - `Nullish`: `null` or `undefined`;
      - `Primitive`: a thrown string, number or boolean. */
  datatype Thrown =
    | Thrown(isAxiosError: bool, isError: bool, message: string, code: string, response: Option<HttpResponse>)
    | Nullish
    | Primitive(text: string)

  /** `isAxiosError` reads a property of the error, which fails on `null` and
      `undefined`; everything else can be handled. */
  predicate Handleable(e: Thrown) {
    !e.Nullish?
  }

  function Err(title: string, description: string): Notice {
    Notice(ErrorLevel, title, description)
  }

  const TimeoutNotice := Err("请求超时", "服务器响应超时，请检查网络连接")
  const NetworkNotice := Err("网络错误", "无法连接到服务器，请检查网络连接")
  const UnknownNotice := Err("未知错误", "发生未知错误")

  /** `x || fallback` on a message string. */
  function OrElse(message: string, fallback: string): (r: string)
    ensures r == "" ==> fallback == ""
    ensures message != "" ==> r == message
  {
    if message != "" then message else fallback
  }

  /** `handleNetworkError`: a request that got no response at all. */
  function NetworkError(code: string): (n: Notice)
    ensures n == TimeoutNotice <==> code == "ECONNABORTED"
    ensures n == NetworkNotice <==> code != "ECONNABORTED"
  {
    if code == "ECONNABORTED" then TimeoutNotice else NetworkNotice
  }

  /** The status switch of `handleAxiosError`. */
  function StatusNotice(r: HttpResponse): (n: Notice)
    ensures n.level == ErrorLevel
    ensures r.status == 400 ==> n == Err("请求错误", OrElse(r.message, "输入数据无效"))
    ensures r.status == 404 ==> n == Err("未找到", OrElse(r.message, "请求的资源不存在"))
    ensures r.status == 422 ==> n == Err("验证错误", OrElse(r.message, "提供的数据无效"))
    ensures r.status == 401 ==> n == Err("未授权", "请重新登录")
    ensures r.status == 403 ==> n == Err("访问被拒绝", "您没有权限执行此操作")
    ensures r.status == 500 ==> n == Err("服务器错误", "服务器内部错误，请稍后重试")
    ensures r.status !in {400, 401, 403, 404, 422, 500} ==> n == Err("错误", OrElse(r.message, "发生未知错误"))
  {
    match r.status
    case 400 => Err("请求错误", OrElse(r.message, "输入数据无效"))
    case 401 => Err("未授权", "请重新登录")
    case 403 => Err("访问被拒绝", "您没有权限执行此操作")
    case 404 => Err("未找到", OrElse(r.message, "请求的资源不存在"))
    case 422 => Err("验证错误", OrElse(r.message, "提供的数据无效"))
    case 500 => Err("服务器错误", "服务器内部错误，请稍后重试")
    case _ => Err("错误", OrElse(r.message, "发生未知错误"))
  }

  /** Every status except 401, 403 and 500 shows the server's message when it
      sent one; those three show their fixed text whatever the message. */
  lemma ServerMessageShownFor(r: HttpResponse)
    requires r.message != ""
    ensures r.status !in {401, 403, 500} ==> StatusNotice(r).description == r.message
    ensures r.status in {401, 403, 500} ==>
      StatusNotice(r).description == StatusNotice(r.(message := "")).description
  {
  }

  /** A status whose fixed text ignores the server: the message has no influence. */
  lemma FixedTextStatuses(status: int, m1: string, m2: string)
    requires status in {401, 403, 500}
    ensures StatusNotice(HttpResponse(status, m1)) == StatusNotice(HttpResponse(status, m2))
  {
  }

  /** `handle(error)`: exactly one error notification, chosen by what was thrown. */
  function Handle(e: Thrown): (n: Notice)
    requires Handleable(e)
    ensures n.level == ErrorLevel
    ensures e.Thrown? && e.isAxiosError && e.response.None? ==> n == NetworkError(e.code)
    ensures e.Thrown? && e.isAxiosError && e.response.Some? ==> n == StatusNotice(e.response.value)
    ensures e.Thrown? && !e.isAxiosError && e.isError ==> n == Err("错误", e.message)
    ensures (e.Primitive? || (e.Thrown? && !e.isAxiosError && !e.isError)) ==> n == UnknownNotice
  {
    match e
    case Thrown(isAxios, isError, message, code, response) =>
      if isAxios then
        match response
        case None => NetworkError(code)
        case Some(r) => StatusNotice(r)
      else if isError then Err("错误", message)
      else UnknownNotice
    case Primitive(_) => UnknownNotice
  }

  /** `handleFormValidationErrors`: one error per entry, in entry order. */
  function FormValidationErrors(errors: seq<(string, string)>): (ns: seq<Notice>)
    ensures |ns| == |errors|
    ensures forall i :: 0 <= i < |ns| ==> ns[i] == Err("表单错误", errors[i].1)
  {
    if errors == [] then []
    else [Err("表单错误", errors[0].1)] + FormValidationErrors(errors[1..])
  }

  datatype OpResult = OpResult(success: bool, message: string)

  /** `results.filter(r => !r.success)` */
  function Failures(results: seq<OpResult>): (f: seq<OpResult>)
    ensures |f| <= |results|
    ensures forall x :: x in f <==> x in results && !x.success
    ensures (forall i :: 0 <= i < |results| ==> results[i].success) <==> f == []
  {
    if results == [] then []
    else if results[0].success then Failures(results[1..])
    else [results[0]] + Failures(results[1..])
  }

  /** The failures of two batches are those of the first followed by those of
      the second: the filter keeps the results' order. */
  lemma {:induction false} FailuresKeepOrder(a: seq<OpResult>, b: seq<OpResult>)
    ensures Failures(a + b) == Failures(a) + Failures(b)
    decreases |a|
  {
    if a != [] {
      assert (a + b)[1..] == a[1..] + b;
      FailuresKeepOrder(a[1..], b);
    } else {
      assert a + b == b;
    }
  }

  /** `handleBatchOperationResults`: nothing when every operation succeeded;
      otherwise a warning with the failure count, then one error per failure. */
  function BatchOperationResults(results: seq<OpResult>): (ns: seq<Notice>)
    ensures (forall i :: 0 <= i < |results| ==> results[i].success) <==> ns == []
    ensures ns != [] ==>
      var f := Failures(results);
      && |ns| == |f| + 1
      && ns[0] == Notice(WarningLevel, "操作结果", "部分操作失败: " + NatToString(|f|) + " 个错误")
      && forall i :: 0 <= i < |f| ==> ns[i + 1] == Err("错误", f[i].message)
  {
    var f := Failures(results);
    if f == [] then []
    else
      [Notice(WarningLevel, "操作结果", "部分操作失败: " + NatToString(|f|) + " 个错误")]
      + seq(|f|, i requires 0 <= i < |f| => Err("错误", f[i].message))
  }
}

=== FILE: js.dfy ===
/** The few JavaScript built-ins the application leans on, stated once:
    optional and settled values, dynamic values with their truthiness,
    property lookup on plain objects, rendering a non-negative integer as
    decimal text (`'' + n`), and `String.prototype.trim`. */
module Js {

  /** `T | null | undefined` where the difference between the two does not matter. */
  datatype Option<+T> = None | Some(value: T) {
    function GetOr(default: T): T {
      match this
      case Some(v) => v
      case None => default
    }
  }

  /** A settled promise: fulfilled with a value or rejected with a reason. */
  datatype Result<+T, +E> = Ok(value: T) | Err(error: E)

  /** A dynamic JavaScript value. Numbers are exact reals; NaN is not modelled.
      `ErrorObj` is an instance of `Error` carrying its `message`; `Inherited`
      is the member a plain object inherits under `name` from
      `Object.prototype` (a method, or the prototype itself for `__proto__`). */
  datatype Value =
    | Undefined
    | Null
    | Bool(b: bool)
    | Num(n: real)
    | Str(s: string)
    | Arr(elems: seq<Value>)
    | Obj(fields: map<string, Value>)
    | ErrorObj(message: string)
    | Inherited(name: string)

  /** The language's truthiness: `undefined`, `null`, `false`, `0` and `''`
      are falsy; every object, array, error and inherited member is truthy. */
  predicate Truthy(v: Value) {
    match v
    case Undefined => false
    case Null => false
    case Bool(b) => b
    case Num(n) => n != 0.0
    case Str(s) => s != ""
    case Arr(_) => true
    case Obj(_) => true
    case ErrorObj(_) => true
    case Inherited(_) => true
  }

  /** `o[k]` on a plain object: a missing property reads as `undefined`. */
  function Get(o: map<string, Value>, k: string): (v: Value)
    ensures k !in o ==> v == Undefined
    ensures k in o ==> v == o[k]
  {
    if k in o then o[k] else Undefined
  }

  /** Names every plain object inherits from `Object.prototype`; looking one
      of them up in an object literal finds the inherited member, which is
      truthy. */
  const InheritedNames := {"constructor", "toString", "toLocaleString", "valueOf", "hasOwnProperty",
                           "isPrototypeOf", "propertyIsEnumerable", "__proto__", "__defineGetter__",
                           "__defineSetter__", "__lookupGetter__", "__lookupSetter__"}

  /** `v.key` on any value: `null` and `undefined` throw a TypeError (its
      message is the result's error); objects give their property, an error
      its `message`, and every other property of every other value is taken to
      be absent, so it reads `undefined`. Built-in properties of primitives and
      arrays (`length` and the like) are not modelled. */
  function ReadProperty(v: Value, key: string): (r: Result<Value, string>)
    ensures r.Err? <==> v.Null? || v.Undefined?
    ensures v.Obj? ==> r == Ok(Get(v.fields, key))
    ensures v.ErrorObj? && key == "message" ==> r == Ok(Str(v.message))
    ensures !v.Obj? && !(v.ErrorObj? && key == "message") && r.Ok? ==> r.value == Undefined
  {
    match v
    case Null => Err("Cannot read properties of null (reading '" + key + "')")
    case Undefined => Err("Cannot read properties of undefined (reading '" + key + "')")
    case Obj(fields) => Ok(Get(fields, key))
    case ErrorObj(m) => if key == "message" then Ok(Str(m)) else Ok(Undefined)
    case _ => Ok(Undefined)
  }

  /** Object spread `{...a, ...b}`: every key of either, `b` winning on clashes. */
  function Spread(a: map<string, Value>, b: map<string, Value>): (r: map<string, Value>)
    ensures r.Keys == a.Keys + b.Keys
    ensures forall k :: k in b ==> r[k] == b[k]
    ensures forall k :: k in a && k !in b ==> r[k] == a[k]
  {
    a + b
  }

  // ---------------------------------------------------------------------
  // Decimal rendering of non-negative integers (template literals, `+ n`)
  // ---------------------------------------------------------------------

  predicate IsDigit(c: char) {
    '0' <= c <= '9'
  }

  function DigitChar(d: nat): (c: char)
    requires d < 10
    ensures IsDigit(c)
    ensures c as int - '0' as int == d
  {
    (d + '0' as int) as char
  }

  /** The decimal text of `n`, as `String(n)` gives it for a safe integer. */
  function NatToString(n: nat): (s: string)
    ensures |s| >= 1
    ensures forall i :: 0 <= i < |s| ==> IsDigit(s[i])
    ensures n > 0 ==> s[0] != '0'
    decreases n
  {
    if n < 10 then [DigitChar(n)] else NatToString(n / 10) + [DigitChar(n % 10)]
  }

  function DigitValue(c: char): (d: nat)
    requires IsDigit(c)
    ensures d < 10 && DigitChar(d) == c
  {
    c as int - '0' as int
  }

  /** Reads decimal digits back into the number they denote. */
  function ParseDigits(s: string): nat
    requires forall i :: 0 <= i < |s| ==> IsDigit(s[i])
  {
    if |s| == 0 then 0
    else ParseDigits(s[..|s| - 1]) * 10 + DigitValue(s[|s| - 1])
  }

  /** Rendering loses nothing: the digits read back as the same number. */
  lemma {:induction false} ParseNatToString(n: nat)
    ensures ParseDigits(NatToString(n)) == n
    decreases n
  {
    if n >= 10 {
      var s := NatToString(n);
      ParseNatToString(n / 10);
      assert s[..|s| - 1] == NatToString(n / 10);
    }
  }

  /** Distinct numbers render differently, so time-stamped names never collide. */
  lemma NatToStringInjective(m: nat, n: nat)
    requires NatToString(m) == NatToString(n)
    ensures m == n
  {
    ParseNatToString(m);
    ParseNatToString(n);
  }

  // ---------------------------------------------------------------------
  // String.prototype.trim
  // ---------------------------------------------------------------------

  /** WhiteSpace and LineTerminator code points, as `trim` strips them. */
  predicate IsWhitespace(c: char) {
    || c == '\t' || c == '\n' || c == '\U{000B}' || c == '\U{000C}' || c == '\r'
    || c == ' ' || c == '\U{00A0}' || c == '\U{1680}'
    || ('\U{2000}' <= c <= '\U{200A}')
    || c == '\U{2028}' || c == '\U{2029}' || c == '\U{202F}' || c == '\U{205F}'
    || c == '\U{3000}' || c == '\U{FEFF}'
  }

  /** Nothing but whitespace (the empty string included). */
  predicate Blank(s: string) {
    forall i :: 0 <= i < |s| ==> IsWhitespace(s[i])
  }

  /** The end of the run of whitespace starting at `i`. */
  function SpaceFrom(s: string, i: nat): (j: nat)
    requires i <= |s|
    ensures i <= j <= |s|
    ensures forall k :: i <= k < j ==> IsWhitespace(s[k])
    ensures j < |s| ==> !IsWhitespace(s[j])
    decreases |s| - i
  {
    if i < |s| && IsWhitespace(s[i]) then SpaceFrom(s, i + 1) else i
  }

  /** The start of the run of whitespace ending just before `j`. */
  function SpaceUntil(s: string, j: nat): (i: nat)
    requires j <= |s|
    ensures i <= j
    ensures forall k :: i <= k < j ==> IsWhitespace(s[k])
    ensures i > 0 ==> !IsWhitespace(s[i - 1])
  {
    if j > 0 && IsWhitespace(s[j - 1]) then SpaceUntil(s, j - 1) else j
  }

  function TrimStart(s: string): (r: string)
    ensures |r| <= |s| && r == s[|s| - |r|..]
    ensures Blank(s[..|s| - |r|])
    ensures |r| > 0 ==> !IsWhitespace(r[0])
  {
    var j := SpaceFrom(s, 0);
    assert forall k :: 0 <= k < j ==> s[..j][k] == s[k];
    s[j..]
  }

  function TrimEnd(s: string): (r: string)
    ensures |r| <= |s| && r == s[..|r|]
    ensures Blank(s[|r|..])
    ensures |r| > 0 ==> !IsWhitespace(r[|r| - 1])
  {
    var i := SpaceUntil(s, |s|);
    assert forall k :: 0 <= k < |s| - i ==> s[i..][k] == s[i + k];
    s[..i]
  }

  function Trim(s: string): string {
    TrimEnd(TrimStart(s))
  }

  /** `s.trim()` is empty exactly when `s` is blank. */
  lemma TrimEmptyIffBlank(s: string)
    ensures Trim(s) == "" <==> Blank(s)
  {
    var t := TrimStart(s);
    assert t[0..] == t;
    assert s[..|s|] == s;
    assert |t| > 0 ==> t[0] == s[|s| - |t|];
  }
}

=== FILE: log_query.dfy ===
/** The log query of src/pages/admin/settings/LogSettings.tsx: the URL that
    `fetchLogs` requests, built from the optional date range and the two
    filters with `URLSearchParams`. The serializer is stated here (UTF-8
    percent-encoding, `+` for a space), together with the reading that
    splits such a URL back into its parameters. */
module LogQuery {
  import opened Js

  const Base := "/api/admin/logs"

  // ---------------------------------------------------------------------
  // Dates as `format('YYYY-MM-DD')` renders them
  // ---------------------------------------------------------------------

  datatype Day = Day(year: nat, month: nat, day: nat)

  /** `n` in decimal, left-padded with zeros to `width` digits. */
  function Padded(n: nat, width: nat): (s: string)
    ensures |s| == if |NatToString(n)| < width then width else |NatToString(n)|
    ensures forall i :: 0 <= i < |s| ==> IsDigit(s[i])
    ensures s[|s| - |NatToString(n)|..] == NatToString(n)
  {
    var digits := NatToString(n);
    if |digits| < width then seq(width - |digits|, _ => '0') + digits else digits
  }

  function FormatDay(d: Day): (s: string)
    ensures forall i :: 0 <= i < |s| ==> IsDigit(s[i]) || s[i] == '-'
  {
    var y, m, dd := Padded(d.year, 4), Padded(d.month, 2), Padded(d.day, 2);
    var r := y + "-" + m + "-" + dd;
    assert forall i :: 0 <= i < |r| ==> IsDigit(r[i]) || r[i] == '-' by {
      forall i | 0 <= i < |r|
        ensures IsDigit(r[i]) || r[i] == '-'
      {
        if i < |y| { assert r[i] == y[i]; }
        else if i == |y| { }
        else if i < |y| + 1 + |m| { assert r[i] == m[i - |y| - 1]; }
        else if i == |y| + 1 + |m| { }
        else { assert r[i] == dd[i - |y| - 2 - |m|]; }
      }
    }
    r
  }

  /** Leading zeros do not change the number digits denote. */
  lemma {:induction false} LeadingZero(s: string)
    requires forall i :: 0 <= i < |s| ==> IsDigit(s[i])
    ensures ParseDigits(['0'] + s) == ParseDigits(s)
    decreases |s|
  {
    var t := ['0'] + s;
    if |s| == 0 {
      assert t[..|t| - 1] == [];
    } else {
      assert t[..|t| - 1] == ['0'] + s[..|s| - 1];
      LeadingZero(s[..|s| - 1]);
    }
  }

  lemma {:induction false} ZerosPrefix(k: nat, s: string)
    requires forall i :: 0 <= i < |s| ==> IsDigit(s[i])
    ensures ParseDigits(seq(k, _ => '0') + s) == ParseDigits(s)
    decreases k
  {
    if k > 0 {
      var rest := seq(k - 1, _ => '0') + s;
      assert seq(k, _ => '0') + s == ['0'] + rest;
      ZerosPrefix(k - 1, s);
      LeadingZero(rest);
    } else {
      assert seq(k, _ => '0') + s == s;
    }
  }

  /** Padding loses nothing: the padded digits read back as the number. */
  lemma PaddedReadsBack(n: nat, width: nat)
    ensures ParseDigits(Padded(n, width)) == n
  {
    var digits := NatToString(n);
    ParseNatToString(n);
    if |digits| < width {
      ZerosPrefix(width - |digits|, digits);
    }
  }

  function Pow10(k: nat): (p: nat)
    ensures p >= 1
  {
    if k == 0 then 1 else 10 * Pow10(k - 1)
  }

  /** A number below `10^k` takes at most `k` digits. */
  lemma {:induction false} FitsIn(n: nat, k: nat)
    requires k >= 1 && n < Pow10(k)
    ensures |NatToString(n)| <= k
    decreases n
  {
    if n >= 10 {
      assert k >= 2;
      FitsIn(n / 10, k - 1);
    }
  }

  /** `s` is a `YYYY-MM-DD` text naming year `y`, month `m` and day `dd`. */
  predicate ReadsAs(s: string, y: nat, m: nat, dd: nat) {
    && |s| == 10 && s[4] == '-' && s[7] == '-'
    && (forall i :: 0 <= i < |s| && i != 4 && i != 7 ==> IsDigit(s[i]))
    && ParseDigits(s[..4]) == y && ParseDigits(s[5..7]) == m && ParseDigits(s[8..]) == dd
  }

  /** A date whose fields fit their widths reads back from its text: four,
      two and two digits between the dashes. */
  lemma DayReadsBack(d: Day)
    requires d.year < 10000 && d.month < 100 && d.day < 100
    ensures ReadsAs(FormatDay(d), d.year, d.month, d.day)
  {
    var y, m, dd := Padded(d.year, 4), Padded(d.month, 2), Padded(d.day, 2);
    FitsIn(d.year, 4);
    FitsIn(d.month, 2);
    FitsIn(d.day, 2);
    PaddedReadsBack(d.year, 4);
    PaddedReadsBack(d.month, 2);
    PaddedReadsBack(d.day, 2);
    DashedParts(y, m, dd);
  }

  lemma DashedParts(y: string, m: string, dd: string)
    requires |y| == 4 && |m| == 2 && |dd| == 2
    requires forall i :: 0 <= i < |y| ==> IsDigit(y[i])
    requires forall i :: 0 <= i < |m| ==> IsDigit(m[i])
    requires forall i :: 0 <= i < |dd| ==> IsDigit(dd[i])
    ensures ReadsAs(y + "-" + m + "-" + dd, ParseDigits(y), ParseDigits(m), ParseDigits(dd))
  {
    var s := y + "-" + m + "-" + dd;
    assert s[..4] == y && s[5..7] == m && s[8..] == dd;
  }

  // ---------------------------------------------------------------------
  // The parameters, in the order `fetchLogs` appends them
  // ---------------------------------------------------------------------

  function DateParams(range: Option<(Day, Day)>): (ps: seq<(string, string)>)
    ensures |ps| == if range.Some? then 2 else 0
  {
    if range.Some? then [("startDate", FormatDay(range.value.0)), ("endDate", FormatDay(range.value.1))] else []
  }

  /** A select filter is sent unless it is `'all'`. */
  function Filter(name: string, value: string): (ps: seq<(string, string)>)
    ensures |ps| == if value != "all" then 1 else 0
  {
    if value != "all" then [(name, value)] else []
  }

  function Params(range: Option<(Day, Day)>, level: string, category: string): (ps: seq<(string, string)>)
    ensures |ps| == (if range.Some? then 2 else 0) + (if level != "all" then 1 else 0) + (if category != "all" then 1 else 0)
    ensures range.Some? ==> ps[0] == ("startDate", FormatDay(range.value.0)) && ps[1] == ("endDate", FormatDay(range.value.1))
    ensures level != "all" ==> ps[|DateParams(range)|] == ("level", level)
    ensures category != "all" ==> ps[|ps| - 1] == ("category", category)
  {
    var dates, lv, cat := DateParams(range), Filter("level", level), Filter("category", category);
    Concat3(dates, lv, cat);
    dates + (lv + cat)
  }

  lemma Concat3<T>(a: seq<T>, b: seq<T>, c: seq<T>)
    ensures |a + (b + c)| == |a| + |b| + |c|
    ensures forall i :: 0 <= i < |a| ==> (a + (b + c))[i] == a[i]
    ensures |b| > 0 ==> (a + (b + c))[|a|] == b[0]
    ensures |c| > 0 ==> (a + (b + c))[|a| + |b| + |c| - 1] == c[|c| - 1]
  {
  }

  // ---------------------------------------------------------------------
  // The application/x-www-form-urlencoded serializer
  // ---------------------------------------------------------------------

  /** Characters the serializer leaves as they are. */
  predicate Unreserved(c: char) {
    ('a' <= c <= 'z') || ('A' <= c <= 'Z') || ('0' <= c <= '9') || c == '*' || c == '-' || c == '.' || c == '_'
  }

  /** The UTF-8 bytes of a character. */
  function Utf8(c: char): (bytes: seq<nat>)
    ensures 1 <= |bytes| <= 4
    ensures forall i :: 0 <= i < |bytes| ==> bytes[i] < 256
  {
    var cp := c as int;
    if cp < 0x80 then [cp]
    else if cp < 0x800 then [0xC0 + cp / 64, 0x80 + cp % 64]
    else if cp < 0x10000 then [0xE0 + cp / 4096, 0x80 + (cp / 64) % 64, 0x80 + cp % 64]
    else [0xF0 + cp / 262144, 0x80 + (cp / 4096) % 64, 0x80 + (cp / 64) % 64, 0x80 + cp % 64]
  }

  function HexDigit(n: nat): (c: char)
    requires n < 16
    ensures Unreserved(c)
  {
    "0123456789ABCDEF"[n]
  }

  /** `%XX` for each byte. */
  function PercentBytes(bytes: seq<nat>): (s: string)
    requires forall i :: 0 <= i < |bytes| ==> bytes[i] < 256
    ensures |s| == 3 * |bytes|
    ensures forall i :: 0 <= i < |s| ==> Unreserved(s[i]) || s[i] == '%'
  {
    if bytes == [] then ""
    else ['%', HexDigit(bytes[0] / 16), HexDigit(bytes[0] % 16)] + PercentBytes(bytes[1..])
  }

  function EncodeChar(c: char): (s: string)
    ensures Unreserved(c) ==> s == [c]
    ensures c == ' ' ==> s == "+"
    ensures forall i :: 0 <= i < |s| ==> Unreserved(s[i]) || s[i] == '+' || s[i] == '%'
  {
    if Unreserved(c) then [c] else if c == ' ' then "+" else PercentBytes(Utf8(c))
  }

  /** The serializer's encoding of one name or value. */
  function Encode(s: string): (e: string)
    ensures forall i :: 0 <= i < |e| ==> Unreserved(e[i]) || e[i] == '+' || e[i] == '%'
    ensures (forall i :: 0 <= i < |s| ==> Unreserved(s[i])) ==> e == s
  {
    if s == [] then "" else EncodeChar(s[0]) + Encode(s[1..])
  }

  /** No encoded text contains a separator of the query. */
  lemma EncodedHasNoSeparator(s: string, d: char)
    requires d in "&=?"
    ensures d !in Encode(s)
  {
    var e := Encode(s);
    assert forall i :: 0 <= i < |e| ==> e[i] != d;
  }

  function Pairs(ps: seq<(string, string)>): (items: seq<string>)
    ensures |items| == |ps|
    ensures forall i :: 0 <= i < |ps| ==> items[i] == Encode(ps[i].0) + "=" + Encode(ps[i].1)
  {
    if ps == [] then [] else [Encode(ps[0].0) + "=" + Encode(ps[0].1)] + Pairs(ps[1..])
  }

  // ---------------------------------------------------------------------
  // Splitting and joining on a separator
  // ---------------------------------------------------------------------

  function Join(parts: seq<string>, d: char): string
    requires |parts| >= 1
  {
    if |parts| == 1 then parts[0] else parts[0] + [d] + Join(parts[1..], d)
  }

  /** The pieces between occurrences of `d`. */
  function Split(s: string, d: char): (parts: seq<string>)
    ensures |parts| >= 1
    ensures forall i :: 0 <= i < |parts| ==> d !in parts[i]
    decreases |s|
  {
    if s == [] then [""]
    else
      var rest := Split(s[1..], d);
      if s[0] == d then [""] + rest else [[s[0]] + rest[0]] + rest[1..]
  }

  lemma {:induction false} SplitPrefix(a: string, b: string, d: char)
    requires d !in a
    ensures Split(a + b, d) == [a + Split(b, d)[0]] + Split(b, d)[1..]
    decreases |a|
  {
    if a != [] {
      assert (a + b)[1..] == a[1..] + b;
      assert (a + b)[0] == a[0];
      SplitPrefix(a[1..], b, d);
      assert [a[0]] + (a[1..] + Split(b, d)[0]) == a + Split(b, d)[0];
    } else {
      assert a + b == b;
      assert a + Split(b, d)[0] == Split(b, d)[0];
      assert Split(b, d) == [Split(b, d)[0]] + Split(b, d)[1..];
    }
  }

  /** Splitting undoes joining when no piece contains the separator. */
  lemma {:induction false} SplitJoin(parts: seq<string>, d: char)
    requires |parts| >= 1
    requires forall i :: 0 <= i < |parts| ==> d !in parts[i]
    ensures Split(Join(parts, d), d) == parts
    decreases |parts|
  {
    if |parts| == 1 {
      SplitPrefix(parts[0], "", d);
      assert parts[0] + "" == parts[0];
    } else {
      var rest := Join(parts[1..], d);
      SplitJoin(parts[1..], d);
      assert Join(parts, d) == parts[0] + ([d] + rest);
      SplitPrefix(parts[0], [d] + rest, d);
      assert ([d] + rest)[1..] == rest;
      assert Split([d] + rest, d) == [""] + parts[1..];
      assert parts[0] + "" == parts[0];
      assert parts == [parts[0]] + parts[1..];
    }
  }

  // ---------------------------------------------------------------------
  // The URL and its reading
  // ---------------------------------------------------------------------

  /** `params.toString()` for non-empty parameters. */
  function Serialize(ps: seq<(string, string)>): string
    requires |ps| >= 1
  {
    Join(Pairs(ps), '&')
  }

  /** The URL `fetchLogs` requests: `?` and the query only when some
      parameter was added. */
  function LogsUrl(range: Option<(Day, Day)>, level: string, category: string): (url: string)
    ensures Params(range, level, category) == [] ==> url == Base
    ensures Params(range, level, category) != [] ==> url == Base + "?" + Serialize(Params(range, level, category))
    ensures url == Base <==> range.None? && level == "all" && category == "all"
  {
    var ps := Params(range, level, category);
    if ps == [] then Base
    else
      var url := Base + "?" + Serialize(ps);
      assert |url| > |Base|;
      url
  }

  function ParsePair(item: string): (string, string) {
    var kv := Split(item, '=');
    (kv[0], if |kv| >= 2 then kv[1] else "")
  }

  function ParsePairs(items: seq<string>): (ps: seq<(string, string)>)
    ensures |ps| == |items|
    ensures forall i :: 0 <= i < |items| ==> ps[i] == ParsePair(items[i])
  {
    if items == [] then [] else [ParsePair(items[0])] + ParsePairs(items[1..])
  }

  /** Reads a URL back into its path and its (still encoded) parameters. */
  function ParseUrl(url: string): (string, seq<(string, string)>) {
    var parts := Split(url, '?');
    (parts[0], if |parts| >= 2 then ParsePairs(Split(parts[1], '&')) else [])
  }

  function Encoded(ps: seq<(string, string)>): (r: seq<(string, string)>)
    ensures |r| == |ps|
    ensures forall i :: 0 <= i < |ps| ==> r[i] == (Encode(ps[i].0), Encode(ps[i].1))
  {
    if ps == [] then [] else [(Encode(ps[0].0), Encode(ps[0].1))] + Encoded(ps[1..])
  }

  /** The URL carries exactly the parameters appended, in order: reading it
      back gives the path and each name with its encoded value. */
  lemma UrlRoundTrip(range: Option<(Day, Day)>, level: string, category: string)
    ensures ParseUrl(LogsUrl(range, level, category)) == (Base, Encoded(Params(range, level, category)))
  {
    var ps := Params(range, level, category);
    if ps == [] {
      SplitPrefix(Base, "", '?');
      assert Base + "" == Base;
    } else {
      var q := Serialize(ps);
      QueryHasNoQuestionMark(ps);
      SplitUrl(q);
      QueryRoundTrip(ps);
    }
  }

  /** The path and the query separate at the one `?`. */
  lemma SplitUrl(q: string)
    requires '?' !in q
    ensures Split(Base + "?" + q, '?') == [Base, q]
  {
    SplitJoin([Base, q], '?');
    assert Join([Base, q], '?') == Base + "?" + q;
  }

  /** The query reads back as the encoded pairs. */
  lemma QueryRoundTrip(ps: seq<(string, string)>)
    requires |ps| >= 1
    ensures ParsePairs(Split(Serialize(ps), '&')) == Encoded(ps)
  {
    var items := Pairs(ps);
    forall i | 0 <= i < |items|
      ensures '&' !in items[i]
    {
      PairHasNoSeparator(ps[i], '&');
    }
    SplitJoin(items, '&');
    forall i | 0 <= i < |items|
      ensures ParsePair(items[i]) == (Encode(ps[i].0), Encode(ps[i].1))
    {
      ParsePairOfItem(ps[i]);
    }
  }

  lemma PairHasNoSeparator(p: (string, string), d: char)
    requires d in "&?"
    ensures d !in Encode(p.0) + "=" + Encode(p.1)
  {
    EncodedHasNoSeparator(p.0, d);
    EncodedHasNoSeparator(p.1, d);
  }

  lemma ParsePairOfItem(p: (string, string))
    ensures ParsePair(Encode(p.0) + "=" + Encode(p.1)) == (Encode(p.0), Encode(p.1))
  {
    EncodedHasNoSeparator(p.0, '=');
    EncodedHasNoSeparator(p.1, '=');
    SplitJoin([Encode(p.0), Encode(p.1)], '=');
    assert Join([Encode(p.0), Encode(p.1)], '=') == Encode(p.0) + "=" + Encode(p.1);
  }

  lemma {:induction false} JoinAvoids(parts: seq<string>, d: char, x: char)
    requires |parts| >= 1 && x != d
    requires forall i :: 0 <= i < |parts| ==> x !in parts[i]
    ensures x !in Join(parts, d)
    decreases |parts|
  {
    if |parts| > 1 {
      JoinAvoids(parts[1..], d, x);
    }
  }

  lemma QueryHasNoQuestionMark(ps: seq<(string, string)>)
    requires |ps| >= 1
    ensures '?' !in Serialize(ps)
  {
    var items := Pairs(ps);
    forall i | 0 <= i < |items|
      ensures '?' !in items[i]
    {
      PairHasNoSeparator(ps[i], '?');
    }
    JoinAvoids(items, '&', '?');
  }

  predicate Plain(s: string) {
    forall i :: 0 <= i < |s| ==> Unreserved(s[i])
  }

  lemma DatesArePlain(d: Day)
    ensures Plain(FormatDay(d))
  {
  }

  predicate AllPlain(ps: seq<(string, string)>) {
    forall i :: 0 <= i < |ps| ==> Plain(ps[i].0) && Plain(ps[i].1)
  }

  lemma AppendPlain(a: seq<(string, string)>, b: seq<(string, string)>)
    requires AllPlain(a) && AllPlain(b)
    ensures AllPlain(a + b)
  {
    forall i | 0 <= i < |a + b|
      ensures Plain((a + b)[i].0) && Plain((a + b)[i].1)
    {
      if i >= |a| {
        assert (a + b)[i] == b[i - |a|];
      }
    }
  }

  lemma DateParamsPlain(range: Option<(Day, Day)>)
    ensures AllPlain(DateParams(range))
  {
    if range.Some? {
      DatesArePlain(range.value.0);
      DatesArePlain(range.value.1);
      TwoPlain(FormatDay(range.value.0), FormatDay(range.value.1));
    }
  }

  lemma TwoPlain(a: string, b: string)
    requires Plain(a) && Plain(b)
    ensures AllPlain([("startDate", a), ("endDate", b)])
  {
    KeysArePlain();
  }

  lemma KeysArePlain()
    ensures Plain("startDate") && Plain("endDate") && Plain("level") && Plain("category")
  {
  }

  lemma FilterPlain(name: string, value: string)
    requires Plain(name) && Plain(value)
    ensures AllPlain(Filter(name, value))
  {
  }

  lemma ParamsArePlain(range: Option<(Day, Day)>, level: string, category: string)
    requires Plain(level) && Plain(category)
    ensures AllPlain(Params(range, level, category))
  {
    var dates := DateParams(range);
    var lv := Filter("level", level);
    var cat := Filter("category", category);
    DateParamsPlain(range);
    KeysArePlain();
    FilterPlain("level", level);
    FilterPlain("category", category);
    AppendPlain(lv, cat);
    AppendPlain(dates, lv + cat);
    assert Params(range, level, category) == dates + (lv + cat);
  }

  lemma {:induction false} EncodedPlain(ps: seq<(string, string)>)
    requires AllPlain(ps)
    ensures Encoded(ps) == ps
    decreases |ps|
  {
    if ps != [] {
      assert AllPlain(ps[1..]) by {
        forall i | 0 <= i < |ps[1..]|
          ensures Plain(ps[1..][i].0) && Plain(ps[1..][i].1)
        {
          assert ps[1..][i] == ps[i + 1];
        }
      }
      EncodedPlain(ps[1..]);
      assert Encoded(ps) == [(Encode(ps[0].0), Encode(ps[0].1))] + Encoded(ps[1..]);
    }
  }

  /** Filter values made only of unreserved characters (the select's
      options are) and the dates come back exactly as appended. */
  lemma PlainValuesComeBack(range: Option<(Day, Day)>, level: string, category: string)
    requires Plain(level) && Plain(category)
    ensures ParseUrl(LogsUrl(range, level, category)).1 == Params(range, level, category)
  {
    UrlRoundTrip(range, level, category);
    ParamsArePlain(range, level, category);
    EncodedPlain(Params(range, level, category));
  }

  /** The values the two selects offer. */
  const LevelOptions := {"all", "info", "warning", "error"}
  const CategoryOptions := {"all", "system", "user", "trade"}

  lemma OptionsArePlain(level: string, category: string)
    requires level in LevelOptions && category in CategoryOptions
    ensures Plain(level) && Plain(category)
  {
  }

  /** Whatever the selects and the date picker hold, the URL reads back as
      exactly the parameters appended, in order. */
  lemma SelectedFiltersComeBack(range: Option<(Day, Day)>, level: string, category: string)
    requires level in LevelOptions && category in CategoryOptions
    ensures ParseUrl(LogsUrl(range, level, category)) == (Base, Params(range, level, category))
  {
    OptionsArePlain(level, category);
    PlainValuesComeBack(range, level, category);
    UrlRoundTrip(range, level, category);
  }
}

=== FILE: login_page.dfy ===
/** The sign-in page of src/pages/Login.tsx: its form, per-field errors,
    the send-code button with its countdown, and submission to the mock
    authentication service and the store. Clock readings are parameters. */
module LoginPage {
  import opened Js
  import AuthStore
  import AuthService
  import Countdown

  datatype Field = Username | Password | VerifyCode

  /** Three strings, one per field: the form data and the error texts share this shape. */
  datatype Fields = Fields(username: string, password: string, verifyCode: string) {
    function At(f: Field): string {
      match f
      case Username => username
      case Password => password
      case VerifyCode => verifyCode
    }

    function With(f: Field, v: string): (r: Fields)
      ensures r.At(f) == v
      ensures forall g :: g != f ==> r.At(g) == At(g)
    {
      match f
      case Username => this.(username := v)
      case Password => this.(password := v)
      case VerifyCode => this.(verifyCode := v)
    }
  }

  const NoErrors := Fields("", "", "")

  datatype Page = Page(form: Fields, errors: Fields, isLoading: bool, countdown: Countdown.State)

  /** The page as first shown, with the countdown hook in its mount state. */
  function Initial(saved: Option<Countdown.Saved>): (p: Page)
    ensures p.form == Fields("", "", "") && p.errors == NoErrors && !p.isLoading
  {
    Page(Fields("", "", ""), NoErrors, false, Countdown.Mount(saved))
  }

  const UsernameRequired := "请输入用户名或手机号"
  const PasswordRequired := "请输入密码"
  const PasswordTooShort := "密码长度不能少于6位"
  const CodeRequired := "请输入验证码"

  /** `handleChange`: the named field takes the new value and its error is cleared. */
  function HandleChange(p: Page, f: Field, value: string): (r: Page)
    ensures r.form.At(f) == value && r.errors.At(f) == ""
    ensures forall g :: g != f ==> r.form.At(g) == p.form.At(g) && r.errors.At(g) == p.errors.At(g)
    ensures r.isLoading == p.isLoading && r.countdown == p.countdown
  {
    p.(form := p.form.With(f, value), errors := p.errors.With(f, ""))
  }

  /** `validateForm`: the three errors recomputed from scratch; the form is
      valid when none is set. The username is trimmed, the password and the
      code are not. Lengths count characters. */
  function ValidateForm(form: Fields): (r: (Fields, bool))
    ensures r.0.username == (if Trim(form.username) == "" then UsernameRequired else "")
    ensures r.0.password == (if form.password == "" then PasswordRequired
                             else if |form.password| < 6 then PasswordTooShort else "")
    ensures r.0.verifyCode == (if form.verifyCode == "" then CodeRequired else "")
    ensures r.1 <==> r.0 == NoErrors
  {
    var errors := Fields(
      if Trim(form.username) == "" then UsernameRequired else "",
      if form.password == "" then PasswordRequired else if |form.password| < 6 then PasswordTooShort else "",
      if form.verifyCode == "" then CodeRequired else "");
    (errors, errors == NoErrors)
  }

  /** The form is valid exactly when the username has a non-blank character,
      the password at least six characters and the code any character. */
  lemma ValidIff(form: Fields)
    ensures ValidateForm(form).1 <==> !Blank(form.username) && |form.password| >= 6 && form.verifyCode != ""
  {
    TrimEmptyIffBlank(form.username);
  }

  /** The send-code button is enabled when no countdown shows and nothing is loading. */
  predicate CanSendCode(p: Page) {
    !(p.countdown.countdown > 0 || p.isLoading)
  }

  /** `handleSendVerifyCode` at time `now`: a blank username only sets its
      error; otherwise the code is sent (the mock always succeeds) and the
      countdown starts for that username with the default length. */
  function SendVerifyCode(p: Page, now: int): (r: (Page, Option<string>))
    ensures Blank(p.form.username) ==>
      r.0 == p.(errors := p.errors.With(Username, UsernameRequired)) && r.1.None?
    ensures !Blank(p.form.username) ==>
      && r.0 == p.(countdown := Countdown.Start(p.countdown, Countdown.DefaultSeconds, p.form.username, now), isLoading := false)
      && r.1 == Some("验证码已发送到您的手机")
  {
    TrimEmptyIffBlank(p.form.username);
    if Trim(p.form.username) == "" then (p.(errors := p.errors.With(Username, UsernameRequired)), None)
    else
      (p.(countdown := Countdown.Start(p.countdown, Countdown.DefaultSeconds, p.form.username, now), isLoading := false),
       Some("验证码已发送到您的手机"))
  }

  /** Once a code is sent the button stays disabled for the whole minute,
      and is enabled again when the countdown has run out. */
  lemma ResendBlockedDuringCountdown(p: Page, now: int, k: nat)
    requires !Blank(p.form.username)
    ensures
      var sent := SendVerifyCode(p, now).0;
      && (k < 60 ==> !CanSendCode(sent.(countdown := Countdown.Ticks(sent.countdown, k))))
      && CanSendCode(sent.(countdown := Countdown.Ticks(sent.countdown, 60)))
  {
    var sent := SendVerifyCode(p, now).0;
    Countdown.CountsDownToZero(sent.countdown, k, 0);
    Countdown.CountsDownToZero(sent.countdown, 60, 0);
  }

  /** The user the page hands to the store: the response's profile with both tokens. */
  function SessionUser(resp: AuthService.LoginResponse): (u: AuthStore.User)
    ensures u.id == resp.user.id && u.username == resp.user.username && u.role == resp.user.role
    ensures u.token == resp.token && u.refreshToken == Some(resp.refreshToken) && u.email == Some(resp.user.email)
  {
    AuthStore.User(resp.user.id, resp.user.username, resp.user.role, resp.token,
                   Some(resp.refreshToken), None, Some(resp.user.email), None, None, None)
  }

  const LoginFailed := "登录失败，请检查用户名和密码"

  /** The request the page sends: the form exactly as typed. */
  function Request(form: Fields): (req: AuthService.LoginRequest)
    ensures req.username == form.username && req.password == form.password
    ensures req.verifyCode == Some(form.verifyCode)
  {
    AuthService.LoginRequest(form.username, form.password, Some(form.verifyCode))
  }

  /** `handleSubmit`, with the service's clock readings `t1`, `t2`: an invalid
      form only shows its errors and never reaches the service; a valid one
      is sent as typed, and on success the store signs the user in. */
  function HandleSubmit(p: Page, auth: AuthStore.State, t1: nat, t2: nat): (r: (Page, AuthStore.State, Option<string>))
    ensures r.0.errors == ValidateForm(p.form).0 && r.0.form == p.form && r.0.countdown == p.countdown
    ensures !ValidateForm(p.form).1 ==> r.1 == auth && r.2.None? && r.0.isLoading == p.isLoading
    ensures ValidateForm(p.form).1 ==> !r.0.isLoading
    ensures ValidateForm(p.form).1 && AuthService.Login(Request(p.form), t1, t2).Ok? ==>
      r.1 == AuthStore.Login(auth, SessionUser(AuthService.Login(Request(p.form), t1, t2).value)) && r.2.None?
    ensures ValidateForm(p.form).1 && AuthService.Login(Request(p.form), t1, t2).Err? ==>
      r.1 == auth && r.2 == Some(LoginFailed)
  {
    var v := ValidateForm(p.form);
    if !v.1 then (p.(errors := v.0), auth, None)
    else
      var p1 := p.(errors := v.0, isLoading := false);
      var res := AuthService.Login(Request(p.form), t1, t2);
      if res.Ok? then (p1, AuthStore.Login(auth, SessionUser(res.value)), None)
      else (p1, auth, Some(LoginFailed))
  }

  /** A form that passes validation always signs in, and as the user typed:
      the administrator when the username is exactly `admin`. */
  lemma ValidSubmitSignsIn(p: Page, auth: AuthStore.State, t1: nat, t2: nat)
    requires ValidateForm(p.form).1
    ensures HandleSubmit(p, auth, t1, t2).1.isAuthenticated
    ensures HandleSubmit(p, auth, t1, t2).1.user.value.username == p.form.username
    ensures AuthStore.IsAdmin(HandleSubmit(p, auth, t1, t2).1) <==> p.form.username == "admin"
  {
    TrimEmptyIffBlank(p.form.username);
    assert p.form.username != "";
  }
}

=== FILE: market_list.dfy ===
/** The market-data list of src/components/TradingPanel.tsx: each pushed
    quote replaces the entry with the same symbol, or is appended when no
    entry has it. */
module MarketList {

  datatype Quote = Quote(symbol: string, price: real, change: real, volume: real)

  /** `findIndex(item => item.symbol === symbol)`: the first position holding
      the symbol, or -1. */
  function FindIndex(list: seq<Quote>, symbol: string): (i: int)
    ensures -1 <= i < |list|
    ensures i == -1 <==> forall k :: 0 <= k < |list| ==> list[k].symbol != symbol
    ensures i >= 0 ==> list[i].symbol == symbol && forall k :: 0 <= k < i ==> list[k].symbol != symbol
  {
    if list == [] then -1
    else if list[0].symbol == symbol then 0
    else
      var j := FindIndex(list[1..], symbol);
      if j == -1 then -1 else j + 1
  }

  /** The same search as the loop the runtime performs. */
  method FindIndexLoop(list: seq<Quote>, symbol: string) returns (i: int)
    ensures i == FindIndex(list, symbol)
  {
    i := 0;
    while i < |list| && list[i].symbol != symbol
      invariant 0 <= i <= |list|
      invariant forall k :: 0 <= k < i ==> list[k].symbol != symbol
    {
      i := i + 1;
    }
    if i == |list| {
      i := -1;
    }
  }

  /** The state updater run for each pushed quote; the previous list is not changed. */
  function Upsert(list: seq<Quote>, q: Quote): (r: seq<Quote>)
    // A known symbol: its first entry is replaced in place.
    ensures FindIndex(list, q.symbol) >= 0 ==>
      && |r| == |list|
      && r[FindIndex(list, q.symbol)] == q
      && forall k :: 0 <= k < |list| && k != FindIndex(list, q.symbol) ==> r[k] == list[k]
    // A new symbol: appended at the end.
    ensures FindIndex(list, q.symbol) == -1 ==> r == list + [q]
    ensures q in r
  {
    var i := FindIndex(list, q.symbol);
    if i >= 0 then list[i := q] else list + [q]
  }

  predicate DistinctSymbols(list: seq<Quote>) {
    forall i, j :: 0 <= i < j < |list| ==> list[i].symbol != list[j].symbol
  }

  /** With distinct symbols, the list after an upsert holds exactly one entry
      per symbol, the update's being the update, and keeps its symbols distinct. */
  lemma UpsertKeepsSymbolsDistinct(list: seq<Quote>, q: Quote)
    requires DistinctSymbols(list)
    ensures DistinctSymbols(Upsert(list, q))
    ensures forall k :: 0 <= k < |Upsert(list, q)| && Upsert(list, q)[k].symbol == q.symbol ==> Upsert(list, q)[k] == q
  {
  }

  /** Pushing the same quote twice is the same as pushing it once. */
  lemma UpsertIdempotent(list: seq<Quote>, q: Quote)
    ensures Upsert(Upsert(list, q), q) == Upsert(list, q)
  {
    var r := Upsert(list, q);
    var i := FindIndex(list, q.symbol);
    if i == -1 {
      assert r[|list|] == q;
      assert FindIndex(r, q.symbol) == |list|;
    } else {
      assert FindIndex(r, q.symbol) == i;
    }
  }
}

=== FILE: metrics.dfy ===
/** The tables of src/components/PerformanceReport.tsx: the label and unit
    of each metric key, and the rows built from the report's average
    metrics and trends. */
module Metrics {
  import opened Js

  /** The labelled keys, in the order of the page's lookup table. */
  const Labels: seq<(string, string)> := [
    ("dnsTime", "DNS查询时间"),
    ("tcpTime", "TCP连接时间"),
    ("requestTime", "请求响应时间"),
    ("domParseTime", "DOM解析时间"),
    ("totalLoadTime", "页面加载总时间"),
    ("app-load-time", "应用加载时间"),
    ("trading-panel-load-time", "交易面板加载时间"),
    ("fetch-market-data-time", "获取市场数据时间"),
    ("fetch-positions-time", "获取持仓数据时间"),
    ("place-trade-time", "交易提交时间")]

  /** The keys `getMetricUnit` measures in milliseconds. */
  const TimeMetrics: seq<string> := [
    "dnsTime", "tcpTime", "requestTime", "domParseTime",
    "totalLoadTime", "app-load-time", "trading-panel-load-time",
    "fetch-market-data-time", "fetch-positions-time", "place-trade-time"]

  function LookupLabel(table: seq<(string, string)>, key: string): (r: Option<string>)
    ensures r.Some? <==> exists i :: 0 <= i < |table| && table[i].0 == key
    ensures r.Some? ==> exists i :: 0 <= i < |table| && table[i] == (key, r.value)
  {
    if table == [] then None
    else if table[0].0 == key then Some(table[0].1)
    else LookupLabel(table[1..], key)
  }

  /** `getMetricName` as written: `metricNames[key] || key`. For a key named
      like an inherited member the lookup finds that member, which is truthy,
      so the name is that member rather than text. */
  function MetricNameAsWritten(key: string): (name: Value)
    ensures LookupLabel(Labels, key).Some? ==> name == Str(LookupLabel(Labels, key).value)
    ensures LookupLabel(Labels, key).None? && key !in InheritedNames ==> name == Str(key)
    ensures name.Str? || name == Inherited(key)
  {
    if LookupLabel(Labels, key).Some? then Str(LookupLabel(Labels, key).value)
    else if key in InheritedNames then Inherited(key)
    else Str(key)
  }

  /** Every key named like an inherited member gets that member, not text:
      none of them is a labelled key. */
  lemma NoLabelForInheritedKey(key: string)
    requires key in InheritedNames
    ensures MetricNameAsWritten(key) == Inherited(key)
  {
    if LookupLabel(Labels, key).Some? {
      var i :| 0 <= i < |Labels| && Labels[i].0 == key;
      LabelKeyShape(i);
      assert false;
    }
  }

  /** The labelled keys differ from every inherited name in their length or
      their first character. */
  lemma LabelKeyShape(i: nat)
    requires i < |Labels|
    ensures Labels[i].0 !in InheritedNames
  {
    var k := Labels[i].0;
    assert (|k|, k[0]) in [(7, 'd'), (7, 't'), (11, 'r'), (12, 'd'), (13, 't'), (13, 'a'), (23, 't'), (22, 'f'), (20, 'f'), (16, 'p')];
  }

  /** `getMetricName` as evidently intended: the label of a known key, the
      key itself for every other key. */
  function MetricName(key: string): (name: string)
    ensures LookupLabel(Labels, key).Some? ==> name == LookupLabel(Labels, key).value
    ensures LookupLabel(Labels, key).None? ==> name == key
  {
    LookupLabel(Labels, key).GetOr(key)
  }

  /** The corrected name agrees with the page wherever the page gives text,
      and the page gives text for every key not named like an inherited member. */
  lemma MetricNameCorrected(key: string)
    ensures MetricNameAsWritten(key).Str? ==> MetricNameAsWritten(key).s == MetricName(key)
    ensures key !in InheritedNames ==> MetricNameAsWritten(key) == Str(MetricName(key))
  {
  }

  /** `getMetricUnit`: milliseconds for the time metrics, nothing otherwise. */
  function MetricUnit(key: string): (unit: string)
    ensures unit == "ms" <==> key in TimeMetrics
    ensures unit != "ms" ==> unit == ""
  {
    if key in TimeMetrics then "ms" else ""
  }

  /** A key has a label exactly when it is measured in milliseconds, and its
      label then differs from the key: every named metric is a time. */
  lemma NamedIffTimed(key: string)
    ensures LookupLabel(Labels, key).Some? <==> MetricUnit(key) == "ms"
    ensures MetricUnit(key) == "ms" <==> MetricName(key) != key
  {
    LabelsAreTimes();
    if key in TimeMetrics {
      var i :| 0 <= i < |TimeMetrics| && TimeMetrics[i] == key;
      assert Labels[i].0 == key;
      var j :| 0 <= j < |Labels| && Labels[j] == (key, LookupLabel(Labels, key).value);
      assert Labels[j].1 != Labels[j].0;
    } else {
      assert forall i :: 0 <= i < |Labels| ==> Labels[i].0 != key;
    }
  }

  /** The labelled keys are the time metrics, in the same order, and no label
      spells its own key. */
  lemma LabelsAreTimes()
    ensures |Labels| == |TimeMetrics|
    ensures forall i :: 0 <= i < |Labels| ==> Labels[i].0 == TimeMetrics[i] && Labels[i].1 != Labels[i].0
  {
    forall i | 0 <= i < |Labels|
      ensures Labels[i].0 == TimeMetrics[i] && Labels[i].1 != Labels[i].0
    {
      assert Labels[i].1[0] != Labels[i].0[0];
    }
  }

  // ---------------------------------------------------------------------
  // The rows
  // ---------------------------------------------------------------------

  /** The report; a record's entries are listed in `Object.entries` order. */
  datatype Report = Report(averageMetrics: Option<seq<(string, real)>>, trends: Option<seq<(string, Value)>>)

  /** A row of the metrics table; `name` is whatever `getMetricName` returned. */
  datatype MetricRow = MetricRow(key: string, name: Value, value: real, unit: string)

  function MetricRows(entries: seq<(string, real)>): (rows: seq<MetricRow>)
    ensures |rows| == |entries|
    ensures forall i :: 0 <= i < |entries| ==>
      rows[i] == MetricRow(entries[i].0, MetricNameAsWritten(entries[i].0), entries[i].1, MetricUnit(entries[i].0))
  {
    if entries == [] then []
    else [MetricRow(entries[0].0, MetricNameAsWritten(entries[0].0), entries[0].1, MetricUnit(entries[0].0))]
         + MetricRows(entries[1..])
  }

  /** While no key is named like an inherited member, every row's name is the
      corrected name as text. */
  lemma MetricRowsShowText(entries: seq<(string, real)>)
    requires forall i :: 0 <= i < |entries| ==> entries[i].0 !in InheritedNames
    ensures forall i :: 0 <= i < |entries| ==> MetricRows(entries)[i].name == Str(MetricName(entries[i].0))
  {
    forall i | 0 <= i < |entries|
      ensures MetricRows(entries)[i].name == Str(MetricName(entries[i].0))
    {
      MetricNameCorrected(entries[i].0);
    }
  }

  /** `formatMetricData`: no rows before a report with average metrics;
      otherwise one row per entry, in order, its value unchanged. */
  function FormatMetricData(report: Option<Report>): (rows: seq<MetricRow>)
    ensures report.None? || report.value.averageMetrics.None? ==> rows == []
    ensures report.Some? && report.value.averageMetrics.Some? ==>
      && |rows| == |report.value.averageMetrics.value|
      && forall i :: 0 <= i < |rows| ==>
           rows[i].key == report.value.averageMetrics.value[i].0 && rows[i].value == report.value.averageMetrics.value[i].1
  {
    if report.None? || report.value.averageMetrics.None? then [] else MetricRows(report.value.averageMetrics.value)
  }

  /** Reading the metric rows' keys and values gives back the entries. */
  lemma {:induction false} MetricRowsRoundTrip(entries: seq<(string, real)>)
    ensures Entries(MetricRows(entries)) == entries
    decreases |entries|
  {
    if entries != [] {
      MetricRowsRoundTrip(entries[1..]);
      assert MetricRows(entries)[1..] == MetricRows(entries[1..]);
    }
  }

  function Entries(rows: seq<MetricRow>): (entries: seq<(string, real)>)
    decreases |rows|
  {
    if rows == [] then [] else [(rows[0].key, rows[0].value)] + Entries(rows[1..])
  }

  /** The own enumerable properties `...trend` copies: an object's fields;
      every other kind of value is taken to copy nothing. */
  function OwnFields(v: Value): map<string, Value> {
    if v.Obj? then v.fields else map[]
  }

  /** One trend row: key and label first, then the trend spread over them. */
  function TrendRow(key: string, trend: Value): (row: map<string, Value>)
    ensures row.Keys == {"key", "name"} + OwnFields(trend).Keys
    ensures "name" in OwnFields(trend) ==> row["name"] == OwnFields(trend)["name"]
    ensures "name" !in OwnFields(trend) ==> row["name"] == MetricNameAsWritten(key)
    ensures "key" !in OwnFields(trend) ==> row["key"] == Str(key)
    ensures forall f :: f in OwnFields(trend) ==> row[f] == OwnFields(trend)[f]
  {
    Spread(map["key" := Str(key), "name" := MetricNameAsWritten(key)], OwnFields(trend))
  }

  function TrendRows(entries: seq<(string, Value)>): (rows: seq<map<string, Value>>)
    ensures |rows| == |entries|
    ensures forall i :: 0 <= i < |entries| ==> rows[i] == TrendRow(entries[i].0, entries[i].1)
  {
    if entries == [] then [] else [TrendRow(entries[0].0, entries[0].1)] + TrendRows(entries[1..])
  }

  /** `formatTrendData`: no rows before a report with trends; otherwise one
      row per trend, in order. */
  function FormatTrendData(report: Option<Report>): (rows: seq<map<string, Value>>)
    ensures report.None? || report.value.trends.None? ==> rows == []
    ensures report.Some? && report.value.trends.Some? ==>
      && |rows| == |report.value.trends.value|
      && forall i :: 0 <= i < |rows| ==> rows[i] == TrendRow(report.value.trends.value[i].0, report.value.trends.value[i].1)
  {
    if report.None? || report.value.trends.None? then [] else TrendRows(report.value.trends.value)
  }

  /** A trend that carries its own `name` shows that name, not the label; one
      that does not shows the page's name for the key, which is the corrected
      name as text unless the key is named like an inherited member; every
      field of the trend is shown. */
  lemma TrendNameOverridesLabel(key: string, fields: map<string, Value>)
    ensures "name" in fields ==> TrendRow(key, Obj(fields))["name"] == fields["name"]
    ensures "name" !in fields ==> TrendRow(key, Obj(fields))["name"] == MetricNameAsWritten(key)
    ensures "name" !in fields && key !in InheritedNames ==> TrendRow(key, Obj(fields))["name"] == Str(MetricName(key))
    ensures "name" !in fields && key in InheritedNames ==> TrendRow(key, Obj(fields))["name"] == Inherited(key)
    ensures fields.Keys <= TrendRow(key, Obj(fields)).Keys
  {
    MetricNameCorrected(key);
    if key in InheritedNames {
      NoLabelForInheritedKey(key);
    }
  }
}

=== FILE: order_hook.dfy ===
/** The `useOrder` hook of src/hooks/useOrder.js: `submitOrder` posts the
    order and maps what comes back to a result and a status line. The post is
    a parameter: the value it resolved with, or the message of the `Error` it
    threw. */
module OrderHook {
  import opened Js

  datatype Hook = Hook(isSubmitting: bool, submitStatus: Value)

  /** `{ success, data }` or `{ success, error }`. */
  datatype OrderResult = Succeeded(data: Value) | Failed(error: Value)

  /** What `apiClient.post` did. */
  datatype Post = Resolved(response: Value) | Threw(message: string)

  /** The state while the post is outstanding. */
  function Begin(h: Hook): (r: Hook)
    ensures r.isSubmitting && r.submitStatus == Str("")
  {
    Hook(true, Str(""))
  }

  /** `a || b` */
  function Or(a: Value, b: Value): (r: Value)
    ensures Truthy(a) ==> r == a
    ensures !Truthy(a) ==> r == b
  {
    if Truthy(a) then a else b
  }

  /** The `catch` branch for an error with message `m`. */
  function Caught(m: string): (r: (Hook, OrderResult))
    ensures m != "" ==> r == (Hook(false, Str("订单提交失败: " + m)), Failed(Str(m)))
    ensures m == "" ==> r == (Hook(false, Str("订单提交失败: " + "未知错误")), Failed(Str("未知错误")))
  {
    var shown := if m == "" then "未知错误" else m;
    (Hook(false, Str("订单提交失败: " + shown)), Failed(Str(shown)))
  }

  /** `submitOrder(orderData)` once the post has settled: the final hook state
      and the value the call resolves with. Reading `response.success` of a
      `null` or `undefined` response throws inside the `try` and ends in the
      `catch` branch like a failed post. */
  function SubmitOrder(h: Hook, post: Post): (r: (Hook, OrderResult))
    ensures !r.0.isSubmitting
    ensures post.Resolved? && !post.response.Null? && !post.response.Undefined? &&
            Truthy(ReadProperty(post.response, "success").value) ==>
      r == (Hook(false, Str("下单成功")), Succeeded(post.response))
    ensures post.Resolved? && !post.response.Null? && !post.response.Undefined? &&
            !Truthy(ReadProperty(post.response, "success").value) ==>
      var shown := Or(ReadProperty(post.response, "message").value, Str("下单失败"));
      r == (Hook(false, shown), Failed(shown))
    ensures post.Resolved? && (post.response.Null? || post.response.Undefined?) ==>
      r == Caught(ReadProperty(post.response, "success").error)
    ensures post.Threw? ==> r == Caught(post.message)
    ensures r.1.Succeeded? <==> post.Resolved? && post.response.Obj? && Truthy(Get(post.response.fields, "success"))
  {
    match post
    case Threw(m) => Caught(m)
    case Resolved(resp) =>
      match ReadProperty(resp, "success")
      case Err(m) => Caught(m)
      case Ok(success) =>
        if Truthy(success) then (Hook(false, Str("下单成功")), Succeeded(resp))
        else
          var shown := Or(ReadProperty(resp, "message").value, Str("下单失败"));
          (Hook(false, shown), Failed(shown))
  }

  /** The application's mock client resolves every post with code 200, an
      empty data object and message `'Success'`, but never with `success`. */
  const MockPostReply := Obj(map["code" := Num(200.0), "data" := Obj(map[]), "message" := Str("Success")])

  /** So with the mock client every order is reported as failed, with the
      text `'Success'` as both error and status. */
  lemma MockClientAlwaysFails(h: Hook)
    ensures SubmitOrder(Begin(h), Resolved(MockPostReply)) == (Hook(false, Str("Success")), Failed(Str("Success")))
  {
  }

  /** Whatever happens, a failed order carries a truthy reason and the status
      line shows it, bare when the server gave it and after the prefix
      `订单提交失败: ` when something threw; a successful one shows `下单成功`. */
  lemma FailureAlwaysExplained(h: Hook, post: Post)
    ensures var r := SubmitOrder(h, post);
      && (r.1.Succeeded? ==> r.0.submitStatus == Str("下单成功"))
      && (r.1.Failed? ==> Truthy(r.1.error))
      && (r.1.Failed? ==>
            r.0.submitStatus == r.1.error ||
            (r.1.error.Str? && r.0.submitStatus == Str("订单提交失败: " + r.1.error.s)))
  {
    if post.Threw? || post.response.Null? || post.response.Undefined? {
    } else {
      var success := ReadProperty(post.response, "success").value;
      if !Truthy(success) {
        var m := ReadProperty(post.response, "message").value;
        assert Truthy(Or(m, Str("下单失败")));
      }
    }
  }
}

=== FILE: protected_route.dfy ===
/** The stand-alone route guard of src/components/ProtectedRoute.tsx: the
    render decision and the effect that shows a toast and navigates away. */
module RouteGuard {
  import opened Js
  import AuthStore
  import Router

  /** A `navigate(to, { state: { from } })` call; `from` is absent when no state is passed. */
  datatype Navigation = Navigation(to: string, from: Option<string>)

  datatype Decision = Decision(renders: bool, toast: Option<string>, navigation: Option<Navigation>)

  /** `requireAdmin` when the prop is omitted. */
  const DefaultRequireAdmin := false

  /** The guard for the current location `pathname`. */
  function Guard(auth: AuthStore.State, requireAdmin: bool, pathname: string): (d: Decision)
    ensures d.renders <==> auth.isAuthenticated && (!requireAdmin || AuthStore.IsAdmin(auth))
    ensures d.renders <==> d.navigation.None?
    ensures d.toast.None? <==> d.navigation.None?
    // Signed out: sent to the matching sign-in page, remembering where they were.
    ensures !auth.isAuthenticated ==>
      && d.toast == Some("请先登录")
      && d.navigation == Some(Navigation(if requireAdmin then "/admin/login" else "/login", Some(pathname)))
    // Signed in without the role: sent home.
    ensures auth.isAuthenticated && requireAdmin && !AuthStore.IsAdmin(auth) ==>
      d.toast == Some("无权访问") && d.navigation == Some(Navigation("/", None))
  {
    if !auth.isAuthenticated then
      Decision(false, Some("请先登录"), Some(Navigation(if requireAdmin then "/admin/login" else "/login", Some(pathname))))
    else if requireAdmin && !AuthStore.IsAdmin(auth) then
      Decision(false, Some("无权访问"), Some(Navigation("/", None)))
    else Decision(true, None, None)
  }

  /** The authentication check comes first: a signed-out visitor is always
      sent to a sign-in page, never home, whatever the user's role. */
  lemma AuthenticationFirst(auth: AuthStore.State, requireAdmin: bool, pathname: string)
    requires !auth.isAuthenticated
    ensures Guard(auth, requireAdmin, pathname).navigation.value.to in {"/login", "/admin/login"}
  {
  }

  /** This guard shows its children in exactly the cases the router's
      `ProtectedRoute` does, `requireAdmin` playing the part of `requiredRole === 'admin'`. */
  lemma AgreesWithRouter(auth: AuthStore.State, requireAdmin: bool, pathname: string, page: string)
    ensures Guard(auth, requireAdmin, pathname).renders <==>
      Router.ProtectedRoute(auth, if requireAdmin then "admin" else "user", page).Render?
  {
  }
}

=== FILE: realtime.dfy ===
/** The socket client of src/services/realtimeService.ts: lifecycle handlers
    installed at construction, authentication on every `connect`, the three
    update streams with their unsubscribe functions, and `sendTrade`, whose
    promise is settled by the server's acknowledgment.

    The socket library is represented by what the service can observe of it:
    its listener list (in registration order), the frames emitted, and whether
    it is connected. Callbacks are named by numbers; trade promises by the
    acknowledgment number the library assigns them. */
module Realtime {
  import opened Js
  import AuthStore
  import Singleton

  /** A registered listener function: one of the three lifecycle handlers the
      constructor installs, or a caller's callback. */
  datatype Handler = ConnectHandler | DisconnectHandler | ErrorHandler | Callback(id: nat)

  datatype Listener = Listener(event: string, handler: Handler)

  /** An emitted frame, with the acknowledgment it waits for, if any. */
  datatype Frame = Frame(event: string, payload: Value, ack: Option<nat>)

  datatype TradeOutcome = Fulfilled(data: Value) | Rejected(reason: Value)

  datatype Client = Client(
    connected: bool,
    listeners: seq<Listener>,
    emitted: seq<Frame>,
    nextAck: nat,
    pending: set<nat>,
    outcomes: map<nat, TradeOutcome>,
    errorLog: seq<Value>)

  /** The constructor: `io(url)` plus `setupEventListeners()`. The socket is
      not connected until the transport reports `connect`. */
  function Construct(): (c: Client)
    ensures !c.connected && c.emitted == [] && c.pending == {}
    ensures c.listeners == [Listener("connect", ConnectHandler), Listener("disconnect", DisconnectHandler), Listener("error", ErrorHandler)]
  {
    Client(false, [Listener("connect", ConnectHandler), Listener("disconnect", DisconnectHandler), Listener("error", ErrorHandler)],
           [], 0, {}, map[], [])
  }

  /** `realtimeService = RealtimeService.getInstance()`: the one shared client. */
  function GetInstance(slot: Singleton.Slot): (r: (Singleton.Slot, nat))
    ensures slot.instance.Some? ==> r.1 == slot.instance.value && r.0 == slot
    ensures r.0.instance == Some(r.1)
  {
    Singleton.GetInstance(slot)
  }

  /** `authenticate()`: reads the store at this moment and emits the token
      only when the user has a truthy one. */
  function Authenticate(c: Client, auth: AuthStore.State): (r: Client)
    ensures AuthStore.HasToken(auth) ==>
      r == c.(emitted := c.emitted + [Frame("authenticate", Obj(map["token" := Str(auth.user.value.token)]), None)])
    ensures !AuthStore.HasToken(auth) ==> r == c
  {
    if AuthStore.HasToken(auth) then
      c.(emitted := c.emitted + [Frame("authenticate", Obj(map["token" := Str(auth.user.value.token)]), None)])
    else c
  }

  /** The transport reports `connect` (first connection or any reconnection);
      the handler authenticates with the store as it is now. */
  function TransportConnected(c: Client, auth: AuthStore.State): (r: Client)
    ensures r.connected
    ensures r.listeners == c.listeners && r.pending == c.pending && r.outcomes == c.outcomes
    ensures AuthStore.HasToken(auth) <==> |r.emitted| == |c.emitted| + 1
    ensures AuthStore.HasToken(auth) ==>
      r.emitted[|c.emitted|] == Frame("authenticate", Obj(map["token" := Str(auth.user.value.token)]), None)
  {
    Authenticate(c.(connected := true), auth)
  }

  /** The transport reports `disconnect`; the handler only logs. */
  function TransportDisconnected(c: Client): (r: Client)
    ensures !r.connected && r == c.(connected := false)
  {
    c.(connected := false)
  }

  /** The transport reports `error`: it is logged and nothing else happens;
      in particular nothing is thrown and no promise is settled. */
  function TransportError(c: Client, e: Value): (r: Client)
    ensures r == c.(errorLog := c.errorLog + [e])
  {
    c.(errorLog := c.errorLog + [e])
  }

  /** The three update streams. */
  datatype Stream = MarketUpdate | TradeUpdate | FundUpdate

  function EventName(s: Stream): (name: string)
    ensures name in {"market_update", "trade_update", "fund_update"}
  {
    match s
    case MarketUpdate => "market_update"
    case TradeUpdate => "trade_update"
    case FundUpdate => "fund_update"
  }

  /** Each stream listens under its own name. */
  lemma EventNamesDistinct(a: Stream, b: Stream)
    ensures EventName(a) == EventName(b) <==> a == b
  {
  }

  /** `onMarketUpdate` / `onTradeUpdate` / `onFundUpdate(callback)`: registers
      the callback last under the stream's name; the second component is the
      pair its returned unsubscribe function will remove. */
  function Subscribe(c: Client, s: Stream, cb: nat): (r: (Client, Listener))
    ensures r.1 == Listener(EventName(s), Callback(cb))
    ensures r.0 == c.(listeners := c.listeners + [r.1])
  {
    var l := Listener(EventName(s), Callback(cb));
    (c.(listeners := c.listeners + [l]), l)
  }

  /** `socket.off(event, fn)`: removes the earliest registration of exactly that pair. */
  function RemoveFirst(ls: seq<Listener>, l: Listener): (r: seq<Listener>)
    ensures l !in ls ==> r == ls
    ensures l in ls ==> |r| == |ls| - 1
    ensures multiset(r) == multiset(ls) - multiset{l}
    ensures forall x :: x != l ==> (x in r <==> x in ls)
  {
    if ls == [] then []
    else
      assert ls == [ls[0]] + ls[1..];
      if ls[0] == l then ls[1..]
      else [ls[0]] + RemoveFirst(ls[1..], l)
  }

  /** Calling the unsubscribe function returned for `l`. */
  function Unsubscribe(c: Client, l: Listener): (r: Client)
    ensures r == c.(listeners := RemoveFirst(c.listeners, l))
  {
    c.(listeners := RemoveFirst(c.listeners, l))
  }

  /** Number of times `l` is registered. */
  function Count(ls: seq<Listener>, l: Listener): nat {
    multiset(ls)[l]
  }

  /** The handlers an inbound `event` reaches, in registration order: each
      handler as many times as it is registered under that name. */
  function Dispatch(ls: seq<Listener>, event: string): (hs: seq<Handler>)
    ensures forall h :: h in hs <==> Listener(event, h) in ls
    ensures forall h :: multiset(hs)[h] == Count(ls, Listener(event, h))
    ensures |hs| <= |ls|
  {
    if ls == [] then []
    else
      var rest := Dispatch(ls[1..], event);
      assert ls == [ls[0]] + ls[1..];
      assert forall x :: x in ls <==> x == ls[0] || x in ls[1..];
      if ls[0].event == event then [ls[0].handler] + rest else rest
  }

  /** What the first listener contributes, followed by the rest. */
  lemma DispatchCons(ls: seq<Listener>, event: string)
    requires ls != []
    ensures Dispatch(ls, event) == (if ls[0].event == event then [ls[0].handler] else []) + Dispatch(ls[1..], event)
  {
  }

  /** A listener registered last is reached last, after every earlier one. */
  lemma {:induction false} DispatchAppend(ls: seq<Listener>, l: Listener, event: string)
    ensures Dispatch(ls + [l], event) == Dispatch(ls, event) + (if l.event == event then [l.handler] else [])
    decreases |ls|
  {
    if ls == [] {
      assert [] + [l] == [l];
      DispatchCons([l], event);
    } else {
      var ls' := ls + [l];
      assert ls'[0] == ls[0] && ls'[1..] == ls[1..] + [l];
      DispatchCons(ls', event);
      DispatchAppend(ls[1..], l, event);
      DispatchCons(ls, event);
      AppendAssoc(if ls[0].event == event then [ls[0].handler] else [], Dispatch(ls[1..], event),
                  if l.event == event then [l.handler] else []);
    }
  }

  lemma AppendAssoc<T>(a: seq<T>, b: seq<T>, c: seq<T>)
    ensures a + (b + c) == (a + b) + c
  {
  }

  /** Unsubscribing right after subscribing restores the listeners exactly
      when the callback was not already registered under that stream. */
  lemma SubscribeThenUnsubscribe(c: Client, s: Stream, cb: nat)
    requires Listener(EventName(s), Callback(cb)) !in c.listeners
    ensures Unsubscribe(Subscribe(c, s, cb).0, Subscribe(c, s, cb).1) == c
  {
    var l := Listener(EventName(s), Callback(cb));
    RemoveAppended(c.listeners, l);
  }

  lemma {:induction false} RemoveAppended(ls: seq<Listener>, l: Listener)
    requires l !in ls
    ensures RemoveFirst(ls + [l], l) == ls
    decreases |ls|
  {
    if ls != [] {
      assert (ls + [l])[1..] == ls[1..] + [l];
      RemoveAppended(ls[1..], l);
    }
  }

  /** After its unsubscribe runs, a callback registered once no longer
      receives the stream's events, every other listener is kept, and running
      the same unsubscribe again changes nothing. */
  lemma UnsubscribeStopsDelivery(c: Client, l: Listener)
    requires Count(c.listeners, l) == 1
    ensures l.handler !in Dispatch(Unsubscribe(c, l).listeners, l.event)
    ensures forall x :: x != l ==> (x in Unsubscribe(c, l).listeners <==> x in c.listeners)
    ensures Unsubscribe(Unsubscribe(c, l), l) == Unsubscribe(c, l)
  {
    var r := RemoveFirst(c.listeners, l);
    assert multiset(r)[l] == 0;
    assert l !in r;
  }

  /** `sendTrade(data)`: emits `place_trade` with the data unchanged, awaiting
      a fresh acknowledgment; the second component names the new promise. */
  function SendTrade(c: Client, data: Value): (r: (Client, nat))
    ensures r.1 == c.nextAck && r.0.nextAck == c.nextAck + 1
    ensures r.0.emitted == c.emitted + [Frame("place_trade", data, Some(r.1))]
    ensures r.0.pending == c.pending + {r.1}
    ensures r.0.outcomes == c.outcomes && r.0.listeners == c.listeners && r.0.connected == c.connected
  {
    (c.(emitted := c.emitted + [Frame("place_trade", data, Some(c.nextAck))],
        nextAck := c.nextAck + 1, pending := c.pending + {c.nextAck}), c.nextAck)
  }

  /** The ack callback's rule: resolve with `response.data` when
      `response.success` is truthy, otherwise reject with `response.error`
      exactly as received. A null or undefined acknowledgment makes the
      callback throw while reading `success`, so it settles nothing (`None`);
      any other non-object has no such properties and rejects with undefined. */
  function Settle(response: Value): (o: Option<TradeOutcome>)
    ensures o.None? <==> response.Null? || response.Undefined?
    ensures response.Obj? && Truthy(Get(response.fields, "success")) ==>
      o == Some(Fulfilled(Get(response.fields, "data")))
    ensures response.Obj? && !Truthy(Get(response.fields, "success")) ==>
      o == Some(Rejected(Get(response.fields, "error")))
    ensures !response.Obj? && o.Some? ==> o == Some(Rejected(Undefined))
  {
    match ReadProperty(response, "success")
    case Err(_) => None
    case Ok(success) =>
      if Truthy(success) then Some(Fulfilled(ReadProperty(response, "data").value))
      else Some(Rejected(ReadProperty(response, "error").value))
  }

  /** The server acknowledges promise `id` with `response`. The socket hands
      each acknowledgment callback over once, so a pending promise stops being
      pending whether or not its callback settles it; every other promise is
      left exactly as it was. */
  function Acknowledge(c: Client, id: nat, response: Value): (r: Client)
    ensures id in c.pending ==> r.pending == c.pending - {id}
    ensures id in c.pending && Settle(response).Some? ==> r.outcomes == c.outcomes[id := Settle(response).value]
    ensures id in c.pending && Settle(response).None? ==> r.outcomes == c.outcomes
    ensures id !in c.pending ==> r == c
    ensures forall k :: k != id && k in c.outcomes ==> k in r.outcomes && r.outcomes[k] == c.outcomes[k]
    ensures r.emitted == c.emitted && r.listeners == c.listeners
  {
    if id !in c.pending then c
    else
      match Settle(response)
      case None => c.(pending := c.pending - {id})
      case Some(o) => c.(pending := c.pending - {id}, outcomes := c.outcomes[id := o])
  }

  /** Pending and settled promises never overlap, and every promise named so far is one or the other. */
  ghost predicate Inv(c: Client) {
    && c.pending !! c.outcomes.Keys
    && forall k :: k in c.pending || k in c.outcomes ==> k < c.nextAck
  }

  /** A trade promise settles at most once: a second acknowledgment, whatever
      it says, changes nothing, and the first one decides the outcome. */
  lemma SettlesAtMostOnce(c: Client, id: nat, first: Value, second: Value)
    requires Inv(c) && id in c.pending
    ensures Acknowledge(Acknowledge(c, id, first), id, second) == Acknowledge(c, id, first)
    ensures Settle(first).Some? ==> Acknowledge(c, id, first).outcomes[id] == Settle(first).value
  {
  }

  /** A null acknowledgment strands its promise: it is no longer pending, has
      no outcome, and no later acknowledgment can settle it. */
  lemma NullAckStrands(c: Client, id: nat, later: Value)
    requires Inv(c) && id in c.pending
    ensures id !in Acknowledge(c, id, Null).pending && id !in Acknowledge(c, id, Null).outcomes
    ensures id !in Acknowledge(Acknowledge(c, id, Null), id, later).outcomes
  {
  }

  /** Acknowledgments for two different promises commute. */
  lemma AcknowledgeCommutes(c: Client, i: nat, j: nat, a: Value, b: Value)
    requires i != j
    ensures Acknowledge(Acknowledge(c, i, a), j, b) == Acknowledge(Acknowledge(c, j, b), i, a)
  {
    var ab := Acknowledge(Acknowledge(c, i, a), j, b);
    var ba := Acknowledge(Acknowledge(c, j, b), i, a);
    assert ab.pending == ba.pending;
    assert ab.outcomes == ba.outcomes;
  }

  /** Two trades in flight settle independently: each takes its outcome from
      its own acknowledgment, in whichever order they arrive. */
  lemma NoCrossTalk(c: Client, d1: Value, d2: Value, a1: Value, a2: Value)
    requires Inv(c)
    ensures
      var (c1, i1) := SendTrade(c, d1);
      var (c2, i2) := SendTrade(c1, d2);
      var both := Acknowledge(Acknowledge(c2, i2, a2), i1, a1);
      && i1 != i2
      && (Settle(a1).Some? ==> both.outcomes[i1] == Settle(a1).value)
      && (Settle(a2).Some? ==> both.outcomes[i2] == Settle(a2).value)
      && (Settle(a1).None? ==> i1 !in both.outcomes)
      && (Settle(a2).None? ==> i2 !in both.outcomes)
      && both == Acknowledge(Acknowledge(c2, i1, a1), i2, a2)
  {
    var (c1, i1) := SendTrade(c, d1);
    var (c2, i2) := SendTrade(c1, d2);
    assert i1 in c2.pending && i2 in c2.pending && i1 !in c2.outcomes && i2 !in c2.outcomes;
    AcknowledgeCommutes(c2, i2, i1, a2, a1);
  }

  /** Sending keeps the invariant, and so does an acknowledgment. */
  lemma StepsKeepInv(c: Client, d: Value, id: nat, a: Value)
    requires Inv(c)
    ensures Inv(SendTrade(c, d).0)
    ensures Inv(Acknowledge(c, id, a))
  {
  }

  /** `isConnected()`: the socket's flag, read without changing anything. */
  predicate IsConnected(c: Client) {
    c.connected
  }

  /** `disconnect()`: the socket closes and reports `disconnect` locally, so
      the result is what the `disconnect` handler leaves; only the flag
      changes. */
  function Disconnect(c: Client): (r: Client)
    ensures !IsConnected(r)
    ensures r == TransportDisconnected(c)
    ensures r.(connected := c.connected) == c
  {
    c.(connected := false)
  }

  /** The flag follows the transport: connected after every `connect`, not
      after a disconnect, whichever way it came about. */
  lemma ConnectedTracksTransport(c: Client, auth: AuthStore.State)
    ensures IsConnected(TransportConnected(c, auth))
    ensures !IsConnected(TransportDisconnected(c)) && !IsConnected(Disconnect(c))
    ensures !IsConnected(Disconnect(TransportConnected(c, auth)))
  {
  }

  /** A reconnection authenticates with the token the store holds when it
      happens, not the one seen at the first connection; the frames sent
      before it are kept. */
  lemma ReconnectRereadsToken(c: Client, before: AuthStore.State, now: AuthStore.State)
    ensures
      var r := TransportConnected(TransportDisconnected(TransportConnected(c, before)), now);
      && r.emitted[..|c.emitted|] == c.emitted
      && (AuthStore.HasToken(now) ==>
            r.emitted[|r.emitted| - 1] == Frame("authenticate", Obj(map["token" := Str(now.user.value.token)]), None))
      && (!AuthStore.HasToken(now) ==> r.emitted == TransportConnected(c, before).emitted)
  {
    var c1 := TransportConnected(c, before);
    var c2 := TransportDisconnected(c1);
    var r := TransportConnected(c2, now);
    assert r.emitted[..|c1.emitted|] == c1.emitted;
    assert c1.emitted[..|c.emitted|] == c.emitted;
  }
}

=== FILE: recent_trades.dfy ===
/** The recent-trades list of src/pages/admin/RealtimeDashboard.tsx: every
    trade update is put first and the list is cut to ten; a moment after
    mount the list is replaced by a three-trade fixture. */
module RecentTrades {

  datatype Trade = Trade(orderId: string, symbol: string, quantity: real, price: real, side: string, timestamp: string)

  const Capacity := 10

  /** `[data, ...prev].slice(0, 10)` */
  function Prepend(prev: seq<Trade>, t: Trade): (r: seq<Trade>)
    ensures |r| == if |prev| + 1 < Capacity then |prev| + 1 else Capacity
    ensures r[0] == t
    ensures r[1..] == prev[..|r| - 1]
  {
    ([t] + prev)[..if |prev| + 1 < Capacity then |prev| + 1 else Capacity]
  }

  /** The fixture installed by the delayed load, with the clock's timestamp. */
  function Fixture(now: string): (f: seq<Trade>)
    ensures |f| == 3
    ensures f[0].orderId == "order_1" && f[1].orderId == "order_2" && f[2].orderId == "order_3"
  {
    [Trade("order_1", "SH_FUTURE", 10.0, 1000.0, "buy", now),
     Trade("order_2", "HK_FUTURE", 5.0, 800.0, "sell", now),
     Trade("order_3", "OIL_FUTURE", 20.0, 85.0, "buy", now)]
  }

  datatype Event = Update(t: Trade) | FixtureLoaded(now: string)

  function Apply(list: seq<Trade>, e: Event): seq<Trade> {
    match e
    case Update(t) => Prepend(list, t)
    case FixtureLoaded(now) => Fixture(now)
  }

  function Run(list: seq<Trade>, evs: seq<Event>): seq<Trade>
    decreases |evs|
  {
    if evs == [] then list else Run(Apply(list, evs[0]), evs[1..])
  }

  /** The list starts empty; whatever happens it never holds more than ten trades. */
  lemma {:induction false} NeverMoreThanTen(list: seq<Trade>, evs: seq<Event>)
    requires |list| <= Capacity
    ensures |Run(list, evs)| <= Capacity
    decreases |evs|
  {
    if evs != [] {
      NeverMoreThanTen(Apply(list, evs[0]), evs[1..]);
    }
  }

  function Reverse(s: seq<Trade>): (r: seq<Trade>)
    ensures |r| == |s|
    decreases |s|
  {
    if s == [] then [] else Reverse(s[1..]) + [s[0]]
  }

  function Take(s: seq<Trade>, n: nat): (r: seq<Trade>)
    ensures |r| == if |s| < n then |s| else n
  {
    if |s| < n then s else s[..n]
  }

  function Updates(ts: seq<Trade>): (evs: seq<Event>)
    ensures |evs| == |ts|
    decreases |ts|
  {
    if ts == [] then [] else [Update(ts[0])] + Updates(ts[1..])
  }

  /** Reference definition: after a run of updates `ts` (oldest first) the
      list shows the newest ten of all trades seen, newest first, the earlier
      list (of at most ten) counting as older than every update. */
  lemma {:induction false} ShowsNewestTen(list: seq<Trade>, ts: seq<Trade>)
    requires |list| <= Capacity
    ensures Run(list, Updates(ts)) == Take(Reverse(ts) + list, Capacity)
    decreases |ts|
  {
    if ts == [] {
      assert Reverse(ts) + list == list;
      TakeOfShort(list);
    } else {
      var t := ts[0];
      var rest := ts[1..];
      var p := Prepend(list, t);
      calc {
        Run(list, Updates(ts));
        { assert Updates(ts) == [Update(t)] + Updates(rest); }
        Run(p, Updates(rest));
        { ShowsNewestTen(p, rest); }
        Take(Reverse(rest) + p, Capacity);
        { PrependIsTake(list, t);
          TakeAbsorbs(Reverse(rest), [t] + list, p); }
        Take(Reverse(rest) + ([t] + list), Capacity);
        { assert Reverse(ts) == Reverse(rest) + [t];
          assert Reverse(ts) + list == Reverse(rest) + ([t] + list); }
        Take(Reverse(ts) + list, Capacity);
      }
    }
  }

  lemma PrependIsTake(list: seq<Trade>, t: Trade)
    ensures Prepend(list, t) == Take([t] + list, Capacity)
  {
  }

  lemma TakeOfShort(list: seq<Trade>)
    ensures Run(list, []) == list
    ensures |list| <= Capacity ==> Take(list, Capacity) == list
  {
  }

  /** Cutting the tail to ten before more trades go in front changes nothing
      about the first ten. */
  lemma TakeAbsorbs(front: seq<Trade>, tail: seq<Trade>, cut: seq<Trade>)
    requires cut == Take(tail, Capacity)
    ensures Take(front + cut, Capacity) == Take(front + tail, Capacity)
  {
    var a := Take(front + cut, Capacity);
    var b := Take(front + tail, Capacity);
    assert |a| == |b|;
    forall k | 0 <= k < |a|
      ensures a[k] == b[k]
    {
      if k < |front| {
      } else {
        assert a[k] == cut[k - |front|];
      }
    }
  }
}

=== FILE: refresh_queue.dfy ===
/** The single-flight token refresh of src/services/requestQueue.ts.

    `handle401Error` is asynchronous; its two halves become separate events:
    `Unauthorized` (a 401 reaches the handler, up to the `await` on
    `onRefreshToken`) and `RefreshSucceeded` / `RefreshFailed` (that `await`
    settles, through the `finally`). The suspended first half is kept in
    `inFlight`, and every promise the class settles is written, in order, to
    `settled`. The injected `api` call is not run: a caller resolved with
    `api(config)` is recorded as `Replayed(config)`. */
module RefreshQueue {
  import opened Js
  import AuthStore

  type Caller = nat

  /** An axios request config: the URL and the headers object, if there is one. */
  datatype Config = Config(url: string, headers: Option<map<string, string>>)

  /** `{ resolve, reject, config }`: whose promise, and which request. */
  datatype Item = Item(caller: Caller, config: Config)

  /** How a caller's promise was settled. */
  datatype Outcome =
    | Replayed(config: Config)   // resolved with `api(config)`
    | Rejected(reason: Value)

  datatype Settlement = Settlement(caller: Caller, outcome: Outcome)

  datatype State = State(
    isRefreshing: bool,
    failedQueue: seq<Item>,
    inFlight: Option<Item>,      // the request awaiting the refresh it started
    refreshToken: Option<string>,
    refreshCalls: nat,           // calls made to `onRefreshToken`
    refreshesSettled: nat,       // of those, how many have settled
    settled: seq<Settlement>)

  const Initial := State(false, [], None, None, 0, 0, [])

  /** What assigning `headers.Authorization` on a missing headers object throws. */
  const HeadersTypeError := ErrorObj("Cannot set properties of undefined (setting 'Authorization')")

  /** `if (config.headers) config.headers.Authorization = 'Bearer ' + token` */
  function WithBearer(c: Config, token: string): (r: Config)
    ensures r.url == c.url
    ensures c.headers.None? ==> r == c
    ensures c.headers.Some? ==> r.headers.Some? && r.headers.value == c.headers.value["Authorization" := AuthStore.Bearer(token)]
  {
    match c.headers
    case None => c
    case Some(h) => Config(c.url, Some(h["Authorization" := AuthStore.Bearer(token)]))
  }

  /** The single-flight invariant: the flag is up exactly while one refresh is
      awaited; nothing waits in the queue unless it is up; and every call
      made to `onRefreshToken` has settled except the one in flight. */
  predicate Inv(s: State) {
    && (s.isRefreshing <==> s.inFlight.Some?)
    && (!s.isRefreshing ==> s.failedQueue == [])
    && s.refreshCalls == s.refreshesSettled + (if s.isRefreshing then 1 else 0)
  }

  /** What `processQueue(error, token)` does to one queued item. */
  function SettleItem(it: Item, error: Value, token: Option<string>): seq<Settlement> {
    if Truthy(error) then [Settlement(it.caller, Rejected(error))]
    else if token.Some? && token.value != "" then
      [Settlement(it.caller, Replayed(WithBearer(it.config, token.value)))]
    else []
  }

  /** `processQueue(error, token)`: the settlements it makes, in queue order. A
      truthy error rejects every item with it; otherwise a non-empty token
      replays every item with it; otherwise the items are silently dropped. */
  function ProcessQueue(queue: seq<Item>, error: Value, token: Option<string>): (r: seq<Settlement>)
    ensures Truthy(error) ==>
      |r| == |queue| && forall i :: 0 <= i < |r| ==> r[i] == Settlement(queue[i].caller, Rejected(error))
    ensures !Truthy(error) && token.Some? && token.value != "" ==>
      |r| == |queue| &&
      forall i :: 0 <= i < |r| ==> r[i] == Settlement(queue[i].caller, Replayed(WithBearer(queue[i].config, token.value)))
    ensures !Truthy(error) && (token.None? || token.value == "") ==> r == []
  {
    if queue == [] then []
    else SettleItem(queue[0], error, token) + ProcessQueue(queue[1..], error, token)
  }

  /** The first half of `handle401Error(error)`: a 401 for `caller`, whose
      error carries `config` (or none) and is itself the value `error`. */
  function Unauthorized(s: State, caller: Caller, config: Option<Config>, error: Value): (r: State)
    // No config: reject at once with the same error, touching nothing else.
    ensures config.None? ==>
      r == s.(settled := s.settled + [Settlement(caller, Rejected(error))])
    // A refresh is under way: only join the end of the queue.
    ensures config.Some? && s.isRefreshing ==>
      r == s.(failedQueue := s.failedQueue + [Item(caller, config.value)])
    // No refresh under way: raise the flag and make the one refresh call.
    ensures config.Some? && !s.isRefreshing ==>
      && r.isRefreshing && r.inFlight == Some(Item(caller, config.value))
      && r.refreshCalls == s.refreshCalls + 1
      && r.failedQueue == s.failedQueue && r.settled == s.settled
      && r.refreshesSettled == s.refreshesSettled && r.refreshToken == s.refreshToken
    ensures Inv(s) ==> Inv(r)
  {
    match config
    case None => s.(settled := s.settled + [Settlement(caller, Rejected(error))])
    case Some(c) =>
      if s.isRefreshing then s.(failedQueue := s.failedQueue + [Item(caller, c)])
      else s.(isRefreshing := true, inFlight := Some(Item(caller, c)), refreshCalls := s.refreshCalls + 1)
  }

  /** The `await onRefreshToken()` that started with `s.inFlight` fulfils with
      `token`: queued requests first, then the original one, then `finally`. */
  function RefreshSucceeded(s: State, token: string): (r: State)
    requires s.inFlight.Some?
    ensures !r.isRefreshing && r.failedQueue == [] && r.inFlight.None?
    ensures r.refreshToken == Some(token)
    ensures r.refreshCalls == s.refreshCalls && r.refreshesSettled == s.refreshesSettled + 1
    ensures
      var orig := s.inFlight.value;
      r.settled == s.settled + ProcessQueue(s.failedQueue, Null, Some(token)) + [Settlement(orig.caller,
        if orig.config.headers.Some? then Replayed(WithBearer(orig.config, token)) else Rejected(HeadersTypeError))]
    ensures Inv(s) ==> Inv(r)
  {
    var orig := s.inFlight.value;
    var queued := ProcessQueue(s.failedQueue, Null, Some(token));
    // Line 53 throws on a missing headers object; the `catch` then drains an
    // already empty queue and rejects with what was thrown.
    var own := if orig.config.headers.Some? then Replayed(WithBearer(orig.config, token)) else Rejected(HeadersTypeError);
    State(false, [], None, Some(token), s.refreshCalls, s.refreshesSettled + 1,
          s.settled + queued + [Settlement(orig.caller, own)])
  }

  /** The `await onRefreshToken()` rejects with `e`. */
  function RefreshFailed(s: State, e: Value): (r: State)
    requires s.inFlight.Some?
    ensures !r.isRefreshing && r.failedQueue == [] && r.inFlight.None?
    ensures r.refreshToken == s.refreshToken
    ensures r.refreshCalls == s.refreshCalls && r.refreshesSettled == s.refreshesSettled + 1
    ensures r.settled == s.settled + ProcessQueue(s.failedQueue, e, None) + [Settlement(s.inFlight.value.caller, Rejected(e))]
    ensures Inv(s) ==> Inv(r)
  {
    State(false, [], None, s.refreshToken, s.refreshCalls, s.refreshesSettled + 1,
          s.settled + ProcessQueue(s.failedQueue, e, None) + [Settlement(s.inFlight.value.caller, Rejected(e))])
  }

  // ---------------------------------------------------------------------
  // Runs: any interleaving of 401s and refresh outcomes
  // ---------------------------------------------------------------------

  datatype Event =
    | Unauthorized401(caller: Caller, config: Option<Config>, error: Value)
    | RefreshOk(token: string)
    | RefreshError(e: Value)

  /** One event. A refresh outcome can only arrive while a refresh is awaited;
      with none in flight there is nothing for it to settle. */
  function Step(s: State, ev: Event): State {
    match ev
    case Unauthorized401(c, cfg, err) => Unauthorized(s, c, cfg, err)
    case RefreshOk(t) => if s.inFlight.Some? then RefreshSucceeded(s, t) else s
    case RefreshError(e) => if s.inFlight.Some? then RefreshFailed(s, e) else s
  }

  function Run(s: State, evs: seq<Event>): State
    decreases |evs|
  {
    if evs == [] then s else Run(Step(s, evs[0]), evs[1..])
  }

  /** However 401s and refresh outcomes interleave, at most one refresh is in
      flight, the flag is never left up once it has settled, and the queue is
      empty whenever no refresh is awaited. */
  lemma {:induction false} RunKeepsSingleFlight(s: State, evs: seq<Event>)
    requires Inv(s)
    ensures Inv(Run(s, evs))
    ensures Run(s, evs).refreshCalls <= Run(s, evs).refreshesSettled + 1
    decreases |evs|
  {
    if evs != [] {
      RunKeepsSingleFlight(Step(s, evs[0]), evs[1..]);
    }
  }

  /** Settlements are only ever appended: a promise once settled stays settled. */
  lemma {:induction false} RunOnlyAppends(s: State, evs: seq<Event>)
    ensures |Run(s, evs).settled| >= |s.settled|
    ensures Run(s, evs).settled[..|s.settled|] == s.settled
    decreases |evs|
  {
    if evs != [] {
      var s1 := Step(s, evs[0]);
      assert |s1.settled| >= |s.settled| && s1.settled[..|s.settled|] == s.settled;
      RunOnlyAppends(s1, evs[1..]);
    }
  }

  /** A run of three events is the three steps in order. */
  lemma RunThree(s: State, e1: Event, e2: Event, e3: Event)
    ensures Run(s, [e1, e2, e3]) == Step(Step(Step(s, e1), e2), e3)
  {
    var s1 := Step(s, e1);
    var s2 := Step(s1, e2);
    assert [e1, e2, e3][1..] == [e2, e3];
    assert Run(s, [e1, e2, e3]) == Run(s1, [e2, e3]);
    assert [e2, e3][1..] == [e3];
    assert Run(s1, [e2, e3]) == Run(s2, [e3]);
    assert [e3][1..] == [];
    assert Run(s2, [e3]) == Run(Step(s2, e3), []);
  }

  function HasHeaders(c: Config): bool {
    c.headers.Some?
  }

  /** Two requests hit 401 while nothing is refreshing: one refresh call is
      made; when it succeeds with a non-empty token, the queued request and
      then the original are both replayed with that token, and the flag is down. */
  lemma TwoOverlapping401sSucceed(s: State, a: Caller, ca: Config, b: Caller, cb: Config, ea: Value, eb: Value, t: string)
    requires Inv(s) && !s.isRefreshing && HasHeaders(ca) && HasHeaders(cb) && t != ""
    ensures
      var r := Run(s, [Unauthorized401(a, Some(ca), ea), Unauthorized401(b, Some(cb), eb), RefreshOk(t)]);
      && r.refreshCalls == s.refreshCalls + 1
      && !r.isRefreshing && r.failedQueue == []
      && r.settled == s.settled + [Settlement(b, Replayed(WithBearer(cb, t))), Settlement(a, Replayed(WithBearer(ca, t)))]
  {
    var s1 := Unauthorized(s, a, Some(ca), ea);
    var s2 := Unauthorized(s1, b, Some(cb), eb);
    RunThree(s, Unauthorized401(a, Some(ca), ea), Unauthorized401(b, Some(cb), eb), RefreshOk(t));
    assert s2.failedQueue == [Item(b, cb)];
    assert ProcessQueue(s2.failedQueue, Null, Some(t)) == [Settlement(b, Replayed(WithBearer(cb, t)))];
  }

  /** The same two requests when the refresh fails: both reject with the
      refresh error, the queued one first, and the flag is down. */
  lemma TwoOverlapping401sFail(s: State, a: Caller, ca: Config, b: Caller, cb: Config, ea: Value, eb: Value, e: Value)
    requires Inv(s) && !s.isRefreshing && Truthy(e)
    ensures
      var r := Run(s, [Unauthorized401(a, Some(ca), ea), Unauthorized401(b, Some(cb), eb), RefreshError(e)]);
      && r.refreshCalls == s.refreshCalls + 1
      && !r.isRefreshing && r.failedQueue == []
      && r.settled == s.settled + [Settlement(b, Rejected(e)), Settlement(a, Rejected(e))]
  {
    var s1 := Unauthorized(s, a, Some(ca), ea);
    var s2 := Unauthorized(s1, b, Some(cb), eb);
    RunThree(s, Unauthorized401(a, Some(ca), ea), Unauthorized401(b, Some(cb), eb), RefreshError(e));
    assert s2.failedQueue == [Item(b, cb)];
    assert ProcessQueue(s2.failedQueue, e, None) == [Settlement(b, Rejected(e))];
  }

  /** Once a refresh has settled, the next 401 starts a brand-new refresh. */
  lemma NextRefreshIsNeverSkipped(s: State, t: string, c: Caller, cfg: Config, err: Value)
    requires s.inFlight.Some?
    ensures Unauthorized(RefreshSucceeded(s, t), c, Some(cfg), err).refreshCalls == s.refreshCalls + 1
  {
  }

  /** An empty token neither resolves nor rejects the waiting requests: they
      are dropped, and only the original request is replayed. */
  lemma EmptyTokenDropsQueue(s: State)
    requires s.inFlight.Some? && s.inFlight.value.config.headers.Some?
    ensures RefreshSucceeded(s, "").settled ==
      s.settled + [Settlement(s.inFlight.value.caller, Replayed(WithBearer(s.inFlight.value.config, "")))]
  {
  }
}

=== FILE: request_queue.dfy ===
/** The shared queue of src/utils/requestQueue.ts: a `refreshing` flag that
    callers set and read, and a FIFO of suspended requests that
    `processQueue` settles all at once. Unlike the refresh queue of
    src/services/requestQueue.ts, it never calls anything itself: a request
    it resolves is resolved with its own config. */
module RequestQueue {
  import opened Js

  /** `{ resolve, reject, config }` of one suspended caller. */
  datatype Queued = Queued(caller: nat, config: Value)

  datatype Outcome = Resolved(value: Value) | Rejected(reason: Value)

  datatype Settlement = Settlement(caller: nat, outcome: Outcome)

  datatype State = State(isRefreshing: bool, failedQueue: seq<Queued>)

  /** The exported `requestQueue` when the module loads. */
  const Initial := State(false, [])

  /** The `refreshing` getter. */
  function Refreshing(s: State): bool {
    s.isRefreshing
  }

  /** The `refreshing` setter: the flag and nothing else. */
  function SetRefreshing(s: State, value: bool): (r: State)
    ensures Refreshing(r) == value
    ensures r.failedQueue == s.failedQueue
  {
    s.(isRefreshing := value)
  }

  /** `enqueue(request)`: to the back of the queue, nothing else changes. */
  function Enqueue(s: State, q: Queued): (r: State)
    ensures r.isRefreshing == s.isRefreshing
    ensures |r.failedQueue| == |s.failedQueue| + 1
    ensures r.failedQueue[..|s.failedQueue|] == s.failedQueue
    ensures r.failedQueue[|s.failedQueue|] == q
  {
    s.(failedQueue := s.failedQueue + [q])
  }

  function Settle(q: Queued, error: Value): Settlement {
    if Truthy(error) then Settlement(q.caller, Rejected(error))
    else Settlement(q.caller, Resolved(q.config))
  }

  function SettleAll(queue: seq<Queued>, error: Value): (r: seq<Settlement>)
    ensures |r| == |queue|
    ensures forall i :: 0 <= i < |r| ==> r[i].caller == queue[i].caller
    ensures Truthy(error) ==> forall i :: 0 <= i < |r| ==> r[i].outcome == Rejected(error)
    ensures !Truthy(error) ==> forall i :: 0 <= i < |r| ==> r[i].outcome == Resolved(queue[i].config)
  {
    if queue == [] then [] else [Settle(queue[0], error)] + SettleAll(queue[1..], error)
  }

  /** `processQueue(error = null)`: every queued caller is settled once, in
      enqueue order (rejected with a truthy error, otherwise resolved with its
      own config); the queue is emptied and the flag left as it was. */
  function ProcessQueue(s: State, error: Value): (r: (State, seq<Settlement>))
    ensures r.0 == State(s.isRefreshing, [])
    ensures |r.1| == |s.failedQueue|
    ensures forall i :: 0 <= i < |r.1| ==> r.1[i].caller == s.failedQueue[i].caller
    ensures Truthy(error) ==> forall i :: 0 <= i < |r.1| ==> r.1[i].outcome == Rejected(error)
    ensures !Truthy(error) ==> forall i :: 0 <= i < |r.1| ==> r.1[i].outcome == Resolved(s.failedQueue[i].config)
  {
    (State(s.isRefreshing, []), SettleAll(s.failedQueue, error))
  }

  function EnqueueAll(s: State, qs: seq<Queued>): State
    decreases |qs|
  {
    if qs == [] then s else EnqueueAll(Enqueue(s, qs[0]), qs[1..])
  }

  /** Enqueuing a batch appends it in order and leaves the flag alone. */
  lemma {:induction false} EnqueueAllAppends(s: State, qs: seq<Queued>)
    ensures EnqueueAll(s, qs) == State(s.isRefreshing, s.failedQueue + qs)
    decreases |qs|
  {
    if qs != [] {
      EnqueueAllAppends(Enqueue(s, qs[0]), qs[1..]);
      assert s.failedQueue + [qs[0]] + qs[1..] == s.failedQueue + qs;
    }
  }

  /** Callers that enqueue on an idle queue while a refresh runs are all
      answered by the next `processQueue`, first come first served, and the
      queue is then idle again. */
  lemma FirstComeFirstServed(qs: seq<Queued>, error: Value)
    ensures
      var r := ProcessQueue(EnqueueAll(SetRefreshing(Initial, true), qs), error);
      && r.0 == State(true, [])
      && |r.1| == |qs|
      && forall i :: 0 <= i < |qs| ==> r.1[i] == Settle(qs[i], error)
  {
    EnqueueAllAppends(SetRefreshing(Initial, true), qs);
    assert [] + qs == qs;
  }
}

=== FILE: router.dfy ===
/** The route table of src/router/index.tsx with its two guards: a protected
    route that needs a signed-in user (and, for the admin area, the admin
    role), and a guest route for the sign-in pages that sends signed-in users
    away. Paths are matched literally, as the table lists them. */
module Router {
  import AuthStore

  /** What a route element produces: its page, or a redirect (`<Navigate replace>`). */
  datatype Outcome = Render(page: string) | Redirect(to: string)

  /** `ProtectedRoute` with `requiredRole` (default `'user'`). */
  function ProtectedRoute(auth: AuthStore.State, requiredRole: string, page: string): (r: Outcome)
    ensures !auth.isAuthenticated ==> r == Redirect("/login")
    ensures auth.isAuthenticated && requiredRole == "admin" && !AuthStore.IsAdmin(auth) ==> r == Redirect("/")
    ensures r.Render? <==> auth.isAuthenticated && (requiredRole != "admin" || AuthStore.IsAdmin(auth))
    ensures r.Render? ==> r.page == page
  {
    if !auth.isAuthenticated then Redirect("/login")
    else if requiredRole == "admin" && !AuthStore.IsAdmin(auth) then Redirect("/")
    else Render(page)
  }

  /** `GuestRoute` with `adminOnly` (default `false`). */
  function GuestRoute(auth: AuthStore.State, adminOnly: bool, page: string): (r: Outcome)
    ensures r.Render? <==> !auth.isAuthenticated
    ensures r.Render? ==> r.page == page
    ensures auth.isAuthenticated && adminOnly && AuthStore.IsAdmin(auth) ==> r == Redirect("/admin")
    ensures auth.isAuthenticated && !(adminOnly && AuthStore.IsAdmin(auth)) ==> r == Redirect("/")
  {
    if !auth.isAuthenticated then Render(page)
    else if adminOnly && AuthStore.IsAdmin(auth) then Redirect("/admin")
    else Redirect("/")
  }

  /** A page behind a default protected route and a sign-in page are never both
      shown for the same store state. */
  lemma ProtectedAndGuestExclusive(auth: AuthStore.State, adminOnly: bool, p: string, q: string)
    ensures !(ProtectedRoute(auth, "user", p).Render? && GuestRoute(auth, adminOnly, q).Render?)
    ensures ProtectedRoute(auth, "user", p).Render? || GuestRoute(auth, adminOnly, q).Render?
  {
  }

  const MainPaths := {"/", "/market", "/trading", "/profile"}
  const AdminPaths := {"/admin", "/admin/users", "/admin/trades", "/admin/funds", "/admin/realtime"}

  /** The router: which element the table picks for `path`, and what it does. */
  function Visit(auth: AuthStore.State, path: string): (r: Outcome)
    ensures path in MainPaths ==> r == ProtectedRoute(auth, "user", path)
    ensures path in AdminPaths ==> r == ProtectedRoute(auth, "admin", path)
    ensures path == "/admin/login" ==> r == GuestRoute(auth, true, path)
    ensures path in {"/login", "/forgot-password"} ==> r == GuestRoute(auth, false, path)
    ensures path !in MainPaths + AdminPaths + {"/admin/login", "/login", "/forgot-password"} ==> r == Redirect("/")
  {
    if path in MainPaths then ProtectedRoute(auth, "user", path)
    else if path in AdminPaths then ProtectedRoute(auth, "admin", path)
    else if path == "/admin/login" then GuestRoute(auth, true, path)
    else if path == "/login" || path == "/forgot-password" then GuestRoute(auth, false, path)
    else Redirect("/")
  }

  /** Follows redirects, at most `hops` of them. */
  function Follow(auth: AuthStore.State, path: string, hops: nat): Outcome
    decreases hops
  {
    match Visit(auth, path)
    case Render(p) => Render(p)
    case Redirect(to) => if hops == 0 then Redirect(to) else Follow(auth, to, hops - 1)
  }

  /** Admin pages are shown only to a signed-in administrator. */
  lemma AdminAreaNeedsAdmin(auth: AuthStore.State, path: string)
    requires path in AdminPaths
    ensures Visit(auth, path).Render? <==> auth.isAuthenticated && AuthStore.IsAdmin(auth)
  {
  }

  /** The table has no redirect loop: whatever the store holds, any path
      settles on a page after at most two redirects, and that page is one the
      visitor may see: a signed-out visitor lands on a sign-in page, a
      signed-in one on a main or admin page. */
  lemma NoRedirectLoop(auth: AuthStore.State, path: string)
    ensures Follow(auth, path, 2).Render?
    ensures !auth.isAuthenticated ==> Follow(auth, path, 2).page in {"/login", "/forgot-password", "/admin/login"}
    ensures auth.isAuthenticated ==> Follow(auth, path, 2).page in MainPaths + AdminPaths
  {
    assert Visit(auth, "/login") == GuestRoute(auth, false, "/login");
    assert Visit(auth, "/") == ProtectedRoute(auth, "user", "/");
    assert Visit(auth, "/admin") == ProtectedRoute(auth, "admin", "/admin");
  }
}

=== FILE: singleton.dfy ===
/** The lazily created single instance behind `ApiClient.getInstance()` and
    `RealtimeService.getInstance()`: a static slot that is filled on the
    first call and handed back unchanged on every later one. Instances are
    named by the number of constructions that preceded them. */
module Singleton {
  import opened Js

  datatype Slot = Slot(instance: Option<nat>, constructions: nat)

  /** Before the module is loaded nothing has been constructed. */
  const Unloaded := Slot(None, 0)

  /** `getInstance()`: construct when the slot is empty, otherwise return what is there. */
  function GetInstance(s: Slot): (r: (Slot, nat))
    ensures r.0.instance == Some(r.1)
    ensures s.instance.Some? ==> r.0 == s && r.1 == s.instance.value
    ensures s.instance.None? ==> r.0.constructions == s.constructions + 1
  {
    match s.instance
    case Some(i) => (s, i)
    case None => (Slot(Some(s.constructions), s.constructions + 1), s.constructions)
  }

  /** `n` successive calls, returning the slot afterwards and what each call returned. */
  function GetInstanceTimes(s: Slot, n: nat): (Slot, seq<nat>)
    decreases n
  {
    if n == 0 then (s, [])
    else
      var (s1, i) := GetInstance(s);
      var (s2, rest) := GetInstanceTimes(s1, n - 1);
      (s2, [i] + rest)
  }

  /** Starting from a filled slot, every call returns the instance already there
      and nothing new is constructed. */
  lemma {:induction false} FilledSlotIsStable(s: Slot, n: nat)
    requires s.instance.Some?
    ensures GetInstanceTimes(s, n).0 == s
    ensures |GetInstanceTimes(s, n).1| == n
    ensures forall k :: 0 <= k < n ==> GetInstanceTimes(s, n).1[k] == s.instance.value
    decreases n
  {
    if n > 0 {
      FilledSlotIsStable(s, n - 1);
    }
  }

  /** From an unloaded module, any number of calls construct exactly one
      instance and all of them return it (the exported `realtimeService`
      and `apiClient` constants are that instance). */
  lemma {:induction false} AlwaysTheSameInstance(n: nat)
    requires n > 0
    ensures GetInstanceTimes(Unloaded, n).0.constructions == 1
    ensures |GetInstanceTimes(Unloaded, n).1| == n
    ensures forall k :: 0 <= k < n ==> GetInstanceTimes(Unloaded, n).1[k] == 0
  {
    var (s1, i) := GetInstance(Unloaded);
    FilledSlotIsStable(s1, n - 1);
  }
}

=== FILE: trade_admin.dfy ===
/** The trade administration page of src/pages/admin/TradeManagement.tsx:
    the status tags, the actions offered per row, the pagination state and
    how the list endpoint's answer is taken into the page. */
module TradeAdmin {
  import opened Js

  // ---------------------------------------------------------------------
  // Status tags and actions
  // ---------------------------------------------------------------------

  datatype Tag = Tag(color: string, text: string)

  /** The three statuses the page knows. */
  function KnownTag(status: string): (t: Option<Tag>)
    ensures t.Some? <==> status in {"completed", "pending", "cancelled"}
  {
    if status == "completed" then Some(Tag("green", "已完成"))
    else if status == "pending" then Some(Tag("orange", "处理中"))
    else if status == "cancelled" then Some(Tag("red", "已取消"))
    else None
  }

  /** `getStatusTag` as written: `statusMap[status] || fallback`. For an
      inherited name the lookup finds a function or the prototype, which is
      truthy, so the fallback is skipped and the tag has neither colour nor
      text (`None` here). */
  function StatusTagAsWritten(status: string): (t: Option<Tag>)
    ensures status in {"completed", "pending", "cancelled"} ==> t == KnownTag(status)
    ensures status !in {"completed", "pending", "cancelled"} && status !in InheritedNames ==> t == Some(Tag("gray", "未知"))
  {
    if KnownTag(status).Some? then KnownTag(status)
    else if status in InheritedNames then None
    else Some(Tag("gray", "未知"))
  }

  /** Every status named like an inherited member (`constructor`,
      `toString`, ...) gets a blank tag instead of the grey "unknown" one. */
  lemma BlankTagForInheritedName(status: string)
    requires status in InheritedNames
    ensures StatusTagAsWritten(status).None?
  {
  }

  /** `getStatusTag` as evidently intended: the three known statuses get
      their colour and text, every other string the grey "unknown" tag. */
  function StatusTag(status: string): (t: Tag)
    ensures status == "completed" ==> t == Tag("green", "已完成")
    ensures status == "pending" ==> t == Tag("orange", "处理中")
    ensures status == "cancelled" ==> t == Tag("red", "已取消")
    ensures status !in {"completed", "pending", "cancelled"} ==> t == Tag("gray", "未知")
  {
    KnownTag(status).GetOr(Tag("gray", "未知"))
  }

  /** The corrected tag agrees with the page wherever the page gives a tag at
      all, and every status gets a coloured, labelled tag; distinct known
      statuses are told apart. */
  lemma StatusTagCorrected(status: string)
    ensures StatusTagAsWritten(status).Some? ==> StatusTagAsWritten(status).value == StatusTag(status)
    ensures StatusTag(status).color != "" && StatusTag(status).text != ""
    ensures StatusTag(status).text == "未知" <==> status !in {"completed", "pending", "cancelled"}
  {
  }

  /** The status changes offered on a row: only a pending trade can be
      completed or cancelled. */
  function Actions(status: string): (targets: seq<string>)
    ensures status == "pending" ==> targets == ["completed", "cancelled"]
    ensures status != "pending" ==> targets == []
  {
    if status == "pending" then ["completed", "cancelled"] else []
  }

  /** Every offered change leaves `pending` for a final status, from which
      nothing more is offered: a trade changes status at most once here. */
  lemma ActionsAreFinal(status: string, target: string)
    requires target in Actions(status)
    ensures status == "pending" && target != "pending"
    ensures Actions(target) == []
    ensures StatusTag(target).color in {"green", "red"}
  {
  }

  // ---------------------------------------------------------------------
  // Pagination and the list endpoint
  // ---------------------------------------------------------------------

  datatype Pagination = Pagination(current: int, pageSize: int, total: Value)

  const InitialPagination := Pagination(1, 10, Num(0.0))

  /** `handleTableChange(page, pageSize)`: a missing or zero size keeps the
      previous one; the total is untouched. */
  function HandleTableChange(p: Pagination, page: int, pageSize: Option<int>): (r: Pagination)
    ensures r.current == page && r.total == p.total
    ensures r.pageSize == (if pageSize.Some? && pageSize.value != 0 then pageSize.value else p.pageSize)
  {
    p.(current := page, pageSize := if pageSize.Some? && pageSize.value != 0 then pageSize.value else p.pageSize)
  }

  /** Turning to a page and back restores the pagination. */
  lemma TableChangeRoundTrip(p: Pagination, page: int, size: Option<int>)
    ensures HandleTableChange(HandleTableChange(p, page, size), p.current, Some(p.pageSize)).current == p.current
    ensures p.pageSize != 0 ==> HandleTableChange(HandleTableChange(p, page, size), p.current, Some(p.pageSize)) == p
  {
  }

  datatype Page = Page(trades: Value, pagination: Pagination, toast: Option<string>)

  /** The query of `fetchTrades`. */
  function FetchQuery(p: Pagination): map<string, Value> {
    map["page" := Num(p.current as real), "limit" := Num(p.pageSize as real)]
  }

  /** The query of `handleSearch`: page 1 and the page size, under the form's
      values (which win if they use the same names). */
  function SearchQuery(p: Pagination, values: map<string, Value>): (q: map<string, Value>)
    ensures q.Keys == {"page", "limit"} + values.Keys
    ensures "page" !in values ==> q["page"] == Num(1.0)
    ensures forall k :: k in values ==> q[k] == values[k]
  {
    Spread(map["page" := Num(1.0), "limit" := Num(p.pageSize as real)], values)
  }

  /** Takes `res.data` into the page. A bare array replaces the trades and
      nothing else; an object with truthy `trades` replaces them, and with
      truthy `pagination` also sets the total (`|| 0`) and, on search, goes
      back to page 1. Any other value has no `trades`, so nothing changes.
      Reading a property of `null`/`undefined` throws, which the page reports
      with `failure`. */
  function Receive(pg: Page, data: Value, isSearch: bool, failure: string): (r: Page)
    ensures data.Arr? ==> r == pg.(trades := data)
    ensures data.Null? || data.Undefined? ==> r == pg.(toast := Some(failure))
    ensures !data.Arr? && !data.Obj? && !data.Null? && !data.Undefined? ==> r == pg
    ensures data.Obj? && !Truthy(Get(data.fields, "trades")) ==> r == pg
    ensures data.Obj? && Truthy(Get(data.fields, "trades")) && !Truthy(Get(data.fields, "pagination")) ==>
      r == pg.(trades := Get(data.fields, "trades"))
    ensures data.Obj? && Truthy(Get(data.fields, "trades")) && Truthy(Get(data.fields, "pagination")) ==>
      && r.trades == Get(data.fields, "trades")
      && r.pagination.pageSize == pg.pagination.pageSize
      && r.pagination.current == (if isSearch then 1 else pg.pagination.current)
      && r.pagination.total == (match ReadProperty(Get(data.fields, "pagination"), "total")
                                case Ok(t) => if Truthy(t) then t else Num(0.0)
                                case Err(_) => Num(0.0))
  {
    if data.Arr? then pg.(trades := data)
    else
      match ReadProperty(data, "trades")
      case Err(_) => pg.(toast := Some(failure))
      case Ok(trades) =>
        if !Truthy(trades) then pg
        else
          var pag := ReadProperty(data, "pagination").value;
          if !Truthy(pag) then pg.(trades := trades)
          else
            var total := match ReadProperty(pag, "total") case Ok(t) => if Truthy(t) then t else Num(0.0) case Err(_) => Num(0.0);
            pg.(trades := trades,
                pagination := pg.pagination.(current := if isSearch then 1 else pg.pagination.current, total := total))
  }

  /** `fetchTrades` once the endpoint answered with `data`. */
  function FetchTrades(pg: Page, data: Value): (r: Page)
    ensures r.pagination.current == pg.pagination.current && r.pagination.pageSize == pg.pagination.pageSize
    ensures data.Null? || data.Undefined? ==> r.toast == Some("获取交易列表失败")
  {
    Receive(pg, data, false, "获取交易列表失败")
  }

  /** `handleSearch` once the endpoint answered with `data`. */
  function HandleSearch(pg: Page, data: Value): (r: Page)
    ensures r.pagination.pageSize == pg.pagination.pageSize
    ensures data.Null? || data.Undefined? ==> r.toast == Some("搜索交易失败")
  {
    Receive(pg, data, true, "搜索交易失败")
  }

  /** A bare-array answer never moves the pagination, even on search; an
      object answer with pagination moves a search back to page 1. */
  lemma SearchPaginationRule(pg: Page, data: Value)
    ensures data.Arr? ==> HandleSearch(pg, data).pagination == pg.pagination
    ensures data.Obj? && Truthy(Get(data.fields, "trades")) && Truthy(Get(data.fields, "pagination")) ==>
      HandleSearch(pg, data).pagination.current == 1
    ensures FetchTrades(pg, data).pagination.current == pg.pagination.current
  {
  }
}

=== FILE: trading_service.dfy ===
/** The mock trading service of src/services/tradingService.ts: `placeTrade`
    with its completeness check, `cancelOrder` and `getMarketData`. The clock
    read for the order id is a parameter. */
module TradingService {
  import opened Js

  /** `{ code, data, message }`, the shape every call resolves with. */
  datatype Reply = Reply(code: int, data: Value, message: string)

  const IncompleteTrade := "请填写完整的交易信息"

  /** `symbol`, `quantity` and `type` all read truthy. */
  predicate Complete(trade: map<string, Value>) {
    Truthy(Get(trade, "symbol")) && Truthy(Get(trade, "quantity")) && Truthy(Get(trade, "type"))
  }

  /** The fields the service generates before spreading the caller's trade over them. */
  function Generated(now: nat): (g: map<string, Value>)
    ensures g.Keys == {"orderId", "status"}
    ensures g["status"] == Str("submitted")
  {
    map["orderId" := Str("order_" + NatToString(now)), "status" := Str("submitted")]
  }

  /** `placeTrade(tradeData)`: rejects (with an `Error`, or the TypeError of
      reading a property of `null`/`undefined`) unless the trade is an object
      whose symbol, quantity and type are all truthy; otherwise resolves with
      code 200 and the trade spread over the generated order id and status. */
  function PlaceTrade(trade: Value, now: nat): (r: Result<Reply, Value>)
    ensures r.Ok? <==> trade.Obj? && Complete(trade.fields)
    ensures trade.Null? || trade.Undefined? ==> r.Err? && r.error.ErrorObj?
    ensures !trade.Null? && !trade.Undefined? && r.Err? ==> r.error == ErrorObj(IncompleteTrade)
    ensures r.Ok? ==>
      && r.value.code == 200 && r.value.message == "订单提交成功"
      && r.value.data == Obj(Spread(Generated(now), trade.fields))
  {
    match ReadProperty(trade, "symbol")
    case Err(m) => Err(ErrorObj(m))
    case Ok(_) =>
      if trade.Obj? && Complete(trade.fields) then
        Ok(Reply(200, Obj(Spread(Generated(now), trade.fields)), "订单提交成功"))
      else Err(ErrorObj(IncompleteTrade))
  }

  /** The order echoes the caller's trade: every field it sent is there
      unchanged (overriding `orderId` and `status` if it sent those), and the
      status is `'submitted'` when it sent none. Zero quantities and empty
      symbols are refused, since the check is by truthiness. */
  lemma PlacedOrderEchoesTrade(trade: map<string, Value>, now: nat)
    requires Complete(trade)
    ensures
      var d := PlaceTrade(Obj(trade), now).value.data.fields;
      && (forall k :: k in trade ==> k in d && d[k] == trade[k])
      && d.Keys == trade.Keys + {"orderId", "status"}
      && ("status" !in trade ==> d["status"] == Str("submitted"))
  {
  }

  lemma ZeroQuantityRefused(trade: map<string, Value>, now: nat)
    requires Get(trade, "quantity") == Num(0.0) || Get(trade, "symbol") == Str("")
    ensures PlaceTrade(Obj(trade), now) == Err(ErrorObj(IncompleteTrade))
  {
  }

  /** `cancelOrder(orderId)`: always succeeds, echoing the id. */
  function CancelOrder(orderId: string): (r: Reply)
    ensures r.code == 200 && r.message == "订单取消成功"
    ensures r.data.Obj? && Get(r.data.fields, "orderId") == Str(orderId) && Get(r.data.fields, "status") == Str("cancelled")
  {
    Reply(200, Obj(map["orderId" := Str(orderId), "status" := Str("cancelled")]), "订单取消成功")
  }

  /** The market-data fixture. */
  const MarketFixture := Obj(map[
    "symbol" := Str("SH_FUTURE"), "price" := Num(1050.0), "change" := Num(50.0),
    "changePercent" := Num(5.0), "high" := Num(1060.0), "low" := Num(1040.0),
    "volume" := Num(1000000.0)])

  /** `getMarketData(symbol)`: the fixture, whatever symbol is asked for. */
  function GetMarketData(symbol: string): (r: Reply)
    ensures r == Reply(200, MarketFixture, "Success")
  {
    Reply(200, MarketFixture, "Success")
  }

  /** The reply does not depend on the symbol requested. */
  lemma MarketDataIgnoresSymbol(a: string, b: string)
    ensures GetMarketData(a) == GetMarketData(b)
  {
  }
}

=== FILE: user_hook.dfy ===
/** The `useUser` hook of src/hooks/useUser.js: the user kept in local
    storage under `'user'`, the mock roles and permissions loaded for it, and
    the two membership checks.

    Storage holds values rather than JSON text: `JSON.stringify` followed by
    `JSON.parse` is taken to give back the value written, except that a
    stored `undefined` (which `setItem` writes as the text "undefined") does
    not parse. A failing `setItem` (for instance a full quota) is a
    parameter carrying its error message. */
module UserHook {
  import opened Js

  datatype State = State(
    storage: map<string, Value>,
    user: Value,
    roles: seq<string>,
    permissions: seq<string>,
    loading: bool,
    error: Option<string>)

  /** The hook's state when it mounts, before `fetchUser` runs. */
  function Mount(storage: map<string, Value>): (s: State)
    ensures s.storage == storage && s.user == Null && s.roles == [] && s.permissions == []
    ensures s.loading && s.error.None?
  {
    State(storage, Null, [], [], true, None)
  }

  const MockRoles: seq<string> := ["admin"]

  const MockPermissions: seq<string> := [
    "view_fund", "edit_fund", "export_report", "manage_users", "view_contract",
    "trade_contract", "view_option", "trade_option", "view_portfolio", "manage_portfolio"]

  /** The fixed permission list has ten distinct entries. */
  lemma MockPermissionsDistinct()
    ensures |MockPermissions| == 10
    ensures forall i, j :: 0 <= i < j < |MockPermissions| ==> MockPermissions[i] != MockPermissions[j]
  {
  }

  /** `fetchUserRolesAndPermissions(userId)`: the mock data, whoever asks. */
  function LoadRolesAndPermissions(s: State, userId: Value): (r: State)
    ensures r == s.(roles := MockRoles, permissions := MockPermissions)
  {
    s.(roles := MockRoles, permissions := MockPermissions)
  }

  datatype LoginResult = LoginResult(success: bool, error: Option<string>)

  /** `login(userData)`. The steps run in order and the first that throws ends
      the call: writing storage, setting the user, reading `userData.id`, loading
      roles and permissions. A failure records its message in `error` and is
      returned; whatever ran before it stays done. */
  function Login(s: State, userData: Value, setItemFails: Option<string>): (r: (State, LoginResult))
    ensures r.1.success <==> setItemFails.None? && !(userData.Null? || userData.Undefined?)
    ensures r.1.success ==>
      && r.0 == s.(storage := s.storage["user" := userData], user := userData, roles := MockRoles, permissions := MockPermissions)
      && r.1.error.None?
    ensures setItemFails.Some? ==> r.0 == s.(error := setItemFails) && r.1 == LoginResult(false, setItemFails)
    ensures setItemFails.None? && !r.1.success ==>
      && r.0.storage == s.storage["user" := userData] && r.0.user == userData
      && r.0.roles == s.roles && r.0.permissions == s.permissions
      && r.0.error.Some? && r.1 == LoginResult(false, r.0.error)
  {
    if setItemFails.Some? then (s.(error := setItemFails), LoginResult(false, setItemFails))
    else
      var s1 := s.(storage := s.storage["user" := userData], user := userData);
      match ReadProperty(userData, "id")
      case Err(m) => (s1.(error := Some(m)), LoginResult(false, Some(m)))
      case Ok(id) => (LoadRolesAndPermissions(s1, id), LoginResult(true, None))
  }

  /** `fetchUser()`, run on mount: restores the stored user, if any, and loads
      its roles and permissions; `error` is cleared first and `loading` ends false. */
  function FetchUser(s: State): (r: State)
    ensures !r.loading && r.storage == s.storage
    ensures "user" !in s.storage ==> r == s.(loading := false, error := None)
    ensures "user" in s.storage && !(s.storage["user"].Null? || s.storage["user"].Undefined?) ==>
      r == s.(user := s.storage["user"], roles := MockRoles, permissions := MockPermissions, loading := false, error := None)
    ensures "user" in s.storage && (s.storage["user"].Null? || s.storage["user"].Undefined?) ==>
      r.error.Some? && r.roles == s.roles && r.permissions == s.permissions
  {
    var s0 := s.(error := None);
    if "user" !in s.storage then s0.(loading := false)
    else
      var stored := s.storage["user"];
      if stored.Undefined? then s0.(error := Some("\"undefined\" is not valid JSON"), loading := false)
      else
        var s1 := s0.(user := stored);
        match ReadProperty(stored, "id")
        case Err(m) => s1.(error := Some(m), loading := false)
        case Ok(id) => LoadRolesAndPermissions(s1, id).(loading := false)
  }

  /** `logout()`: the stored user is removed and the state cleared. */
  function Logout(s: State): (r: State)
    ensures "user" !in r.storage
    ensures forall k :: k != "user" ==> (k in r.storage <==> k in s.storage)
    ensures r.user == Null && r.roles == [] && r.permissions == []
  {
    s.(storage := s.storage - {"user"}, user := Null, roles := [], permissions := [])
  }

  predicate HasPermission(s: State, permission: string) {
    permission in s.permissions
  }

  predicate HasRole(s: State, role: string) {
    role in s.roles
  }

  /** After a successful login the user is an administrator with exactly the
      ten fixed permissions, whatever their id. */
  lemma LoginGrantsMockAccess(s: State, userData: Value, p: string, role: string)
    requires Login(s, userData, None).1.success
    ensures HasRole(Login(s, userData, None).0, role) <==> role == "admin"
    ensures HasPermission(Login(s, userData, None).0, p) <==> p in MockPermissions
  {
  }

  /** After logout nobody has any role or permission. */
  lemma LogoutRevokesEverything(s: State, p: string, role: string)
    ensures !HasPermission(Logout(s), p) && !HasRole(Logout(s), role)
  {
  }

  /** A successful login survives a reload: a fresh hook mounted on the same
      storage restores the same user, roles and permissions. */
  lemma LoginSurvivesReload(s: State, userData: Value)
    requires Login(s, userData, None).1.success
    ensures
      var after := Login(s, userData, None).0;
      var reloaded := FetchUser(Mount(after.storage));
      && reloaded.user == after.user
      && reloaded.roles == after.roles
      && reloaded.permissions == after.permissions
      && reloaded.error.None?
  {
  }

  /** Logging out leaves nothing for the next mount to restore. */
  lemma LogoutSurvivesReload(s: State)
    ensures FetchUser(Mount(Logout(s).storage)) == Mount(Logout(s).storage).(loading := false)
  {
  }
}
